=== FILE: README.md ===
# bas-orchestrator core, modelled in Dafny

bas-orchestrator runs breach-and-attack-simulation campaigns. A campaign
spec names targets and module specs. The engine runs every module spec once,
in declared order, either with a registered in-process module or through a
remote agent reached over mutually authenticated HTTPS, and collects one
`ModuleResult` per spec. Failures scoped to one module (an unknown target, an
unregistered module, a capability the agent did not grant, an `AgentClientError`
from the agent or any exception from an in-process module) become `error` entries instead of ending the run. The engine then
scores the results into an evidence pack that can be signed with HMAC-SHA256.
A separate validator checks summary artifacts against their schema and diffs a
candidate summary against a golden one, with ignore-globs over JSON paths.

The model is a set of pure functions over immutable datatypes:

| file | module | what it covers |
|---|---|---|
| `wrappers.dfy` | `Wrappers` | `Option` and `Result` |
| `json.dfy` | `Json` | JSON values (with the `NaN` and infinities `json.loads` accepts), Python `==` on them (`True == 1 == 1.0`, `nan != nan` while `[nan] == [nan]` through the item identity shortcut), the leaf-by-leaf equality the diff decides, `dict.get` |
| `strings.dfy` | `Strings` | Python string order, `sorted(set)`, `str(int)`, prefixes |
| `models.dfy` | `Models` | the pydantic records, the status literal, the version checks |
| `registry.dfy` | `Registry` | the base, `noop` and `echo_expectation` modules; the registry |
| `policy.dfy` | `Policy` | `_effective_allowlist` |
| `scoring.dfy` | `Scoring` | `score_results` |
| `signing.dfy` | `Signing` | `sign_evidence`, `verify_evidence`, `_sign_payload` |
| `agent_client.dfy` | `AgentClient` | the client config, the handshake and its validations, `execute_module` |
| `engine.dfy` | `Engine` | `run_campaign` and its helpers |
| `engine_properties.dfy` | `EngineProperties` | what every run guarantees |
| `engine_scenarios.dfy` | `EngineScenarios` | concrete campaigns worked end to end |
| `glob.dfy` | `Glob` | `_normalize_path_pattern`, `_pattern_to_regex`, `re.fullmatch`, `_should_ignore_path` |
| `summary_validate.dfy` | `SummaryValidate` | `validate_summary`, `_validate_result` |
| `summary_diff.dfy` | `SummaryDiff` | `diff_summary`, `_diff_values` |

Some things come from outside the code and arrive as parameters:

- The wall clock is `clock: nat -> Instant`, the n-th reading, and the engine threads a reading counter.
- `str(uuid4())` is `freshRunId`.
- The SHA-256 digest of the spec's canonical JSON is `specDigest`.
- HMAC-SHA256 over the pack's canonical JSON is `mac`.
- The agent's HTTPS endpoints, together with the decoding of their replies, are a `Transport`.
- The in-process module code is a `local` runner; `Engine.RegistryLocal` is the registry's own.
- Python's `repr` is a parameter: `repr` on JSON values in the diff's report lines, and `strRepr` on strings, which is what `str` of the registry's `KeyError` yields for the unknown-module note.

Exceptions are data:

- An `AgentClientError` is `Refused(error)`.
- Any other exception out of the client is `Crashed(detail)`.
- A run that such an exception ends is `Aborted(detail)`.

## Model

| member | source | states |
|---|---|---|
| Models.ParseStatus | src/bas_orchestrator/models.py:31-33 | a status string is accepted exactly when it is one of the four literals, and parses back to the status of that name |
| Models.StatusRoundTrip | src/bas_orchestrator/models.py:33 | every status's name is an accepted literal and parses back to that status |
| Models.NewTarget | src/bas_orchestrator/models.py:9-12 | a target built without tags has an empty tag list |
| Models.NewModuleSpec | src/bas_orchestrator/models.py:15-21 | a module spec built from id, module and target has empty expectations, params and scope allowlist |
| Models.NewCampaignSpec | src/bas_orchestrator/models.py:24-28 | a campaign spec built without a version gets version `v1` |
| Models.NewEvidencePack | src/bas_orchestrator/models.py:40-50 | a fresh evidence pack has schema version `v1` and is unsigned |
| Models.NewPolicySpec | src/bas_orchestrator/models.py:57-61 | a default policy has version `v1` and no global, target or module rules |
| Models.CheckCampaignVersion | src/bas_orchestrator/engine.py:23-41 | a campaign spec is accepted unchanged exactly when its version is `v1`; otherwise the error names the unsupported version |
| Models.CheckPolicyVersion | src/bas_orchestrator/engine.py:24-58 | a policy is accepted unchanged exactly when its version is `v1`; otherwise the error names the unsupported version |
| Models.DefaultCampaignVersionSupported | src/bas_orchestrator/models.py:25 | a campaign spec with the default version passes the version check |
| Registry.GetModule | src/bas_orchestrator/modules/registry.py:65-74 | lookup succeeds exactly for `noop` and `echo_expectation`, returns the module of that name, and never returns the base module |
| Registry.ListModules | src/bas_orchestrator/modules/registry.py:77-78 | the listed names are sorted and are exactly the names lookup accepts |
| Registry.ListModulesValue | src/bas_orchestrator/modules/registry.py:77-78 | the listing is `["echo_expectation", "noop"]` |
| Registry.Run | src/bas_orchestrator/modules/registry.py:10-62 | a result carries the context's module id and the two clock readings; the base module skips with reason `base module`; a registered module errors with `empty allowlist` and the note `scope_allowlist must not be empty` exactly when the scope allowlist is empty, and never skips; otherwise `noop` passes with `message: noop completed`, and `echo_expectation` passes exactly when the expected value equals the observed value under Python `==` (a nested `nan` equal to itself, a bare one not), and records both |
| Registry.EchoNestedNaNPasses | src/bas_orchestrator/modules/registry.py:52-54 | `[nan]` expected and `[nan]` observed pass, since list items compare with an identity shortcut |
| Registry.EchoBareNaNFails | src/bas_orchestrator/modules/registry.py:52-54 | a bare `nan` expected and observed fails, since `nan == nan` is false |
| Registry.EchoSymmetric | src/bas_orchestrator/modules/registry.py:52-54 | swapping the expected and observed values does not change the echo module's status |
| Registry.EchoMissingValuesPass | src/bas_orchestrator/modules/registry.py:52-54 | when neither value is given, both read as `None` and the echo module passes |
| Policy.EffectiveAllowlist | src/bas_orchestrator/engine.py:249-259 | without a policy the spec's own allowlist is used; with one, the first non-empty of the module rule, the target rule and the global allowlist, falling back to the spec's own |
| Policy.FirstNonEmptyOfCandidates | src/bas_orchestrator/engine.py:253-259 | the first-non-empty search over the three candidates is the chain of `if`s the source writes |
| Policy.EffectiveAllowlistSources | src/bas_orchestrator/engine.py:249-259 | the result is the spec's own allowlist or a non-empty policy candidate, and it is empty exactly when every source is empty |
| Policy.ModuleRuleWins | src/bas_orchestrator/engine.py:253-254 | a non-empty rule for the module id overrides everything else |
| Policy.TargetRuleNext | src/bas_orchestrator/engine.py:255-256 | without a module rule, a non-empty rule for the target id is used |
| Policy.GlobalAllowlistNext | src/bas_orchestrator/engine.py:257-258 | without module or target rules, a non-empty global allowlist is used |
| Policy.EmptyPolicyKeepsBaseline | src/bas_orchestrator/engine.py:259 | a default policy leaves the spec's own allowlist in force |
| Scoring.Count | src/bas_orchestrator/engine.py:264-267 | a status count never exceeds the number of results |
| Scoring.CountIsMultiplicity | src/bas_orchestrator/engine.py:264-267 | the count of a status is its multiplicity in the multiset of statuses |
| Scoring.CountsPartition | src/bas_orchestrator/engine.py:263-267 | the four counts add up to the total |
| Scoring.CountAppend | src/bas_orchestrator/engine.py:264-267 | counting distributes over concatenation of result lists |
| Scoring.CountUniform | src/bas_orchestrator/engine.py:264-267 | when every result has one status, that status's count is the total |
| Scoring.CountsAreMultiplicities | src/bas_orchestrator/engine.py:264-267 | each of the four counts is the multiplicity of its status |
| Scoring.Ratio | src/bas_orchestrator/engine.py:269 | the score is 0.0 for no results and passed/total otherwise, always within [0, 1] |
| Scoring.ScoreResults | src/bas_orchestrator/engine.py:262-277 | the summary's total is the number of results, each count is the multiplicity of its status, the counts partition the total, and the score is the pass ratio within [0, 1] |
| Scoring.RatioExtremes | src/bas_orchestrator/engine.py:269 | for a non-empty run the score is 1.0 exactly when all pass and 0.0 exactly when none pass |
| Scoring.ScoreExtremes | src/bas_orchestrator/engine.py:262-277 | a non-empty result list scores 1.0 exactly when every result passes and 0.0 exactly when none does |
| Signing.Unsigned | src/bas_orchestrator/engine.py:244 | the signed payload excludes the signature and algorithm fields |
| Signing.Sign | src/bas_orchestrator/engine.py:231-233 | signing sets the algorithm to `hmac-sha256` and the signature to the MAC of the unsigned pack, and changes nothing else |
| Signing.CompareDigest | src/bas_orchestrator/engine.py:240 | `hmac.compare_digest` on text raises its `TypeError` exactly when either side holds a non-ASCII character, and otherwise reports equality |
| Signing.Verify | src/bas_orchestrator/engine.py:236-240 | a pack with another algorithm, no signature or an empty signature gives false; a true result means the stored signature is the MAC of the unsigned pack; the `TypeError` is raised exactly when the algorithm and a non-empty signature pass the first test and the signature or digest is not ASCII |
| Signing.NonAsciiSignatureRaises | src/bas_orchestrator/engine.py:236-240 | a `hmac-sha256` pack whose signature was edited to `é` raises `TypeError` under any key instead of returning false |
| Signing.SignIdempotent | src/bas_orchestrator/engine.py:231-246 | signing an already signed pack with the same key gives the same pack |
| Signing.SignIgnoresOldSignature | src/bas_orchestrator/engine.py:243-246 | whatever signature a pack carried does not affect its new signature |
| Signing.VerifySigned | src/bas_orchestrator/engine.py:231-240 | a freshly signed pack verifies with the same key when the MAC is non-empty ASCII, as a hex digest is |
| Signing.VerifyIsSignFixpoint | src/bas_orchestrator/engine.py:231-240 | a pack verifies exactly when re-signing it changes nothing and its signature is non-empty ASCII |
| Signing.UnsignedPackRejected | src/bas_orchestrator/engine.py:236-238 | a pack fresh from the engine gives false, without raising |
| AgentClient.NewConfig | src/bas_orchestrator/agent_client.py:13-25 | a configuration with only a base URL keeps that URL, is disabled, refuses plain HTTP, and has no certificate, key, CA, agent id, expected policy hash, mock capabilities or mock policy hash |
| AgentClient.Lift | src/bas_orchestrator/agent_client.py:119-144 | every `AgentClientError` the transport gives rise to is a request failure raised by `_post_json` |
| AgentClient.NewClient | src/bas_orchestrator/agent_client.py:39-42 | a new client has no recorded handshake |
| AgentClient.HandshakeGuard | src/bas_orchestrator/agent_client.py:52-59 | a disabled client is refused first; the handshake may proceed exactly when the client is enabled, the URL is not plain HTTP unless that is allowed, and a certificate is given exactly when a key is |
| AgentClient.ValidateHandshake | src/bas_orchestrator/agent_client.py:152-163 | a handshake passes exactly when the agent id is non-empty, the capability list is non-empty, every capability is a non-empty string, and every requested capability is granted |
| AgentClient.ValidatePolicyHash | src/bas_orchestrator/agent_client.py:146-150 | the hash check passes exactly when no non-empty hash is expected or the agent reports that hash |
| AgentClient.MockHandshake | src/bas_orchestrator/agent_client.py:61-66 | the mock agent reports the given agent id or `mock-agent`; its capabilities are exactly the configured mock capabilities when that list is non-empty and exactly the requested ones otherwise; and it reports the configured mock policy hash |
| AgentClient.Handshake | src/bas_orchestrator/agent_client.py:44-86 | a successful handshake passed the guard and both validations, and is recorded on the client; a failed one leaves the client unchanged; a guard failure is the reply; the mock agent never raises anything but an `AgentClientError` |
| AgentClient.MockGrantsRequested | src/bas_orchestrator/agent_client.py:61-70 | a valid mock configuration without mock capabilities grants exactly the requested capabilities and records them |
| AgentClient.ExecuteModule | src/bas_orchestrator/agent_client.py:88-109 | execution is refused when the client is disabled, then when no handshake was recorded, then when the module was not granted; any answer implies all three checks passed; the mock agent never raises anything but an `AgentClientError` |
| AgentClient.MockExecutePasses | src/bas_orchestrator/agent_client.py:95-107 | the mock agent passes the payload's module with the mock evidence and note, stamped with the payload's expiry |
| AgentClient.FailedHandshakeBlocksExecution | src/bas_orchestrator/agent_client.py:88-92 | after a failed handshake an enabled client refuses execution with `handshake required` |
| AgentClient.RequestedModulesGranted | src/bas_orchestrator/agent_client.py:83-94 | after a successful handshake, a module among the requested capabilities is never refused for a missing capability |
| Engine.RegistryLocal | src/bas_orchestrator/engine.py:201-202 | the registry's modules always return a result, under the context's module id |
| Engine.FixedTime | src/bas_orchestrator/engine.py:85 | a fixed time exists exactly in deterministic mode, and it is the epoch |
| Engine.DeterministicRunId | src/bas_orchestrator/engine.py:61-64 | the run id is `det-` followed by the first 16 characters of the spec digest, so 20 characters for a full digest |
| Engine.Stamp | src/bas_orchestrator/engine.py:85-87 | a timestamp is the fixed time without a clock reading, or the next clock reading |
| Engine.NormalizedResult | src/bas_orchestrator/engine.py:67-75 | without a fixed time the result is unchanged; with one, both timestamps become it and nothing else changes |
| Engine.ErrorEntry | src/bas_orchestrator/engine.py:126-135 | an engine-made entry has status `error` with the given id, evidence and notes, stamped with the fixed time when there is one |
| Engine.ContextFor | src/bas_orchestrator/engine.py:153-160 | the module context carries the spec's ids, its params and expectations unchanged, and the effective allowlist |
| Engine.TargetIds | src/bas_orchestrator/engine.py:90 | the target lookup holds exactly the ids of the spec's targets |
| Engine.RequestedCapabilities | src/bas_orchestrator/engine.py:97 | the requested capabilities are sorted and are exactly the module names the spec uses |
| Engine.PayloadFor | src/bas_orchestrator/engine.py:175-186 | the payload carries the run id, the spec's id, module name, target id, params and expectations unchanged, the given scope allowlist and the expiry |
| Engine.RunModules | src/bas_orchestrator/engine.py:124-215 | a loop that is not ended by an exception yields exactly one entry per module spec |
| Engine.HandshakeFailedResults | src/bas_orchestrator/engine.py:102-111 | a failed handshake yields one `error` entry per module spec, in order, with the spec's id, the handshake failure message and no notes; stamped at the fixed time when there is one, and otherwise with two fresh clock readings per entry in order |
| Engine.Finish | src/bas_orchestrator/engine.py:217-228 | the pack carries the campaign name, run id, start time and results, the score and summary of those results, is unsigned with schema `v1`, and finishes at the fixed time when there is one |
| EngineProperties.RunCompletes | src/bas_orchestrator/engine.py:78-228 | without an agent, with the mock agent, or with a transport that decodes every reply, a run always produces an evidence pack |
| EngineProperties.HandshakeDoesNotCrash | src/bas_orchestrator/engine.py:93-101 | under the same conditions the opening handshake raises nothing but an `AgentClientError` |
| EngineProperties.RunShape | src/bas_orchestrator/engine.py:78-228 | a completed run has one result per module spec, a summary total equal to the number of specs, the campaign's name, the deterministic or fresh run id, schema `v1`, no signature, and the score and summary of its own results |
| EngineProperties.RunAccounts | src/bas_orchestrator/engine.py:124-215 | after a successful or absent handshake, the i-th entry is, timestamps aside, exactly what the i-th spec calls for: an unknown target, then an unregistered module (noted with the `repr` of `Unknown module: <name>`), each an `error` with its evidence; without an agent, the local module's result, or for an exception an `error` whose evidence is `module exception` with its message; with an agent, an `error` noting `missing capability: <module>` for an ungranted module, the mock agent's pass, or the real agent's reply to the payload with the run id and effective allowlist, or for a request failure an `error` whose evidence is `agent failure` with its message |
| EngineProperties.DispatchAccounts | src/bas_orchestrator/engine.py:124-215 | one loop step that appends an entry appends, timestamps aside, exactly the entry its module spec calls for (the cases listed for RunAccounts), at the fixed time when there is one; with no exception possible it always appends |
| EngineProperties.RunModulesAccounts | src/bas_orchestrator/engine.py:124-215 | every entry of a completed loop is, timestamps aside, exactly the entry the module spec at its position calls for, at the fixed time when there is one |
| EngineProperties.LocalDispatchAccounts | src/bas_orchestrator/engine.py:198-215 | without an agent a registered module on a known target always yields an entry: its result, or for an exception an `error` with evidence `module exception` and the message, under the spec's id |
| EngineProperties.MockDispatchAccounts | src/bas_orchestrator/engine.py:174-186 | a module the mock agent granted always yields a pass under the spec's id with the mock evidence and note |
| EngineProperties.RealDispatchAccounts | src/bas_orchestrator/engine.py:174-199 | a module the real agent granted yields the agent's decoded reply to its payload, or for a request failure an `error` with evidence `agent failure` and the message; only an undecodable reply ends the loop |
| EngineProperties.HandshakeFailureErrorsAll | src/bas_orchestrator/engine.py:101-122 | after a refused handshake the run completes with every entry an `error` carrying the spec's id and the handshake message and no notes, and every result counted as errored |
| EngineProperties.FailedRun | src/bas_orchestrator/engine.py:101-122 | a refused handshake short-circuits straight to the pack of per-spec handshake errors |
| EngineProperties.HandshakeFailureDispatchesNothing | src/bas_orchestrator/engine.py:101-124 | after a refused handshake neither local modules nor agent execution are consulted |
| EngineProperties.DeterministicStamps | src/bas_orchestrator/engine.py:85-87 | a deterministic run starts, finishes and stamps every entry at the epoch, with run id `det-` and the first 16 digest characters |
| EngineProperties.DeterministicReproducible | src/bas_orchestrator/engine.py:85-228 | with modules that read the clock only for their timestamps, a deterministic run's pack depends neither on the wall clock nor on the random run id |
| EngineProperties.RunModulesClockFree | src/bas_orchestrator/engine.py:124-215 | with a fixed time, the module loop does not depend on the clock |
| EngineProperties.HandshakeFailedClockFree | src/bas_orchestrator/engine.py:102-111 | with a fixed time, the handshake-failure entries do not depend on the clock |
| EngineProperties.DispatchClockFree | src/bas_orchestrator/engine.py:124-215 | with a fixed time, one loop step does not depend on the clock |
| EngineProperties.ExecuteClockFree | src/bas_orchestrator/agent_client.py:95-97 | when the payload carries an expiry, execution ignores the current time |
| EngineProperties.RegistryIsTimeInsensitive | src/bas_orchestrator/modules/registry.py:10-62 | the registry's modules read the clock only for their timestamps |
| EngineScenarios.RegistryRun | src/bas_orchestrator/engine.py:78-228 | a run without an agent on the registry's modules always completes, with one accounted entry per spec and its own score |
| EngineScenarios.RegistryEntry | src/bas_orchestrator/engine.py:153-215 | timestamps aside, the entry for a known target and registered module is the registry module's own result under the effective allowlist, with the spec's id |
| EngineScenarios.NoopEntry | src/bas_orchestrator/modules/registry.py:13-33 | a `noop` spec with a non-empty effective allowlist passes |
| EngineScenarios.EchoEntry | src/bas_orchestrator/modules/registry.py:39-62 | an `echo_expectation` spec with a non-empty effective allowlist passes exactly when expectation and parameter are equal under Python `==`, shared nested `nan` included |
| EngineScenarios.StrayEntries | src/bas_orchestrator/engine.py:124-136 | in the campaign with a stray spec the no-op passes, the stray spec is exactly the `error` noting `Unknown target: missing-host` under id `noop-2`, and the echo fails |
| EngineScenarios.NoopAndEchoScenario | src/bas_orchestrator/engine.py:78-228 | a deterministic run of one passing `noop` and one mismatching `echo_expectation` scores 0.5 with summary 2/1/1/0/0, stamped at the epoch |
| EngineScenarios.UnknownTargetScenario | src/bas_orchestrator/engine.py:124-136 | adding a spec on a missing target yields an `error` entry at its position, under its id, and summary 3/1/1/1/0 |
| EngineScenarios.CapabilityGapScenario | src/bas_orchestrator/engine.py:93-122 | a mock agent whose capabilities lack the requested module fails the handshake, and the run reports that spec as errored |
| EngineScenarios.GlobalAllowlistScenario | src/bas_orchestrator/engine.py:249-259 | a spec with an empty allowlist errors alone, and passes once a policy's global allowlist supplies one |
| EngineScenarios.OnePassOneFail | src/bas_orchestrator/engine.py:262-277 | one pass and one fail score 0.5 with summary 2/1/1/0/0 |
| EngineScenarios.OnePassOneErrorOneFail | src/bas_orchestrator/engine.py:262-277 | one pass, one error and one fail give summary 3/1/1/1/0 |
| Strings.LessIrreflexive | src/bas_orchestrator/modules/registry.py:78 | the string order used by `sorted` is irreflexive |
| Strings.LessAsymmetric | src/bas_orchestrator/modules/registry.py:78 | the string order is asymmetric |
| Strings.LessTransitive | src/bas_orchestrator/modules/registry.py:78 | the string order is transitive |
| Strings.LessTotal | src/bas_orchestrator/modules/registry.py:78 | any two distinct strings are ordered |
| Strings.MinimumExists | src/bas_orchestrator/modules/registry.py:78 | every non-empty set of strings has a least element |
| Strings.MinimumUnique | src/bas_orchestrator/modules/registry.py:78 | the least element is unique |
| Strings.SortedSet | src/bas_orchestrator/summary_validate.py:24 | `sorted` of a set is ascending, has exactly the set's members, and has one entry per member |
| Strings.SortedUnique | src/bas_orchestrator/summary_validate.py:24 | two ascending lists with the same members are equal, so the sorted order is the only one |
| Strings.NatToDecimal | src/bas_orchestrator/summary_validate.py:150 | an index is rendered as a non-empty run of digits |
| Strings.DecimalRoundTrip | src/bas_orchestrator/summary_validate.py:150 | reading the rendered digits back gives the index |
| Strings.Prefix | src/bas_orchestrator/engine.py:64 | slicing `[:n]` yields the first n characters, or the whole string when shorter |
| Json.PyEqReflexive | src/bas_orchestrator/modules/registry.py:54 | a JSON value equals itself under Python `==` exactly when it is not a bare `nan`; inside lists and dicts the one shared `nan` equals itself |
| Json.LeafEqReflexive | src/bas_orchestrator/summary_validate.py:156 | compared leaf by leaf with `!=`, a value equals itself exactly when it holds no `nan` |
| Json.LeafEqIsPyEq | src/bas_orchestrator/summary_validate.py:113-157 | leaf-by-leaf equality implies Python `==`, and the two agree whenever the first value holds no `nan` |
| Json.PyEqSymmetric | src/bas_orchestrator/modules/registry.py:54 | Python `==` on JSON values is symmetric |
| Json.Get | src/bas_orchestrator/modules/registry.py:52-53 | `dict.get` yields the value for a present key and `None` otherwise |
| Glob.NormalizePattern | src/bas_orchestrator/summary_validate.py:160-165 | a normalized pattern starts with `$` and ends with the original; it is unchanged exactly when it already starts with `$`; otherwise a `.`-led pattern gains `$` in front and any other gains `$.` |
| Glob.NormalizeIdempotent | src/bas_orchestrator/summary_validate.py:160-165 | normalizing twice is normalizing once |
| Glob.ShouldIgnore | src/bas_orchestrator/summary_validate.py:168-175 | a path is ignored exactly when one of the patterns' expressions fully matches it |
| Glob.MatchesIffInLanguage | src/bas_orchestrator/summary_validate.py:173 | the backtracking full-match procedure accepts a string exactly when the string splits into one piece per token that the token stands for |
| Glob.MatchIndexIff | src/bas_orchestrator/summary_validate.py:189 | after `[`, the index expression matches exactly when one or more digits, then `]`, then a match of the rest follow |
| Glob.ReplaceAbsent | src/bas_orchestrator/summary_validate.py:180 | `replace` leaves a text without the pattern unchanged |
| Glob.ReplaceAfter | src/bas_orchestrator/summary_validate.py:180 | `replace` substitutes the first occurrence and carries on after it, provided no earlier occurrence starts |
| Glob.LiteralPattern | src/bas_orchestrator/summary_validate.py:178-190 | a pattern without wildcards compiles to its literal characters and matches only itself |
| Glob.IndexPatternTokens | src/bas_orchestrator/summary_validate.py:179-189 | `a[*]b` compiles to the literals of `a`, the index expression, and the literals of `b` |
| Glob.PlaceholderText | src/bas_orchestrator/summary_validate.py:179-180 | `[*]` in `a[*]b` is swapped for the placeholder text |
| Glob.PlaceholderTokens | src/bas_orchestrator/summary_validate.py:189 | the escaped placeholder is swapped for the index expression |
| Glob.IndexPattern | src/bas_orchestrator/summary_validate.py:178-190 | `a[*]b` matches exactly the paths `a[d]b` with `d` one or more digits |
| Glob.EveryIndexMatches | src/bas_orchestrator/summary_validate.py:150-189 | `a[*]b` matches the path of every array index the differ renders |
| Glob.StarAlone | src/bas_orchestrator/summary_validate.py:183-184 | `.*` matches exactly the strings without a newline |
| Glob.TrailingStar | src/bas_orchestrator/summary_validate.py:182-188 | `a*` compiles to the literals of `a` then `.*`, and matches exactly the newline-free extensions of `a` |
| SummaryValidate.Check | src/bas_orchestrator/summary_validate.py:28-39 | a type check reports nothing exactly when it holds, and exactly its one message when it fails |
| SummaryValidate.MissingMessages | src/bas_orchestrator/summary_validate.py:24-26 | one message per missing required field, in sorted order; nothing exactly when all are present; a field is reported exactly when it is missing |
| SummaryValidate.FieldErrors | src/bas_orchestrator/summary_validate.py:28-39 | the top-level type checks report nothing exactly when every present field has its type, and every present field of the wrong type has its own message |
| SummaryValidate.TextFieldErrors | src/bas_orchestrator/summary_validate.py:30-37 | the string-field checks report nothing exactly when every present text field is a string, and each present non-string one is reported by name |
| SummaryValidate.CountErrors | src/bas_orchestrator/summary_validate.py:46-52 | the count checks report nothing exactly when every count is present and a non-negative integer; every missing count and every count that is not a non-negative integer has its own message, and there is at most one per count |
| SummaryValidate.SummaryErrors | src/bas_orchestrator/summary_validate.py:41-52 | the summary check reports nothing exactly when the summary is absent or an object with five valid counts; a non-object gets the single object message, and every failed count check is reported |
| SummaryValidate.ResultErrors | src/bas_orchestrator/summary_validate.py:68-88 | one result's checks report nothing exactly when the entry is a valid result, and report every missing field and every failed type check |
| SummaryValidate.EntryTypeErrors | src/bas_orchestrator/summary_validate.py:74-88 | a result's type checks report nothing exactly when every present field has its type and the status is one of the four literals, and report every one that fails |
| SummaryValidate.StatusErrors | src/bas_orchestrator/summary_validate.py:76-80 | the status check reports nothing exactly when the status is absent or one of the four literals; a non-string gets only the string message, and any other string only the literal message |
| SummaryValidate.DetailErrors | src/bas_orchestrator/summary_validate.py:81-88 | the duration, evidence-reference and notes checks report nothing exactly when each present one has its type, and report each one that fails |
| SummaryValidate.EntryErrors | src/bas_orchestrator/summary_validate.py:59-63 | one array item reports nothing exactly when it is a valid result object; a non-object gets only `results[<i>] must be object`, and an object gets every message its checks call for |
| SummaryValidate.EntriesErrors | src/bas_orchestrator/summary_validate.py:59-63 | the item checks report nothing exactly when every item is a valid result, and every item's failures are reported under its own index |
| SummaryValidate.ResultsErrors | src/bas_orchestrator/summary_validate.py:54-63 | the results check reports nothing exactly when results are absent or an array of valid results; a non-array gets the single array message, and every item's failures are reported |
| SummaryValidate.ValidateSummary | src/bas_orchestrator/summary_validate.py:8-65 | a non-object gets the single object error; otherwise the errors begin with one message per missing required field, in sorted order, and every check that fails, top-level type, count or per-entry, has its message among them |
| SummaryValidate.ValidateSummaryIff | src/bas_orchestrator/summary_validate.py:8-88 | no errors are reported exactly when the payload is a valid summary: an object with every required field, each of its type, five valid counts and valid results |
| SummaryValidate.SomeMissing | src/bas_orchestrator/summary_validate.py:24-26 | a missing required field is always reported and makes the summary invalid |
| SummaryValidate.ReportsEveryMissingField | src/bas_orchestrator/summary_validate.py:24-26 | every missing required field gets its own `missing field:` message |
| SummaryValidate.AllPresent | src/bas_orchestrator/summary_validate.py:28-63 | with every field present, no errors are reported exactly when the summary is valid |
| SummaryValidate.PresentFieldsIff | src/bas_orchestrator/summary_validate.py:28-63 | with every field present, validity is the absence of type, count and result errors |
| SummaryValidate.BooleanCountsAccepted | src/bas_orchestrator/summary_validate.py:51 | a `true` count passes the integer check, because a Python bool is an int |
| SummaryDiff.KeyReports | src/bas_orchestrator/summary_validate.py:127-130 | one `missing` or `extra` report per key, in order, at the key's path |
| SummaryDiff.Strip | src/bas_orchestrator/summary_validate.py:103-105 | dropping ignored fields keeps exactly the other keys with their values |
| SummaryDiff.Patterns | src/bas_orchestrator/summary_validate.py:108 | one normalized, `$`-rooted glob per ignore path |
| SummaryDiff.DiffSummary | src/bas_orchestrator/summary_validate.py:91-110 | a non-object golden or candidate gets its single error; otherwise one rendered line per difference found below `$` |
| SummaryDiff.DiffEmptyIffEqual | src/bas_orchestrator/summary_validate.py:113-157 | without ignore globs, two values have no differences exactly when they are equal leaf by leaf; when the golden value holds no `nan`, exactly when they are equal under Python `==` |
| SummaryDiff.EqualNoDiff | src/bas_orchestrator/summary_validate.py:113-157 | values equal leaf by leaf have no differences, with any ignore globs |
| SummaryDiff.NoDiffEqual | src/bas_orchestrator/summary_validate.py:113-157 | without ignore globs, no differences means the values are equal leaf by leaf, and so under Python `==` |
| SummaryDiff.SelfDiffEmpty | src/bas_orchestrator/summary_validate.py:91-110 | a summary holding no `nan` has no differences with itself, whatever is ignored |
| SummaryDiff.SelfDiffIffNaNFree | src/bas_orchestrator/summary_validate.py:91-157 | with nothing ignored, a summary has no differences with itself exactly when it holds no `nan`, since `nan != nan` in Python |
| SummaryDiff.IgnoredFieldsOnlyDiffer | src/bas_orchestrator/summary_validate.py:103-110 | summaries whose fields outside the ignored ones are equal leaf by leaf have no differences |
| SummaryDiff.ReportSound | src/bas_orchestrator/summary_validate.py:113-157 | an ignored path reports nothing; every report lies under the compared path, a length or value report is at a path no glob ignores, lengths reported differ, and values reported are unequal |
| SummaryDiff.ObjectSound | src/bas_orchestrator/summary_validate.py:124-139 | the same soundness for the reports of two objects |
| SummaryDiff.ItemsSound | src/bas_orchestrator/summary_validate.py:146-153 | the same soundness for the reports of paired array items |
| SummaryDiff.ObjectReportOrder | src/bas_orchestrator/summary_validate.py:124-131 | for two objects at a path no glob ignores, the reports open with the `missing` reports of the golden-only keys and then the `extra` reports of the candidate-only keys, each group in ascending key order |
| SummaryDiff.ArrayLengthFirst | src/bas_orchestrator/summary_validate.py:141-145 | for two arrays of different lengths at a path no glob ignores, the first report is the length difference |
| SummaryDiff.ChangedFieldReported | src/bas_orchestrator/summary_validate.py:131-157 | a changed string field is reported once, as a value difference at `$.<key>` |
| SummaryDiff.IgnoredFieldSilent | src/bas_orchestrator/summary_validate.py:121-122 | a key-named ignore path silences a changed field |
| SummaryDiff.MissingKeyStillReported | src/bas_orchestrator/summary_validate.py:121-130 | a key missing from the candidate is reported even when an ignore glob matches its path, because only the object's path is checked |
| SummaryDiff.FieldGlob | src/bas_orchestrator/summary_validate.py:160-175 | a wildcard-free ignore path matches exactly its normalized self |
| SummaryDiff.NoIgnoredFields | src/bas_orchestrator/summary_validate.py:103-109 | without ignored fields the comparison starts from the objects as given |

## Left out

- Reading campaign and policy YAML files, JSON schema export, the summary schema, the CLI commands and their file I/O are not part of this model; `load_campaign` and `load_policy` appear only as their version checks.
- `compute_policy_hash` and `validate_summary_counts` are not part of this model.
- The HTTPS transport is a parameter: `_post_json`, TLS contexts, certificates, timeouts and the URLs posted to are left out. Its outcome is modelled as a decoded reply, a request failure that `_post_json` reports, or a reply the client cannot decode.
- The HMAC-SHA256 digest, the SHA-256 spec digest and canonical JSON serialization are parameters, because they are cryptography and encoding outside the control flow.
- Signing.Verify: does not state that a pack signed with one key fails verification with another, because that is a property of HMAC and not of the code.
- `uuid4`, `datetime.now` and Python's `repr` are parameters, and datetimes are opaque instants.
- Every `nan` in one decoded document is taken to be the same float object, which is what `yaml.safe_load` and `json.loads` return; a `nan` computed separately, which would not be identical, is not modelled.
- Finite floats are modelled as reals, so rounding in `passed / total` is left out; `NaN` and the infinities are kept as their own values.
- Engine.RunModules: its own contract gives only the entry count; what each entry holds is stated by EngineProperties.RunModulesAccounts.
- `\d` is modelled as the ASCII digits, as for a path built from `str(int)`; the other Unicode decimal digits Python's `re` accepts are left out.
- Glob.LiteralPattern, Glob.IndexPatternTokens, Glob.PlaceholderTokens, Glob.IndexPattern, Glob.TrailingStar, Glob.EveryIndexMatches, SummaryDiff.FieldGlob, SummaryDiff.IgnoredFieldSilent and SummaryDiff.MissingKeyStillReported: proved for parts free of `*`, `?` and the letter `X`. That is a sufficient condition that keeps the placeholder from occurring by accident, and not the exact boundary of the source's behaviour.
- A real agent reply that pydantic or `list(...)` rejects raises an exception that is not an `AgentClientError`. Such an exception escapes `run_campaign`, and the model ends the run as `Aborted`. The code only catches `AgentClientError` around the agent calls, and the model follows the code.
- The JSON shape of the agent's handshake reply is kept only as far as validation reads it: the agent id as text and the capabilities as JSON values.

=== FILE: agent_client.dfy ===
/** The agent protocol client: a capability handshake followed by module
    execution, over a real transport or over the in-process `mock://`
    transport. The client is a record whose only state is the session, set
    by a successful handshake; operations return the reply together with the
    client as it is afterwards. */
module AgentClient {
  import opened Wrappers
  import opened Json
  import opened Strings
  import opened Models

  /** Connection settings. `timeout_seconds` only bounds the real transport
      and is not part of the model. */
  datatype AgentClientConfig = AgentClientConfig(
    baseUrl: string,
    certPath: Option<string>,
    keyPath: Option<string>,
    caPath: Option<string>,
    enabled: bool,
    agentId: Option<string>,
    expectedPolicyHash: Option<string>,
    allowInsecureHttp: bool,
    mockCapabilities: Option<seq<string>>,
    mockPolicyHash: Option<string>)

  /** A configuration with every optional setting at its default (disabled). */
  function NewConfig(baseUrl: string): (c: AgentClientConfig)
    ensures c.baseUrl == baseUrl
    ensures !c.enabled && !c.allowInsecureHttp
    ensures c.certPath.None? && c.keyPath.None? && c.caPath.None?
    ensures c.agentId.None? && c.expectedPolicyHash.None?
    ensures c.mockCapabilities.None? && c.mockPolicyHash.None?
  {
    AgentClientConfig(baseUrl, None, None, None, false, None, None, false, None, None)
  }

  /** Python truthiness of an optional string: neither `None` nor `""`. */
  predicate Truthy(o: Option<string>) {
    o.Some? && o.value != ""
  }

  predicate IsMock(c: AgentClientConfig) {
    StartsWith(c.baseUrl, "mock://")
  }

  /** What an agent reports in its handshake answer. Capabilities and the
      policy hash are JSON values, since a real agent may send anything;
      `JNull` stands for an absent policy hash. */
  datatype HandshakeResult = HandshakeResult(agentId: string, capabilities: seq<Json>, policyHash: Json)

  /** The body of a handshake request to a real agent. */
  datatype HandshakeRequest = HandshakeRequest(agentId: string, capabilities: seq<string>, version: string)

  /** The body of an execution request; each field the client reads with
      `payload.get` may be missing. */
  datatype ModulePayload = ModulePayload(
    runId: Option<string>,
    moduleId: Option<string>,
    moduleName: Option<string>,
    targetId: Option<string>,
    params: map<string, Json>,
    expectations: map<string, Json>,
    allowlist: seq<string>,
    expiresAt: Option<Instant>)

  /** The client's failures, each an `AgentClientError`. */
  datatype AgentError =
    | Disabled
    | InsecureUrl
    | TlsPairing
    | MissingAgentId
    | MissingCapabilities
    | InvalidCapability
    | MissingRequested
    | PolicyHashMismatch
    | HandshakeRequired
    | CapabilityMissing
    | RequestFailed(detail: string)
  {
    /** `str(exc)`. */
    function Message(): string {
      match this
      case Disabled => "Agent client disabled"
      case InsecureUrl => "Insecure agent URL; use https:// or allow_insecure_http"
      case TlsPairing => "Both cert_path and key_path are required for TLS client auth"
      case MissingAgentId => "Agent handshake missing agent_id"
      case MissingCapabilities => "Agent handshake missing capabilities"
      case InvalidCapability => "Agent handshake returned invalid capability"
      case MissingRequested => "Agent missing requested capabilities"
      case PolicyHashMismatch => "Agent policy hash mismatch"
      case HandshakeRequired => "Agent handshake required before execution"
      case CapabilityMissing => "Agent missing capability for module"
      case RequestFailed(d) => d
    }
  }

  /** How a client call ends: with a value, with an `AgentClientError`, or
      with some other exception escaping the client (a reply that
      `ModuleResult.model_validate` or `list(...)` rejects). */
  datatype Reply<+T> = Answered(value: T) | Refused(error: AgentError) | Crashed(detail: string)

  /** What the real transport yields for one request: the decoded reply;
      a failure `_post_json` reports as an `AgentClientError` (the request
      failed, or the body is not JSON or not an object); or a reply the
      client's decoding rejects with some other exception. */
  datatype Wire<+T> = Received(value: T) | TransportFailed(detail: string) | Undecodable(detail: string)

  /** The real transport: HTTPS requests to the agent plus decoding of its
      JSON replies. */
  datatype Transport = Transport(
    handshake: HandshakeRequest -> Wire<HandshakeResult>,
    execute: ModulePayload -> Wire<ModuleResult>)

  /** How a non-value outcome of the transport surfaces from the client. */
  function Lift<T>(w: Wire<T>): (r: Reply<T>)
    ensures r.Refused? ==> r.error.RequestFailed?
  {
    match w
    case Received(v) => Answered(v)
    case TransportFailed(d) => Refused(RequestFailed(d))
    case Undecodable(d) => Crashed(d)
  }

  datatype Client = Client(config: AgentClientConfig, session: Option<HandshakeResult>)

  function NewClient(config: AgentClientConfig): (c: Client)
    ensures c.session.None?
  {
    Client(config, None)
  }

  /** The guards checked before any handshake traffic, in source order. */
  function HandshakeGuard(config: AgentClientConfig): (e: Option<AgentError>)
    ensures !config.enabled ==> e == Some(Disabled)
    ensures e.None? <==>
      && config.enabled
      && !(StartsWith(config.baseUrl, "http://") && !config.allowInsecureHttp)
      && (Truthy(config.certPath) <==> Truthy(config.keyPath))
  {
    if !config.enabled then Some(Disabled)
    else if StartsWith(config.baseUrl, "http://") && !config.allowInsecureHttp then Some(InsecureUrl)
    else if (Truthy(config.certPath) && !Truthy(config.keyPath)) || (Truthy(config.keyPath) && !Truthy(config.certPath)) then Some(TlsPairing)
    else None
  }

  /** A capability entry the agent may grant: a non-empty string. */
  predicate ValidCapability(c: Json) {
    c.JString? && c.s != ""
  }

  /** `requested` names a capability the agent granted. */
  predicate Granted(h: HandshakeResult, name: string) {
    JString(name) in h.capabilities
  }

  /** `_validate_handshake`, the first failure in source order. */
  function ValidateHandshake(h: HandshakeResult, requested: seq<string>): (e: Option<AgentError>)
    ensures e.None? <==>
      && h.agentId != ""
      && h.capabilities != []
      && (forall i :: 0 <= i < |h.capabilities| ==> ValidCapability(h.capabilities[i]))
      && (forall q :: q in requested ==> Granted(h, q))
  {
    if h.agentId == "" then Some(MissingAgentId)
    else if h.capabilities == [] then Some(MissingCapabilities)
    else if exists i :: 0 <= i < |h.capabilities| && !ValidCapability(h.capabilities[i]) then Some(InvalidCapability)
    else if exists i :: 0 <= i < |requested| && !Granted(h, requested[i]) then Some(MissingRequested)
    else None
  }

  /** `_validate_policy_hash`: only a non-empty expected hash is checked. */
  function ValidatePolicyHash(h: HandshakeResult, expected: Option<string>): (e: Option<AgentError>)
    ensures e.None? <==> !Truthy(expected) || h.policyHash == JString(expected.value)
  {
    if Truthy(expected) && JString(expected.value) != h.policyHash then Some(PolicyHashMismatch) else None
  }

  /** What the `mock://` agent answers: the caller's agent id or
      `"mock-agent"`, the configured capabilities or else the requested ones,
      and the configured policy hash. */
  function MockHandshake(config: AgentClientConfig, agentId: Option<string>, requested: seq<string>): (h: HandshakeResult)
    ensures Truthy(agentId) ==> h.agentId == agentId.value
    ensures !Truthy(agentId) ==> h.agentId == "mock-agent"
    ensures var caps := if config.mockCapabilities.Some? && config.mockCapabilities.value != []
                        then config.mockCapabilities.value else requested;
            && |h.capabilities| == |caps|
            && (forall c :: c in h.capabilities ==> c.JString? && c.s in caps)
            && (forall x :: x in caps ==> JString(x) in h.capabilities)
    ensures h.policyHash == if config.mockPolicyHash.Some? then JString(config.mockPolicyHash.value) else JNull
  {
    var caps := if config.mockCapabilities.Some? && config.mockCapabilities.value != []
                then config.mockCapabilities.value else requested;
    var granted := seq(|caps|, i requires 0 <= i < |caps| => JString(caps[i]));
    assert forall x :: x in caps ==> JString(x) in granted by {
      forall x | x in caps
        ensures JString(x) in granted
      {
        var i :| 0 <= i < |caps| && caps[i] == x;
        assert granted[i] == JString(x);
      }
    }
    HandshakeResult(
      if Truthy(agentId) then agentId.value else "mock-agent",
      granted,
      if config.mockPolicyHash.Some? then JString(config.mockPolicyHash.value) else JNull)
  }

  /** Checks a received answer and records it as the session when it passes. */
  function Accept(c: Client, h: HandshakeResult, requested: seq<string>, expected: Option<string>): (r: (Reply<HandshakeResult>, Client))
  {
    var invalid := ValidateHandshake(h, requested);
    if invalid.Some? then (Refused(invalid.value), c)
    else
      var mismatch := ValidatePolicyHash(h, expected);
      if mismatch.Some? then (Refused(mismatch.value), c)
      else (Answered(h), c.(session := Some(h)))
  }

  /** `AgentClient.handshake`. */
  function Handshake(c: Client, agentId: Option<string>, requested: seq<string>, version: string,
                     expected: Option<string>, transport: Transport): (r: (Reply<HandshakeResult>, Client))
    ensures !r.0.Answered? ==> r.1 == c
    ensures r.0.Answered? ==> r.1 == c.(session := Some(r.0.value))
    ensures r.0.Answered? ==>
      && HandshakeGuard(c.config).None?
      && ValidateHandshake(r.0.value, requested).None?
      && ValidatePolicyHash(r.0.value, expected).None?
    ensures HandshakeGuard(c.config).Some? ==> r.0 == Refused(HandshakeGuard(c.config).value)
    ensures IsMock(c.config) ==> !r.0.Crashed?
  {
    var guard := HandshakeGuard(c.config);
    if guard.Some? then (Refused(guard.value), c)
    else if IsMock(c.config) then
      Accept(c, MockHandshake(c.config, agentId, requested), requested, expected)
    else
      var request := HandshakeRequest(if Truthy(agentId) then agentId.value else "orchestrator", requested, version);
      match transport.handshake(request)
      case Received(h) => Accept(c, h, requested, expected)
      case other => (Lift(other), c)
  }

  /** The mock agent grants everything it was asked for when it is not
      configured with capabilities of its own and no policy hash is expected. */
  lemma MockGrantsRequested(config: AgentClientConfig, agentId: Option<string>, requested: seq<string>,
                            version: string, transport: Transport)
    requires HandshakeGuard(config).None? && IsMock(config)
    requires config.mockCapabilities.None? || config.mockCapabilities == Some([])
    requires requested != [] && forall i :: 0 <= i < |requested| ==> requested[i] != ""
    ensures var r := Handshake(NewClient(config), agentId, requested, version, None, transport);
            && r.0.Answered?
            && r.0.value.capabilities == seq(|requested|, i requires 0 <= i < |requested| => JString(requested[i]))
            && r.1.session == Some(r.0.value)
  {
    var h := MockHandshake(config, agentId, requested);
    assert forall q :: q in requested ==> Granted(h, q) by {
      forall q | q in requested
        ensures Granted(h, q)
      {
        var i :| 0 <= i < |requested| && requested[i] == q;
        assert h.capabilities[i] == JString(q);
      }
    }
  }

  /** `AgentClient.execute_module`; `now` is the clock reading the mock path takes. */
  function ExecuteModule(c: Client, payload: ModulePayload, now: Instant, transport: Transport): (r: Reply<ModuleResult>)
    ensures !c.config.enabled ==> r == Refused(Disabled)
    ensures c.config.enabled && c.session.None? ==> r == Refused(HandshakeRequired)
    ensures c.config.enabled && c.session.Some? && !PayloadGranted(c.session.value, payload) ==> r == Refused(CapabilityMissing)
    ensures r.Answered? ==> c.config.enabled && c.session.Some? && PayloadGranted(c.session.value, payload)
    ensures IsMock(c.config) ==> !r.Crashed?
  {
    if !c.config.enabled then Refused(Disabled)
    else if c.session.None? then Refused(HandshakeRequired)
    else if !PayloadGranted(c.session.value, payload) then Refused(CapabilityMissing)
    else if IsMock(c.config) then
      var stamp := payload.expiresAt.GetOr(now);
      Answered(ModuleResult(payload.moduleId.GetOr("unknown"), Pass, stamp, stamp, MockEvidence, Some(MockNotes)))
    else Lift(transport.execute(payload))
  }

  /** `payload.get("module") in capabilities`, where a missing module reads as `None`. */
  predicate PayloadGranted(h: HandshakeResult, payload: ModulePayload) {
    (if payload.moduleName.Some? then JString(payload.moduleName.value) else JNull) in h.capabilities
  }

  /** Whether `ExecuteModule` reaches the mock branch, the only one that reads the clock. */
  predicate ExecuteReadsClock(c: Client, payload: ModulePayload) {
    c.config.enabled && c.session.Some? && PayloadGranted(c.session.value, payload) && IsMock(c.config)
  }

  const MockEvidence: map<string, Json> := map["mock" := JBool(true)]
  const MockNotes: string := "mock agent result"

  /** The mock agent reports a pass for the payload's module, stamped with the payload's expiry. */
  lemma MockExecutePasses(c: Client, payload: ModulePayload, now: Instant, transport: Transport)
    requires ExecuteReadsClock(c, payload)
    requires payload.moduleId.Some? && payload.expiresAt.Some?
    ensures var r := ExecuteModule(c, payload, now, transport);
            && r.Answered?
            && r.value.status == Pass
            && r.value.moduleId == payload.moduleId.value
            && r.value.startedAt == payload.expiresAt.value == r.value.finishedAt
            && r.value.evidence == MockEvidence && r.value.notes == Some(MockNotes)
  {
  }

  /** A handshake that failed leaves a fresh client unable to execute anything. */
  lemma FailedHandshakeBlocksExecution(config: AgentClientConfig, agentId: Option<string>, requested: seq<string>,
                                       version: string, expected: Option<string>, transport: Transport,
                                       payload: ModulePayload, now: Instant)
    requires config.enabled
    requires !Handshake(NewClient(config), agentId, requested, version, expected, transport).0.Answered?
    ensures var c := Handshake(NewClient(config), agentId, requested, version, expected, transport).1;
            ExecuteModule(c, payload, now, transport) == Refused(HandshakeRequired)
  {
  }

  /** After a successful handshake, every requested module can be dispatched
      without a capability refusal. */
  lemma RequestedModulesGranted(c: Client, agentId: Option<string>, requested: seq<string>, version: string,
                                expected: Option<string>, transport: Transport, payload: ModulePayload, now: Instant)
    requires Handshake(c, agentId, requested, version, expected, transport).0.Answered?
    requires payload.moduleName.Some? && payload.moduleName.value in requested
    ensures var c' := Handshake(c, agentId, requested, version, expected, transport).1;
            !(ExecuteModule(c', payload, now, transport) == Refused(CapabilityMissing))
  {
    var r := Handshake(c, agentId, requested, version, expected, transport);
    assert Granted(r.0.value, payload.moduleName.value);
  }
}

=== FILE: engine.dfy ===
/** The campaign engine: one pass over the campaign's modules in declared
    order, dispatching each locally or to the agent, turning every failure
    scoped to one module into an `error` entry, and assembling the evidence
    pack. Everything the Python code obtains from outside (the clock, a
    random run id, the spec digest, the agent transport, the module code
    itself) arrives as a parameter. */
module Engine {
  import opened Wrappers
  import opened Json
  import opened Strings
  import opened Models
  import opened Registry
  import opened Policy
  import opened Scoring
  import opened AgentClient

  /** The keyword arguments of `run_campaign`. */
  datatype RunOptions = RunOptions(deterministic: bool, agent: Option<AgentClientConfig>, policy: Option<PolicySpec>)

  /** What calling a local module yields: its result, or the exception it raised. */
  datatype LocalRun = Ran(result: ModuleResult) | Threw(message: string)

  /** The collaborators of a run. `specDigest` is the SHA-256 hex digest of
      the campaign's canonical JSON; `local` runs a registered module given
      the two clock readings it takes; `strRepr` is Python's `repr` on a
      string, which is what `str` of a `KeyError` yields. */
  datatype Oracles = Oracles(
    specDigest: CampaignSpec -> string,
    transport: Transport,
    local: (Module, ModuleContext, Instant, Instant) -> LocalRun,
    strRepr: string -> string)

  /** Local execution by the registry's own modules. */
  function RegistryLocal(m: Module, ctx: ModuleContext, startedAt: Instant, finishedAt: Instant): (r: LocalRun)
    ensures r.Ran? && r.result.moduleId == ctx.moduleId
  {
    Ran(Run(m, ctx, startedAt, finishedAt))
  }

  /** A run either completes with a pack or is ended by an exception the
      engine does not catch. */
  datatype RunOutcome = Completed(pack: EvidencePack) | Aborted(detail: string)

  function FixedTime(deterministic: bool): (f: Option<Instant>)
    ensures f.Some? <==> deterministic
    ensures f.Some? ==> f.value == Epoch
  {
    if deterministic then Some(Epoch) else None
  }

  /** `_deterministic_run_id`: `"det-"` and the first 16 characters of the digest. */
  function DeterministicRunId(spec: CampaignSpec, digest: CampaignSpec -> string): (id: string)
    ensures StartsWith(id, "det-") && id[4..] == Prefix(digest(spec), 16)
    ensures |digest(spec)| >= 16 ==> |id| == 20
  {
    "det-" + Prefix(digest(spec), 16)
  }

  /** `fixed_time or datetime.now(UTC)`: the clock (whose n-th reading is
      `clock(n)`) is read only when no fixed time is set. Returns the
      instant and the index of the next reading. */
  function Stamp(fixed: Option<Instant>, clock: nat -> Instant, t: nat): (r: (Instant, nat))
    ensures fixed.Some? ==> r == (fixed.value, t)
    ensures fixed.None? ==> r == (clock(t), t + 1)
  {
    if fixed.Some? then (fixed.value, t) else (clock(t), t + 1)
  }

  /** `_normalized_result`: under a fixed time, a copy with both timestamps
      replaced and everything else kept. */
  function NormalizedResult(r: ModuleResult, fixed: Option<Instant>): (n: ModuleResult)
    ensures fixed.None? ==> n == r
    ensures fixed.Some? ==> n.startedAt == fixed.value && n.finishedAt == fixed.value
    ensures n.(startedAt := r.startedAt, finishedAt := r.finishedAt) == r
    ensures Unstamped(n) == Unstamped(r)
  {
    if fixed.None? then r else r.(startedAt := fixed.value, finishedAt := fixed.value)
  }

  const UnknownTargetEvidence: map<string, Json> := Note("error", "unknown target")
  const UnknownModuleEvidence: map<string, Json> := Note("error", "unknown module")
  const UnsupportedEvidence: map<string, Json> := Note("error", "module not supported by agent")

  /** Evidence of an entry synthesized for a caught exception. */
  function FailureEvidence(kind: string, message: string): map<string, Json> {
    map["error" := JString(kind), "message" := JString(message)]
  }

  /** An `error` entry the engine synthesizes, stamped with two readings. */
  function ErrorEntry(id: string, evidence: map<string, Json>, notes: Option<string>,
                      fixed: Option<Instant>, clock: nat -> Instant, t: nat): (r: (ModuleResult, nat))
    ensures r.0.moduleId == id && r.0.status == Error && r.0.evidence == evidence && r.0.notes == notes
    ensures Unstamped(r.0) == ModuleResult(id, Error, Epoch, Epoch, evidence, notes)
    ensures fixed.Some? ==> r.0.startedAt == fixed.value && r.0.finishedAt == fixed.value && r.1 == t
  {
    var (s, t1) := Stamp(fixed, clock, t);
    var (f, t2) := Stamp(fixed, clock, t1);
    (ModuleResult(id, Error, s, f, evidence, notes), t2)
  }

  /** The context a module instance runs with. */
  function ContextFor(ms: ModuleSpec, policy: Option<PolicySpec>): (ctx: ModuleContext)
    ensures ctx.moduleId == ms.id && ctx.targetId == ms.targetId
    ensures ctx.params == ms.params && ctx.expectations == ms.expectations
    ensures ctx.scopeAllowlist == EffectiveAllowlist(ms, policy)
  {
    ModuleContext(ms.id, ms.targetId, ms.params, ms.expectations, EffectiveAllowlist(ms, policy))
  }

  /** The ids of the campaign's targets (`target_lookup`'s keys). */
  function TargetIds(spec: CampaignSpec): (ids: set<string>)
    ensures forall id :: id in ids <==> exists i :: 0 <= i < |spec.targets| && spec.targets[i].id == id
  {
    set t | t in spec.targets :: t.id
  }

  /** The capabilities the handshake asks for: the campaign's module names,
      de-duplicated and sorted. */
  function RequestedCapabilities(spec: CampaignSpec): (r: seq<string>)
    ensures Sorted(r)
    ensures forall x :: x in r <==> exists i :: 0 <= i < |spec.modules| && spec.modules[i].moduleName == x
  {
    SortedSet(set ms | ms in spec.modules :: ms.moduleName)
  }

  /** A live agent session: the client after its handshake and what it granted. */
  datatype Session = Session(client: Client, granted: HandshakeResult)

  /** What stays fixed across the module loop. */
  datatype Loop = Loop(
    fixed: Option<Instant>,
    runId: string,
    targetIds: set<string>,
    policy: Option<PolicySpec>,
    session: Option<Session>,
    oracles: Oracles,
    clock: nat -> Instant)

  /** The outcome of one loop iteration: an entry appended (and the index of
      the next clock reading), or an exception ending the run. */
  datatype Step = Appended(result: ModuleResult, tick: nat) | Halted(detail: string)

  /** The execution payload for a dispatched module. */
  function PayloadFor(ms: ModuleSpec, runId: string, allowlist: seq<string>, expiresAt: Instant): (p: ModulePayload)
    ensures p.runId == Some(runId) && p.moduleId == Some(ms.id) && p.moduleName == Some(ms.moduleName)
    ensures p.targetId == Some(ms.targetId) && p.params == ms.params && p.expectations == ms.expectations
    ensures p.allowlist == allowlist && p.expiresAt == Some(expiresAt)
  {
    ModulePayload(Some(runId), Some(ms.id), Some(ms.moduleName), Some(ms.targetId), ms.params, ms.expectations,
                  allowlist, Some(expiresAt))
  }

  /** The body of the module loop for one module spec. */
  function Dispatch(ms: ModuleSpec, env: Loop, t: nat): (s: Step)
  {
    if ms.targetId !in env.targetIds then
      var (r, t') := ErrorEntry(ms.id, UnknownTargetEvidence, Some("Unknown target: " + ms.targetId), env.fixed, env.clock, t);
      Appended(r, t')
    else match GetModule(ms.moduleName)
    case None =>
      var (r, t') := ErrorEntry(ms.id, UnknownModuleEvidence, Some(env.oracles.strRepr(UnknownModuleMessage(ms.moduleName))),
                                env.fixed, env.clock, t);
      Appended(r, t')
    case Some(m) =>
      var ctx := ContextFor(ms, env.policy);
      match env.session
      case Some(session) => AgentDispatch(ms, ctx, session, env, t)
      case None => LocalDispatch(ms, m, ctx, env, t)
  }

  /** A registered module on a known target, sent to the agent. */
  function AgentDispatch(ms: ModuleSpec, ctx: ModuleContext, session: Session, env: Loop, t: nat): (s: Step)
  {
    if !Granted(session.granted, ms.moduleName) then
      var (r, t') := ErrorEntry(ms.id, UnsupportedEvidence, Some("missing capability: " + ms.moduleName),
                                env.fixed, env.clock, t);
      Appended(r, t')
    else
      var (expires, t1) := Stamp(env.fixed, env.clock, t);
      var payload := PayloadFor(ms, env.runId, ctx.scopeAllowlist, expires);
      var t2 := if ExecuteReadsClock(session.client, payload) then t1 + 1 else t1;
      match ExecuteModule(session.client, payload, env.clock(t1), env.oracles.transport)
      case Answered(r) => Appended(NormalizedResult(r, env.fixed), t2)
      case Refused(e) =>
        var (r, t') := ErrorEntry(ms.id, FailureEvidence("agent failure", e.Message()), None, env.fixed, env.clock, t2);
        Appended(r, t')
      case Crashed(d) => Halted(d)
  }

  /** A registered module on a known target, run in process. */
  function LocalDispatch(ms: ModuleSpec, m: Module, ctx: ModuleContext, env: Loop, t: nat): (s: Step)
  {
    match env.oracles.local(m, ctx, env.clock(t), env.clock(t + 1))
    case Ran(r) => Appended(NormalizedResult(r, env.fixed), t + 2)
    case Threw(msg) =>
      var (r, t') := ErrorEntry(ms.id, FailureEvidence("module exception", msg), None, env.fixed, env.clock, t + 2);
      Appended(r, t')
  }

  /** The results collected by the loop, or the exception that ended it. */
  datatype Progress = Progress(results: seq<ModuleResult>, tick: nat) | Stopped(detail: string)

  /** The module loop: one entry per module spec, in declared order. */
  function RunModules(modules: seq<ModuleSpec>, env: Loop, t: nat): (p: Progress)
    ensures p.Progress? ==> |p.results| == |modules|
    decreases |modules|
  {
    if modules == [] then Progress([], t)
    else
      match Dispatch(modules[0], env, t)
      case Halted(d) => Stopped(d)
      case Appended(r, t1) =>
        match RunModules(modules[1..], env, t1)
        case Stopped(d) => Stopped(d)
        case Progress(rs, t2) => Progress([r] + rs, t2)
  }

  /** The entries written when the handshake fails: one `error` per module
      spec, nothing dispatched. */
  function HandshakeFailedResults(modules: seq<ModuleSpec>, message: string, fixed: Option<Instant>,
                                  clock: nat -> Instant, t: nat): (p: (seq<ModuleResult>, nat))
    ensures |p.0| == |modules|
    ensures forall i :: 0 <= i < |modules| ==>
      && p.0[i].moduleId == modules[i].id
      && p.0[i].status == Error
      && p.0[i].evidence == FailureEvidence("agent handshake failed", message)
      && p.0[i].notes.None?
    ensures fixed.Some? ==> p.1 == t && forall i :: 0 <= i < |modules| ==>
      p.0[i].startedAt == fixed.value && p.0[i].finishedAt == fixed.value
    ensures fixed.None? ==> p.1 == t + 2 * |modules| && forall i :: 0 <= i < |modules| ==>
      p.0[i].startedAt == clock(t + 2 * i) && p.0[i].finishedAt == clock(t + 2 * i + 1)
    decreases |modules|
  {
    if modules == [] then ([], t)
    else
      var (r, t1) := ErrorEntry(modules[0].id, FailureEvidence("agent handshake failed", message), None, fixed, clock, t);
      var (rs, t2) := HandshakeFailedResults(modules[1..], message, fixed, clock, t1);
      ([r] + rs, t2)
  }

  /** Finalization: the closing timestamp, the score and the pack. */
  function Finish(spec: CampaignSpec, runId: string, startedAt: Instant, results: seq<ModuleResult>,
                  fixed: Option<Instant>, clock: nat -> Instant, t: nat): (e: EvidencePack)
    ensures e.results == results && e.campaignName == spec.name && e.runId == runId && e.startedAt == startedAt
    ensures (e.score, e.summary) == ScoreResults(results)
    ensures e.schemaVersion == "v1" && e.signatureAlg.None? && e.signature.None?
    ensures fixed.Some? ==> e.finishedAt == fixed.value
  {
    var (finishedAt, _) := Stamp(fixed, clock, t);
    var (score, summary) := ScoreResults(results);
    NewEvidencePack(spec.name, runId, startedAt, finishedAt, results, score, summary)
  }

  function Conclude(spec: CampaignSpec, runId: string, startedAt: Instant, p: Progress,
                    fixed: Option<Instant>, clock: nat -> Instant): RunOutcome
  {
    match p
    case Stopped(d) => Aborted(d)
    case Progress(rs, t) => Completed(Finish(spec, runId, startedAt, rs, fixed, clock, t))
  }

  /** The handshake a run with an agent configuration performs first. */
  function OpeningHandshake(spec: CampaignSpec, cfg: AgentClientConfig, transport: Transport): (Reply<HandshakeResult>, Client) {
    Handshake(NewClient(cfg), cfg.agentId, RequestedCapabilities(spec), spec.version, cfg.expectedPolicyHash, transport)
  }

  /** `run_campaign`. `clock(n)` is the n-th reading of the wall clock and
      `freshRunId` stands for `str(uuid4())`. */
  function RunCampaign(spec: CampaignSpec, opts: RunOptions, oracles: Oracles,
                       clock: nat -> Instant, freshRunId: string): (out: RunOutcome)
  {
    var fixed := FixedTime(opts.deterministic);
    var runId := if opts.deterministic then DeterministicRunId(spec, oracles.specDigest) else freshRunId;
    var (startedAt, t0) := Stamp(fixed, clock, 0);
    var targetIds := TargetIds(spec);
    match opts.agent
    case None =>
      var env := Loop(fixed, runId, targetIds, opts.policy, None, oracles, clock);
      Conclude(spec, runId, startedAt, RunModules(spec.modules, env, t0), fixed, clock)
    case Some(cfg) =>
      var (reply, client) := OpeningHandshake(spec, cfg, oracles.transport);
      match reply
      case Crashed(d) => Aborted(d)
      case Refused(e) =>
        var (results, t1) := HandshakeFailedResults(spec.modules, e.Message(), fixed, clock, t0);
        Completed(Finish(spec, runId, startedAt, results, fixed, clock, t1))
      case Answered(h) =>
        var env := Loop(fixed, runId, targetIds, opts.policy, Some(Session(client, h)), oracles, clock);
        Conclude(spec, runId, startedAt, RunModules(spec.modules, env, t0), fixed, clock)
  }
}

=== FILE: engine_properties.dfy ===
/** What a campaign run guarantees: one entry per module spec in declared
    order, the per-module error cases, the handshake short-circuit, and
    reproducibility in deterministic mode. */
module EngineProperties {
  import opened Wrappers
  import opened Json
  import opened Strings
  import opened Models
  import opened Registry
  import opened Policy
  import opened Scoring
  import opened AgentClient
  import opened Engine

  /** The transport decodes every reply it delivers, so nothing but an
      `AgentClientError` can come out of the client. */
  ghost predicate TransportDecodes(tr: Transport) {
    && (forall q :: !tr.handshake(q).Undecodable?)
    && (forall p :: !tr.execute(p).Undecodable?)
  }

  /** Local execution is the registry's own modules. */
  ghost predicate IsRegistry(local: (Module, ModuleContext, Instant, Instant) -> LocalRun) {
    forall m, ctx, s, f :: local(m, ctx, s, f) == RegistryLocal(m, ctx, s, f)
  }

  /** A local run with both timestamps set to the epoch. */
  function Restamped(l: LocalRun): LocalRun {
    match l
    case Ran(r) => Ran(r.(startedAt := Epoch, finishedAt := Epoch))
    case Threw(msg) => Threw(msg)
  }

  /** Modules depend on the clock only through the timestamps they record. */
  ghost predicate TimeInsensitive(local: (Module, ModuleContext, Instant, Instant) -> LocalRun) {
    forall m, ctx, s1, f1, s2, f2 :: Restamped(local(m, ctx, s1, f1)) == Restamped(local(m, ctx, s2, f2))
  }

  lemma RegistryIsTimeInsensitive()
    ensures TimeInsensitive(RegistryLocal)
  {
  }

  /** A loop environment whose session is the one the handshake recorded. */
  ghost predicate SessionCoherent(env: Loop) {
    env.session.Some? ==>
      && env.session.value.client.session == Some(env.session.value.granted)
      && env.session.value.client.config.enabled
  }

  /** Whether the loop can be ended by an exception. */
  ghost predicate LoopCannotHalt(env: Loop) {
    env.session.None? || IsMock(env.session.value.client.config) || TransportDecodes(env.oracles.transport)
  }

  /** What the entry for module spec `ms` must look like, whatever else
      happens in the run, timestamps aside: an unknown target is reported
      first, then an unregistered module (even with an agent); without an
      agent the module's own result or its exception is recorded; with one,
      a capability the agent did not grant is an error, the mock agent
      passes, and the real agent's reply or its request failure is recorded. */
  ghost predicate Accounts(ms: ModuleSpec, r: ModuleResult, targetIds: set<string>, policy: Option<PolicySpec>,
                           runId: string, granted: Option<HandshakeResult>, mockAgent: bool, oracles: Oracles)
  {
    if ms.targetId !in targetIds then
      Unstamped(r) == ModuleResult(ms.id, Error, Epoch, Epoch, UnknownTargetEvidence, Some("Unknown target: " + ms.targetId))
    else if GetModule(ms.moduleName).None? then
      Unstamped(r) == ModuleResult(ms.id, Error, Epoch, Epoch, UnknownModuleEvidence,
                                   Some(oracles.strRepr(UnknownModuleMessage(ms.moduleName))))
    else if granted.None? then
      exists s, f :: LocalEntry(ms, r, oracles.local(GetModule(ms.moduleName).value, ContextFor(ms, policy), s, f))
    else if !Granted(granted.value, ms.moduleName) then
      Unstamped(r) == ModuleResult(ms.id, Error, Epoch, Epoch, UnsupportedEvidence, Some("missing capability: " + ms.moduleName))
    else if mockAgent then
      Unstamped(r) == ModuleResult(ms.id, Pass, Epoch, Epoch, MockEvidence, Some(MockNotes))
    else
      exists expires :: AgentEntry(ms, r, oracles.transport.execute(PayloadFor(ms, runId, EffectiveAllowlist(ms, policy), expires)))
  }

  /** The entry recorded for a local run: the module's result, or an error
      carrying the exception's message. */
  ghost predicate LocalEntry(ms: ModuleSpec, r: ModuleResult, l: LocalRun) {
    match l
    case Ran(x) => Unstamped(r) == Unstamped(x)
    case Threw(msg) => Unstamped(r) == ModuleResult(ms.id, Error, Epoch, Epoch, FailureEvidence("module exception", msg), None)
  }

  /** The entry recorded for the real agent's reply: the decoded result, or
      an error carrying the request failure. An undecodable reply ends the
      run, so it accounts for no entry. */
  ghost predicate AgentEntry(ms: ModuleSpec, r: ModuleResult, w: Wire<ModuleResult>) {
    match w
    case Received(x) => Unstamped(r) == Unstamped(x)
    case TransportFailed(d) => Unstamped(r) == ModuleResult(ms.id, Error, Epoch, Epoch, FailureEvidence("agent failure", d), None)
    case Undecodable(_) => false
  }

  ghost predicate EnvAccounts(ms: ModuleSpec, r: ModuleResult, env: Loop) {
    Accounts(ms, r, env.targetIds, env.policy, env.runId,
             if env.session.Some? then Some(env.session.value.granted) else None,
             env.session.Some? && IsMock(env.session.value.client.config),
             env.oracles)
  }

  lemma DispatchAccounts(ms: ModuleSpec, env: Loop, t: nat)
    requires SessionCoherent(env)
    ensures LoopCannotHalt(env) ==> Dispatch(ms, env, t).Appended?
    ensures Dispatch(ms, env, t).Appended? ==> EnvAccounts(ms, Dispatch(ms, env, t).result, env)
    ensures Dispatch(ms, env, t).Appended? && env.fixed.Some? ==>
      Dispatch(ms, env, t).result.startedAt == env.fixed.value && Dispatch(ms, env, t).result.finishedAt == env.fixed.value
  {
    if ms.targetId in env.targetIds && GetModule(ms.moduleName).Some? {
      if env.session.Some? {
        SessionDispatchAccounts(ms, env, t);
      } else {
        LocalDispatchAccounts(ms, env, t);
      }
    }
  }

  /** A module dispatched to the agent: a refused capability is an error,
      the mock agent passes it, and only an undecodable reply ends the loop. */
  lemma SessionDispatchAccounts(ms: ModuleSpec, env: Loop, t: nat)
    requires SessionCoherent(env) && env.session.Some?
    requires ms.targetId in env.targetIds && GetModule(ms.moduleName).Some?
    ensures LoopCannotHalt(env) ==> Dispatch(ms, env, t).Appended?
    ensures Dispatch(ms, env, t).Appended? ==> EnvAccounts(ms, Dispatch(ms, env, t).result, env)
    ensures Dispatch(ms, env, t).Appended? && env.fixed.Some? ==>
      Dispatch(ms, env, t).result.startedAt == env.fixed.value && Dispatch(ms, env, t).result.finishedAt == env.fixed.value
  {
    if Granted(env.session.value.granted, ms.moduleName) {
      GrantedDispatchAccounts(ms, env, t);
    }
  }

  /** A module the agent granted is executed by the agent: the mock agent
      reports a pass stamped with the payload's expiry. */
  lemma GrantedDispatchAccounts(ms: ModuleSpec, env: Loop, t: nat)
    requires SessionCoherent(env) && env.session.Some? && Granted(env.session.value.granted, ms.moduleName)
    requires ms.targetId in env.targetIds && GetModule(ms.moduleName).Some?
    ensures LoopCannotHalt(env) ==> Dispatch(ms, env, t).Appended?
    ensures Dispatch(ms, env, t).Appended? ==> EnvAccounts(ms, Dispatch(ms, env, t).result, env)
    ensures Dispatch(ms, env, t).Appended? && env.fixed.Some? ==>
      Dispatch(ms, env, t).result.startedAt == env.fixed.value && Dispatch(ms, env, t).result.finishedAt == env.fixed.value
  {
    if IsMock(env.session.value.client.config) {
      MockDispatchAccounts(ms, env, t);
    } else {
      RealDispatchAccounts(ms, env, t);
    }
  }

  /** The mock agent passes every module it granted. */
  lemma MockDispatchAccounts(ms: ModuleSpec, env: Loop, t: nat)
    requires SessionCoherent(env) && env.session.Some? && Granted(env.session.value.granted, ms.moduleName)
    requires IsMock(env.session.value.client.config)
    requires ms.targetId in env.targetIds && GetModule(ms.moduleName).Some?
    ensures Dispatch(ms, env, t).Appended?
    ensures EnvAccounts(ms, Dispatch(ms, env, t).result, env)
    ensures env.fixed.Some? ==>
      Dispatch(ms, env, t).result.startedAt == env.fixed.value && Dispatch(ms, env, t).result.finishedAt == env.fixed.value
  {
    var session := env.session.value;
    var ctx := ContextFor(ms, env.policy);
    var (expires, t1) := Stamp(env.fixed, env.clock, t);
    var payload := PayloadFor(ms, env.runId, ctx.scopeAllowlist, expires);
    assert PayloadGranted(session.client.session.value, payload);
    MockExecutePasses(session.client, payload, env.clock(t1), env.oracles.transport);
  }

  /** The real agent's reply is recorded as decoded, and its request failure
      as an error; an undecodable reply ends the loop. */
  lemma RealDispatchAccounts(ms: ModuleSpec, env: Loop, t: nat)
    requires SessionCoherent(env) && env.session.Some? && Granted(env.session.value.granted, ms.moduleName)
    requires !IsMock(env.session.value.client.config)
    requires ms.targetId in env.targetIds && GetModule(ms.moduleName).Some?
    ensures LoopCannotHalt(env) ==> Dispatch(ms, env, t).Appended?
    ensures Dispatch(ms, env, t).Appended? ==> EnvAccounts(ms, Dispatch(ms, env, t).result, env)
    ensures Dispatch(ms, env, t).Appended? && env.fixed.Some? ==>
      Dispatch(ms, env, t).result.startedAt == env.fixed.value && Dispatch(ms, env, t).result.finishedAt == env.fixed.value
  {
    var session := env.session.value;
    var ctx := ContextFor(ms, env.policy);
    var (expires, t1) := Stamp(env.fixed, env.clock, t);
    var payload := PayloadFor(ms, env.runId, ctx.scopeAllowlist, expires);
    assert PayloadGranted(session.client.session.value, payload);
    if Dispatch(ms, env, t).Appended? {
      assert AgentEntry(ms, Dispatch(ms, env, t).result, env.oracles.transport.execute(payload));
    }
  }

  /** A module run locally: the registry's result with the stamps fixed, or
      an error for an exception. */
  lemma LocalDispatchAccounts(ms: ModuleSpec, env: Loop, t: nat)
    requires env.session.None?
    requires ms.targetId in env.targetIds && GetModule(ms.moduleName).Some?
    ensures Dispatch(ms, env, t).Appended?
    ensures EnvAccounts(ms, Dispatch(ms, env, t).result, env)
    ensures env.fixed.Some? ==>
      Dispatch(ms, env, t).result.startedAt == env.fixed.value && Dispatch(ms, env, t).result.finishedAt == env.fixed.value
  {
    var m := GetModule(ms.moduleName).value;
    var ctx := ContextFor(ms, env.policy);
    assert LocalEntry(ms, Dispatch(ms, env, t).result, env.oracles.local(m, ctx, env.clock(t), env.clock(t + 1)));
  }

  lemma {:induction false} RunModulesAccounts(modules: seq<ModuleSpec>, env: Loop, t: nat)
    requires SessionCoherent(env)
    ensures LoopCannotHalt(env) ==> RunModules(modules, env, t).Progress?
    ensures var p := RunModules(modules, env, t);
            p.Progress? ==> forall i :: 0 <= i < |modules| ==> EnvAccounts(modules[i], p.results[i], env)
    ensures var p := RunModules(modules, env, t);
            p.Progress? && env.fixed.Some? ==> forall i :: 0 <= i < |modules| ==>
              p.results[i].startedAt == env.fixed.value && p.results[i].finishedAt == env.fixed.value
    decreases |modules|
  {
    if modules != [] {
      DispatchAccounts(modules[0], env, t);
      var step := Dispatch(modules[0], env, t);
      if step.Appended? {
        RunModulesAccounts(modules[1..], env, step.tick);
        var rest := RunModules(modules[1..], env, step.tick);
        if rest.Progress? {
          assert RunModules(modules, env, t) == Progress([step.result] + rest.results, rest.tick);
          ConsAccounts(modules, step.result, rest.results, env);
        }
      }
    }
  }

  /** The entry for the first module spec followed by those for the rest. */
  lemma ConsAccounts(modules: seq<ModuleSpec>, r: ModuleResult, rs: seq<ModuleResult>, env: Loop)
    requires |modules| == |rs| + 1
    requires EnvAccounts(modules[0], r, env)
    requires forall i :: 0 <= i < |rs| ==> EnvAccounts(modules[1..][i], rs[i], env)
    requires env.fixed.Some? ==> r.startedAt == env.fixed.value && r.finishedAt == env.fixed.value
    requires env.fixed.Some? ==> forall i :: 0 <= i < |rs| ==>
      rs[i].startedAt == env.fixed.value && rs[i].finishedAt == env.fixed.value
    ensures forall i :: 0 <= i < |modules| ==> EnvAccounts(modules[i], ([r] + rs)[i], env)
    ensures env.fixed.Some? ==> forall i :: 0 <= i < |modules| ==>
      ([r] + rs)[i].startedAt == env.fixed.value && ([r] + rs)[i].finishedAt == env.fixed.value
  {
    var all := [r] + rs;
    forall i | 0 <= i < |modules|
      ensures EnvAccounts(modules[i], all[i], env)
    {
      if i > 0 {
        assert modules[i] == modules[1..][i - 1] && all[i] == rs[i - 1];
      }
    }
    if env.fixed.Some? {
      forall i | 0 <= i < |modules|
        ensures all[i].startedAt == env.fixed.value && all[i].finishedAt == env.fixed.value
      {
        if i > 0 {
          assert all[i] == rs[i - 1];
        }
      }
    }
  }

  /** Dispatch does not look at the clock when a fixed time is set, except
      through readings whose effect normalization erases. */
  lemma DispatchClockFree(ms: ModuleSpec, env: Loop, clock': nat -> Instant, t: nat)
    requires env.fixed.Some? && TimeInsensitive(env.oracles.local)
    ensures Dispatch(ms, env, t) == Dispatch(ms, env.(clock := clock'), t)
  {
    if ms.targetId in env.targetIds && GetModule(ms.moduleName).Some? {
      if env.session.None? {
        LocalStepClockFree(ms, env, clock', t);
      } else {
        SessionStepClockFree(ms, env, clock', t);
      }
    }
  }

  /** The local-runner branch of `Dispatch` under a fixed time. */
  lemma LocalStepClockFree(ms: ModuleSpec, env: Loop, clock': nat -> Instant, t: nat)
    requires env.fixed.Some? && TimeInsensitive(env.oracles.local)
    requires ms.targetId in env.targetIds && GetModule(ms.moduleName).Some? && env.session.None?
    ensures Dispatch(ms, env, t) == Dispatch(ms, env.(clock := clock'), t)
  {
    var m := GetModule(ms.moduleName).value;
    var ctx := ContextFor(ms, env.policy);
    var a := env.oracles.local(m, ctx, env.clock(t), env.clock(t + 1));
    var b := env.oracles.local(m, ctx, clock'(t), clock'(t + 1));
    assert Restamped(a) == Restamped(b);
    match a
    case Ran(ra) =>
      assert b.Ran?;
      assert NormalizedResult(ra, env.fixed) == NormalizedResult(b.result, env.fixed);
    case Threw(_) =>
  }

  /** The agent branch of `Dispatch` under a fixed time: the only clock
      reading is overridden by the payload's fixed expiry. */
  lemma SessionStepClockFree(ms: ModuleSpec, env: Loop, clock': nat -> Instant, t: nat)
    requires env.fixed.Some?
    requires ms.targetId in env.targetIds && GetModule(ms.moduleName).Some? && env.session.Some?
    ensures Dispatch(ms, env, t) == Dispatch(ms, env.(clock := clock'), t)
  {
    AgentStepClockFree(ms, ContextFor(ms, env.policy), env.session.value, env, clock', t);
  }

  lemma AgentStepClockFree(ms: ModuleSpec, ctx: ModuleContext, session: Session, env: Loop, clock': nat -> Instant, t: nat)
    requires env.fixed.Some?
    ensures AgentDispatch(ms, ctx, session, env, t) == AgentDispatch(ms, ctx, session, env.(clock := clock'), t)
  {
    if Granted(session.granted, ms.moduleName) {
      var payload := PayloadFor(ms, env.runId, ctx.scopeAllowlist, env.fixed.value);
      ExecuteClockFree(session.client, payload, env.clock(t), clock'(t), env.oracles.transport);
    }
  }

  /** A payload carrying its expiry leaves nothing for the clock reading to decide. */
  lemma ExecuteClockFree(c: Client, payload: ModulePayload, now1: Instant, now2: Instant, transport: Transport)
    requires payload.expiresAt.Some?
    ensures ExecuteModule(c, payload, now1, transport) == ExecuteModule(c, payload, now2, transport)
  {
  }

  lemma {:induction false} RunModulesClockFree(modules: seq<ModuleSpec>, env: Loop, clock': nat -> Instant, t: nat)
    requires env.fixed.Some? && TimeInsensitive(env.oracles.local)
    ensures RunModules(modules, env, t) == RunModules(modules, env.(clock := clock'), t)
    decreases |modules|
  {
    if modules != [] {
      DispatchClockFree(modules[0], env, clock', t);
      match Dispatch(modules[0], env, t)
      case Halted(_) =>
      case Appended(r, t1) =>
        RunModulesClockFree(modules[1..], env, clock', t1);
    }
  }

  /** Whether the run's opening handshake failed with an `AgentClientError`. */
  ghost predicate HandshakeFailed(spec: CampaignSpec, opts: RunOptions, oracles: Oracles) {
    opts.agent.Some? && OpeningHandshake(spec, opts.agent.value, oracles.transport).0.Refused?
  }

  /** What the opening handshake granted, if the run has an agent and it succeeded. */
  function GrantedBy(spec: CampaignSpec, opts: RunOptions, oracles: Oracles): Option<HandshakeResult> {
    if opts.agent.None? then None
    else
      var reply := OpeningHandshake(spec, opts.agent.value, oracles.transport).0;
      if reply.Answered? then Some(reply.value) else None
  }

  /** A run completes whenever no exception other than an `AgentClientError`
      can reach the engine: without an agent, with the mock agent, or with a
      transport that decodes every reply. */
  lemma RunCompletes(spec: CampaignSpec, opts: RunOptions, oracles: Oracles, clock: nat -> Instant, freshRunId: string)
    requires opts.agent.None? || IsMock(opts.agent.value) || TransportDecodes(oracles.transport)
    ensures RunCampaign(spec, opts, oracles, clock, freshRunId).Completed?
  {
    var fixed := FixedTime(opts.deterministic);
    var t0 := Stamp(fixed, clock, 0).1;
    var runId := if opts.deterministic then DeterministicRunId(spec, oracles.specDigest) else freshRunId;
    match opts.agent
    case None =>
      var env := Loop(fixed, runId, TargetIds(spec), opts.policy, None, oracles, clock);
      RunModulesAccounts(spec.modules, env, t0);
    case Some(cfg) =>
      HandshakeDoesNotCrash(spec, cfg, oracles.transport);
      var (reply, client) := OpeningHandshake(spec, cfg, oracles.transport);
      if reply.Answered? {
        var env := Loop(fixed, runId, TargetIds(spec), opts.policy, Some(Session(client, reply.value)), oracles, clock);
        assert SessionCoherent(env) && LoopCannotHalt(env);
        RunModulesAccounts(spec.modules, env, t0);
      }
  }

  /** The opening handshake raises nothing but an `AgentClientError` for the
      mock agent or a transport that decodes its replies. */
  lemma HandshakeDoesNotCrash(spec: CampaignSpec, cfg: AgentClientConfig, transport: Transport)
    requires IsMock(cfg) || TransportDecodes(transport)
    ensures !OpeningHandshake(spec, cfg, transport).0.Crashed?
  {
  }

  /** A completed run holds exactly one entry per module spec, an unsigned
      `v1` pack for the campaign, and the counts and score of its entries. */
  lemma RunShape(spec: CampaignSpec, opts: RunOptions, oracles: Oracles, clock: nat -> Instant, freshRunId: string)
    requires RunCampaign(spec, opts, oracles, clock, freshRunId).Completed?
    ensures var p := RunCampaign(spec, opts, oracles, clock, freshRunId).pack;
            && |p.results| == |spec.modules|
            && p.summary.total == |spec.modules|
            && p.campaignName == spec.name
            && p.schemaVersion == "v1" && p.signatureAlg.None? && p.signature.None?
            && (p.score, p.summary) == ScoreResults(p.results)
            && p.runId == (if opts.deterministic then DeterministicRunId(spec, oracles.specDigest) else freshRunId)
  {
    var fixed := FixedTime(opts.deterministic);
    var (startedAt, t0) := Stamp(fixed, clock, 0);
    var runId := if opts.deterministic then DeterministicRunId(spec, oracles.specDigest) else freshRunId;
    var out := RunCampaign(spec, opts, oracles, clock, freshRunId);
    match opts.agent
    case None =>
      var env := Loop(fixed, runId, TargetIds(spec), opts.policy, None, oracles, clock);
      assert out == Conclude(spec, runId, startedAt, RunModules(spec.modules, env, t0), fixed, clock);
      ConcludedShape(spec, runId, startedAt, env, t0);
    case Some(cfg) =>
      var (reply, client) := OpeningHandshake(spec, cfg, oracles.transport);
      if reply.Refused? {
        var (results, t1) := HandshakeFailedResults(spec.modules, reply.error.Message(), fixed, clock, t0);
        assert out == Completed(Finish(spec, runId, startedAt, results, fixed, clock, t1));
      } else {
        var env := Loop(fixed, runId, TargetIds(spec), opts.policy, Some(Session(client, reply.value)), oracles, clock);
        assert out == Conclude(spec, runId, startedAt, RunModules(spec.modules, env, t0), fixed, clock);
        ConcludedShape(spec, runId, startedAt, env, t0);
      }
  }

  /** A concluded module loop yields one entry per module spec, scored. */
  lemma ConcludedShape(spec: CampaignSpec, runId: string, startedAt: Instant, env: Loop, t0: nat)
    requires Conclude(spec, runId, startedAt, RunModules(spec.modules, env, t0), env.fixed, env.clock).Completed?
    ensures var p := Conclude(spec, runId, startedAt, RunModules(spec.modules, env, t0), env.fixed, env.clock).pack;
            && |p.results| == |spec.modules|
            && p.summary.total == |spec.modules|
            && p.campaignName == spec.name && p.runId == runId
            && p.schemaVersion == "v1" && p.signatureAlg.None? && p.signature.None?
            && (p.score, p.summary) == ScoreResults(p.results)
  {
  }

  /** Each entry of a completed run (when the handshake did not fail)
      accounts for its module spec, position by position. */
  lemma RunAccounts(spec: CampaignSpec, opts: RunOptions, oracles: Oracles, clock: nat -> Instant, freshRunId: string)
    requires RunCampaign(spec, opts, oracles, clock, freshRunId).Completed?
    requires !HandshakeFailed(spec, opts, oracles)
    ensures var p := RunCampaign(spec, opts, oracles, clock, freshRunId).pack;
            forall i :: 0 <= i < |spec.modules| ==>
              Accounts(spec.modules[i], p.results[i], TargetIds(spec), opts.policy, p.runId, GrantedBy(spec, opts, oracles),
                       opts.agent.Some? && IsMock(opts.agent.value), oracles)
  {
    var fixed := FixedTime(opts.deterministic);
    var t0 := Stamp(fixed, clock, 0).1;
    var runId := if opts.deterministic then DeterministicRunId(spec, oracles.specDigest) else freshRunId;
    var startedAt := Stamp(fixed, clock, 0).0;
    match opts.agent
    case None =>
      var env := Loop(fixed, runId, TargetIds(spec), opts.policy, None, oracles, clock);
      assert RunCampaign(spec, opts, oracles, clock, freshRunId)
          == Conclude(spec, runId, startedAt, RunModules(spec.modules, env, t0), fixed, clock);
      ConcludedAccounts(spec, runId, startedAt, env, t0);
    case Some(cfg) =>
      var (reply, client) := OpeningHandshake(spec, cfg, oracles.transport);
      var env := Loop(fixed, runId, TargetIds(spec), opts.policy, Some(Session(client, reply.value)), oracles, clock);
      assert RunCampaign(spec, opts, oracles, clock, freshRunId)
          == Conclude(spec, runId, startedAt, RunModules(spec.modules, env, t0), fixed, clock);
      ConcludedAccounts(spec, runId, startedAt, env, t0);
  }

  /** The entries of a concluded module loop account for their module specs. */
  lemma ConcludedAccounts(spec: CampaignSpec, runId: string, startedAt: Instant, env: Loop, t0: nat)
    requires SessionCoherent(env)
    requires Conclude(spec, runId, startedAt, RunModules(spec.modules, env, t0), env.fixed, env.clock).Completed?
    ensures var p := Conclude(spec, runId, startedAt, RunModules(spec.modules, env, t0), env.fixed, env.clock).pack;
            forall i :: 0 <= i < |spec.modules| ==> EnvAccounts(spec.modules[i], p.results[i], env)
  {
    RunModulesAccounts(spec.modules, env, t0);
  }

  /** A failed handshake turns every module spec into an `error` entry
      carrying the failure message, so every entry counts as errored. */
  lemma HandshakeFailureErrorsAll(spec: CampaignSpec, opts: RunOptions, oracles: Oracles, clock: nat -> Instant, freshRunId: string)
    requires HandshakeFailed(spec, opts, oracles)
    ensures RunCampaign(spec, opts, oracles, clock, freshRunId).Completed?
    ensures var p := RunCampaign(spec, opts, oracles, clock, freshRunId).pack;
            var e := OpeningHandshake(spec, opts.agent.value, oracles.transport).0.error;
            && (forall i :: 0 <= i < |spec.modules| ==>
                  && p.results[i].moduleId == spec.modules[i].id
                  && p.results[i].status == Error
                  && p.results[i].evidence == FailureEvidence("agent handshake failed", e.Message())
                  && p.results[i].notes.None?)
            && p.summary.errored == p.summary.total == |spec.modules|
  {
    FailedRun(spec, opts, oracles, clock, freshRunId);
    var p := RunCampaign(spec, opts, oracles, clock, freshRunId).pack;
    CountUniform(p.results, Error);
    CountsAreMultiplicities(p.results);
  }

  /** The outcome of a run whose opening handshake failed. */
  lemma FailedRun(spec: CampaignSpec, opts: RunOptions, oracles: Oracles, clock: nat -> Instant, freshRunId: string)
    requires HandshakeFailed(spec, opts, oracles)
    ensures var fixed := FixedTime(opts.deterministic);
            var start := Stamp(fixed, clock, 0);
            var runId := if opts.deterministic then DeterministicRunId(spec, oracles.specDigest) else freshRunId;
            var e := OpeningHandshake(spec, opts.agent.value, oracles.transport).0.error;
            var failed := HandshakeFailedResults(spec.modules, e.Message(), fixed, clock, start.1);
            RunCampaign(spec, opts, oracles, clock, freshRunId)
              == Completed(Finish(spec, runId, start.0, failed.0, fixed, clock, failed.1))
  {
  }

  /** After a failed handshake no module is dispatched: the outcome does not
      depend on local module code or on the agent's execution endpoint. */
  lemma HandshakeFailureDispatchesNothing(spec: CampaignSpec, opts: RunOptions, oracles: Oracles,
                                          local: (Module, ModuleContext, Instant, Instant) -> LocalRun,
                                          execute: ModulePayload -> Wire<ModuleResult>,
                                          clock: nat -> Instant, freshRunId: string)
    requires HandshakeFailed(spec, opts, oracles)
    ensures RunCampaign(spec, opts, oracles, clock, freshRunId)
         == RunCampaign(spec, opts, oracles.(local := local, transport := oracles.transport.(execute := execute)), clock, freshRunId)
  {
    var other := oracles.(local := local, transport := oracles.transport.(execute := execute));
    assert OpeningHandshake(spec, opts.agent.value, other.transport) == OpeningHandshake(spec, opts.agent.value, oracles.transport);
    FailedRun(spec, opts, oracles, clock, freshRunId);
    FailedRun(spec, opts, other, clock, freshRunId);
  }

  /** Deterministic mode stamps the pack and every entry with the epoch and
      derives the run id from the campaign. */
  lemma DeterministicStamps(spec: CampaignSpec, opts: RunOptions, oracles: Oracles, clock: nat -> Instant, freshRunId: string)
    requires opts.deterministic
    requires RunCampaign(spec, opts, oracles, clock, freshRunId).Completed?
    ensures var p := RunCampaign(spec, opts, oracles, clock, freshRunId).pack;
            && p.startedAt == Epoch && p.finishedAt == Epoch
            && p.runId == "det-" + Prefix(oracles.specDigest(spec), 16)
            && forall i :: 0 <= i < |p.results| ==> p.results[i].startedAt == Epoch && p.results[i].finishedAt == Epoch
  {
    var fixed := FixedTime(opts.deterministic);
    var runId := DeterministicRunId(spec, oracles.specDigest);
    match opts.agent
    case None =>
      RunModulesAccounts(spec.modules, Loop(fixed, runId, TargetIds(spec), opts.policy, None, oracles, clock), 0);
    case Some(cfg) =>
      var (reply, client) := OpeningHandshake(spec, cfg, oracles.transport);
      if reply.Answered? {
        RunModulesAccounts(spec.modules, Loop(fixed, runId, TargetIds(spec), opts.policy,
                                              Some(Session(client, reply.value)), oracles, clock), 0);
      }
  }

  lemma {:induction false} HandshakeFailedClockFree(modules: seq<ModuleSpec>, message: string, fixed: Option<Instant>,
                                                  clock1: nat -> Instant, clock2: nat -> Instant, t: nat)
    requires fixed.Some?
    ensures HandshakeFailedResults(modules, message, fixed, clock1, t) == HandshakeFailedResults(modules, message, fixed, clock2, t)
    decreases |modules|
  {
    if modules != [] {
      HandshakeFailedClockFree(modules[1..], message, fixed, clock1, clock2, t);
    }
  }

  /** With the time fixed, the concluded module loop does not depend on the clock. */
  lemma ConcludeClockFree(spec: CampaignSpec, runId: string, env: Loop, clock': nat -> Instant)
    requires env.fixed.Some? && TimeInsensitive(env.oracles.local)
    ensures Conclude(spec, runId, env.fixed.value, RunModules(spec.modules, env, 0), env.fixed, env.clock)
         == Conclude(spec, runId, env.fixed.value, RunModules(spec.modules, env.(clock := clock'), 0), env.fixed, clock')
  {
    RunModulesClockFree(spec.modules, env, clock', 0);
  }

  /** Two deterministic runs of the same campaign agree, whatever the clock
      reads and whatever random id would have been drawn. */
  lemma DeterministicReproducible(spec: CampaignSpec, opts: RunOptions, oracles: Oracles,
                                  clock1: nat -> Instant, clock2: nat -> Instant, id1: string, id2: string)
    requires opts.deterministic && TimeInsensitive(oracles.local)
    ensures RunCampaign(spec, opts, oracles, clock1, id1) == RunCampaign(spec, opts, oracles, clock2, id2)
  {
    if opts.agent.None? || OpeningHandshake(spec, opts.agent.value, oracles.transport).0.Answered? {
      ReproducibleLoop(spec, opts, oracles, clock1, clock2, id1, id2);
    } else if OpeningHandshake(spec, opts.agent.value, oracles.transport).0.Refused? {
      ReproducibleRefused(spec, opts, oracles, clock1, clock2, id1, id2);
    }
  }

  /** The runs that reach the module loop. */
  lemma ReproducibleLoop(spec: CampaignSpec, opts: RunOptions, oracles: Oracles,
                         clock1: nat -> Instant, clock2: nat -> Instant, id1: string, id2: string)
    requires opts.deterministic && TimeInsensitive(oracles.local)
    requires opts.agent.None? || OpeningHandshake(spec, opts.agent.value, oracles.transport).0.Answered?
    ensures RunCampaign(spec, opts, oracles, clock1, id1) == RunCampaign(spec, opts, oracles, clock2, id2)
  {
    var fixed := FixedTime(opts.deterministic);
    var runId := DeterministicRunId(spec, oracles.specDigest);
    var session := if opts.agent.None? then None
                   else
                     var (reply, client) := OpeningHandshake(spec, opts.agent.value, oracles.transport);
                     Some(Session(client, reply.value));
    var env := Loop(fixed, runId, TargetIds(spec), opts.policy, session, oracles, clock1);
    ConcludeClockFree(spec, runId, env, clock2);
    assert RunCampaign(spec, opts, oracles, clock1, id1)
        == Conclude(spec, runId, Epoch, RunModules(spec.modules, env, 0), fixed, clock1);
    assert RunCampaign(spec, opts, oracles, clock2, id2)
        == Conclude(spec, runId, Epoch, RunModules(spec.modules, env.(clock := clock2), 0), fixed, clock2);
  }

  /** The runs whose opening handshake was refused. */
  lemma ReproducibleRefused(spec: CampaignSpec, opts: RunOptions, oracles: Oracles,
                            clock1: nat -> Instant, clock2: nat -> Instant, id1: string, id2: string)
    requires opts.deterministic && opts.agent.Some? && OpeningHandshake(spec, opts.agent.value, oracles.transport).0.Refused?
    ensures RunCampaign(spec, opts, oracles, clock1, id1) == RunCampaign(spec, opts, oracles, clock2, id2)
  {
    var fixed := FixedTime(opts.deterministic);
    var runId := DeterministicRunId(spec, oracles.specDigest);
    var e := OpeningHandshake(spec, opts.agent.value, oracles.transport).0.error;
    HandshakeFailedClockFree(spec.modules, e.Message(), fixed, clock1, clock2, 0);
    var (results, t1) := HandshakeFailedResults(spec.modules, e.Message(), fixed, clock1, 0);
    assert Finish(spec, runId, Epoch, results, fixed, clock1, t1) == Finish(spec, runId, Epoch, results, fixed, clock2, t1);
  }
}

=== FILE: engine_scenarios.dfy ===
/** Worked campaigns: the two-module deterministic run, a sibling with an
    unknown target, the agent capability gap, and a global policy allowlist
    filling in for a module spec that has none. */
module EngineScenarios {
  import opened Wrappers
  import opened Json
  import opened Strings
  import opened Models
  import opened Registry
  import opened Policy
  import opened Scoring
  import opened AgentClient
  import opened Engine
  import opened EngineProperties

  const LocalHost: Target := NewTarget("local-host", "local-host")

  const NoopSpec: ModuleSpec := NewModuleSpec("noop-1", "noop", "local-host").(scopeAllowlist := ["local"])

  const EchoSpec: ModuleSpec :=
    NewModuleSpec("echo-1", "echo_expectation", "local-host").(
      scopeAllowlist := ["local"],
      expectations := map["expected_value" := JString("ok")],
      params := map["value" := JString("nope")])

  const Deterministic: RunOptions := RunOptions(true, None, None)

  /** A run without an agent on the registry's own modules: it completes,
      and each entry accounts for its module spec. */
  lemma RegistryRun(spec: CampaignSpec, opts: RunOptions, digest: CampaignSpec -> string, transport: Transport,
                    repr: string -> string, clock: nat -> Instant, freshRunId: string)
    requires opts.agent.None?
    ensures var oracles := Oracles(digest, transport, RegistryLocal, repr);
            var out := RunCampaign(spec, opts, oracles, clock, freshRunId);
            && out.Completed?
            && |out.pack.results| == |spec.modules|
            && (out.pack.score, out.pack.summary) == ScoreResults(out.pack.results)
            && (forall i :: 0 <= i < |spec.modules| ==>
                  Accounts(spec.modules[i], out.pack.results[i], TargetIds(spec), opts.policy, out.pack.runId, None, false,
                           oracles))
            && (opts.deterministic ==> out.pack.startedAt == Epoch && out.pack.finishedAt == Epoch)
  {
    var oracles := Oracles(digest, transport, RegistryLocal, repr);
    assert GrantedBy(spec, opts, oracles) == None;
    RunCompletes(spec, opts, oracles, clock, freshRunId);
    RunShape(spec, opts, oracles, clock, freshRunId);
    RunAccounts(spec, opts, oracles, clock, freshRunId);
    if opts.deterministic {
      DeterministicStamps(spec, opts, oracles, clock, freshRunId);
    }
  }

  /** A registered module on a known target, run by the registry with the
      allowlist the policy leaves it: the registry's result, timestamps aside. */
  lemma RegistryEntry(ms: ModuleSpec, r: ModuleResult, ids: set<string>, policy: Option<PolicySpec>, runId: string,
                      oracles: Oracles)
    requires IsRegistry(oracles.local)
    requires ms.targetId in ids && GetModule(ms.moduleName).Some?
    requires Accounts(ms, r, ids, policy, runId, None, false, oracles)
    ensures Unstamped(r) == Unstamped(Run(GetModule(ms.moduleName).value, ContextFor(ms, policy), Epoch, Epoch))
    ensures r.moduleId == ms.id
  {
    var m := GetModule(ms.moduleName).value;
    var ctx := ContextFor(ms, policy);
    var s, f :| LocalEntry(ms, r, oracles.local(m, ctx, s, f));
    assert oracles.local(m, ctx, s, f) == Ran(Run(m, ctx, s, f));
    RegistryIsTimeInsensitive();
    assert Restamped(RegistryLocal(m, ctx, s, f)) == Restamped(RegistryLocal(m, ctx, Epoch, Epoch));
  }

  /** The no-op module passes once its allowlist is not empty. */
  lemma NoopEntry(ms: ModuleSpec, r: ModuleResult, ids: set<string>, policy: Option<PolicySpec>, runId: string,
                  oracles: Oracles)
    requires IsRegistry(oracles.local)
    requires ms.moduleName == "noop" && ms.targetId in ids && EffectiveAllowlist(ms, policy) != []
    requires Accounts(ms, r, ids, policy, runId, None, false, oracles)
    ensures r.status == Pass
  {
    RegistryEntry(ms, r, ids, policy, runId, oracles);
    assert GetModule("noop") == Some(NoopModule);
  }

  /** The echo module passes exactly when its expected and observed values agree. */
  lemma EchoEntry(ms: ModuleSpec, r: ModuleResult, ids: set<string>, policy: Option<PolicySpec>, runId: string,
                  oracles: Oracles)
    requires IsRegistry(oracles.local)
    requires ms.moduleName == "echo_expectation" && ms.targetId in ids && EffectiveAllowlist(ms, policy) != []
    requires Accounts(ms, r, ids, policy, runId, None, false, oracles)
    ensures r.status == (if PyEq(Get(ms.expectations, "expected_value"), Get(ms.params, "value")) then Pass else Fail)
  {
    RegistryEntry(ms, r, ids, policy, runId, oracles);
    assert GetModule("echo_expectation") == Some(EchoExpectationModule);
  }

  /** `noop-1` on a declared target passes. */
  lemma NoopSpecPasses(r: ModuleResult, ids: set<string>, runId: string, oracles: Oracles)
    requires IsRegistry(oracles.local)
    requires "local-host" in ids
    requires Accounts(NoopSpec, r, ids, None, runId, None, false, oracles)
    ensures r.status == Pass
  {
    NoopEntry(NoopSpec, r, ids, None, runId, oracles);
  }

  /** `echo-1` on a declared target fails: `"ok"` is not `"nope"`. */
  lemma EchoSpecFails(r: ModuleResult, ids: set<string>, runId: string, oracles: Oracles)
    requires IsRegistry(oracles.local)
    requires "local-host" in ids
    requires Accounts(EchoSpec, r, ids, None, runId, None, false, oracles)
    ensures r.status == Fail
  {
    EchoSpecFields();
    EchoMismatch(EchoSpec, r, ids, runId, oracles);
  }

  lemma EchoSpecFields()
    ensures EchoSpec.moduleName == "echo_expectation" && EchoSpec.targetId == "local-host"
    ensures EchoSpec.scopeAllowlist == ["local"]
    ensures Get(EchoSpec.expectations, "expected_value") == JString("ok")
    ensures Get(EchoSpec.params, "value") == JString("nope")
  {
  }

  /** An echo module spec expecting `"ok"` while its value is `"nope"` fails. */
  lemma EchoMismatch(ms: ModuleSpec, r: ModuleResult, ids: set<string>, runId: string, oracles: Oracles)
    requires IsRegistry(oracles.local)
    requires ms.moduleName == "echo_expectation" && ms.targetId in ids && ms.scopeAllowlist != []
    requires Get(ms.expectations, "expected_value") == JString("ok") && Get(ms.params, "value") == JString("nope")
    requires Accounts(ms, r, ids, None, runId, None, false, oracles)
    ensures r.status == Fail
  {
    EchoEntry(ms, r, ids, None, runId, oracles);
    assert !PyEq(JString("ok"), JString("nope"));
  }

  /** The only target of these campaigns. */
  lemma OnlyLocalHost(spec: CampaignSpec)
    requires spec.targets == [LocalHost]
    ensures "local-host" in TargetIds(spec) && "missing-host" !in TargetIds(spec)
  {
    assert spec.targets[0].id == "local-host";
  }

  /** The counts and score of a pass and a failure. */
  lemma OnePassOneFail(results: seq<ModuleResult>)
    requires |results| == 2 && results[0].status == Pass && results[1].status == Fail
    ensures ScoreResults(results) == (0.5, Summary(2, 1, 1, 0, 0))
  {
    assert Statuses(results[1..][1..]) == [];
    assert Statuses(results) == [Pass, Fail];
    assert multiset([Pass, Fail]) == multiset{Pass, Fail};
  }

  /** The counts of a pass, an error and a failure. */
  lemma OnePassOneErrorOneFail(results: seq<ModuleResult>)
    requires |results| == 3
    requires results[0].status == Pass && results[1].status == Error && results[2].status == Fail
    ensures ScoreResults(results).1 == Summary(3, 1, 1, 1, 0)
  {
    var tail := results[1..];
    assert Statuses(tail[1..][1..]) == [];
    assert Statuses(tail) == [Error, Fail];
    assert Statuses(results) == [Pass, Error, Fail];
    assert multiset([Pass, Error, Fail]) == multiset{Pass, Error, Fail};
  }

  const NoopAndEcho: CampaignSpec := NewCampaignSpec("demo", [LocalHost], [NoopSpec, EchoSpec])

  /** The no-op module passes and the echo module fails on `"ok"` against
      `"nope"`: one pass, one fail, score one half. */
  lemma NoopAndEchoScenario(digest: CampaignSpec -> string, transport: Transport, repr: string -> string,
                            clock: nat -> Instant, freshRunId: string)
    ensures var out := RunCampaign(NoopAndEcho, Deterministic, Oracles(digest, transport, RegistryLocal, repr), clock, freshRunId);
            && out.Completed?
            && out.pack.summary == Summary(2, 1, 1, 0, 0)
            && out.pack.score == 0.5
            && out.pack.startedAt == Epoch && out.pack.finishedAt == Epoch
  {
    RegistryRun(NoopAndEcho, Deterministic, digest, transport, repr, clock, freshRunId);
    var oracles := Oracles(digest, transport, RegistryLocal, repr);
    var p := RunCampaign(NoopAndEcho, Deterministic, oracles, clock, freshRunId).pack;
    NoopAndEchoEntries(p.results, p.runId, oracles);
    OnePassOneFail(p.results);
  }

  lemma NoopAndEchoEntries(results: seq<ModuleResult>, runId: string, oracles: Oracles)
    requires IsRegistry(oracles.local)
    requires |results| == 2
    requires forall i :: 0 <= i < 2 ==>
      Accounts(NoopAndEcho.modules[i], results[i], TargetIds(NoopAndEcho), None, runId, None, false, oracles)
    ensures results[0].status == Pass && results[1].status == Fail
  {
    var ids := TargetIds(NoopAndEcho);
    OnlyLocalHost(NoopAndEcho);
    assert NoopAndEcho.modules == [NoopSpec, EchoSpec];
    NoopSpecPasses(results[0], ids, runId, oracles);
    EchoSpecFails(results[1], ids, runId, oracles);
  }

  const StraySpec: ModuleSpec := NewModuleSpec("noop-2", "noop", "missing-host").(scopeAllowlist := ["local"])

  const StrayCampaign: CampaignSpec := NewCampaignSpec("demo", [LocalHost], [NoopSpec, StraySpec, EchoSpec])

  /** Entry by entry: the no-op passes, the stray spec is an error naming
      its target, the echo fails. */
  lemma StrayEntries(results: seq<ModuleResult>, runId: string, oracles: Oracles)
    requires IsRegistry(oracles.local)
    requires |results| == 3
    requires forall i :: 0 <= i < 3 ==>
      Accounts(StrayCampaign.modules[i], results[i], TargetIds(StrayCampaign), None, runId, None, false, oracles)
    ensures results[0].status == Pass
    ensures Unstamped(results[1]) == ModuleResult("noop-2", Error, Epoch, Epoch, UnknownTargetEvidence,
                                                  Some("Unknown target: missing-host"))
    ensures results[2].status == Fail
  {
    var ids := TargetIds(StrayCampaign);
    OnlyLocalHost(StrayCampaign);
    assert StrayCampaign.modules == [NoopSpec, StraySpec, EchoSpec];
    NoopSpecPasses(results[0], ids, runId, oracles);
    assert StraySpec.id == "noop-2" && StraySpec.targetId == "missing-host";
    assert "Unknown target: " + StraySpec.targetId == "Unknown target: missing-host";
    EchoSpecFails(results[2], ids, runId, oracles);
  }

  /** A module spec naming a target the campaign does not declare becomes an
      `error` entry, and its siblings still run and report their own status. */
  lemma UnknownTargetScenario(digest: CampaignSpec -> string, transport: Transport, repr: string -> string,
                              clock: nat -> Instant, freshRunId: string)
    ensures var out := RunCampaign(StrayCampaign, Deterministic, Oracles(digest, transport, RegistryLocal, repr), clock, freshRunId);
            && out.Completed?
            && out.pack.summary == Summary(3, 1, 1, 1, 0)
            && out.pack.results[1].moduleId == "noop-2"
            && out.pack.results[1].notes == Some("Unknown target: missing-host")
  {
    RegistryRun(StrayCampaign, Deterministic, digest, transport, repr, clock, freshRunId);
    var oracles := Oracles(digest, transport, RegistryLocal, repr);
    var p := RunCampaign(StrayCampaign, Deterministic, oracles, clock, freshRunId).pack;
    StrayEntries(p.results, p.runId, oracles);
    OnePassOneErrorOneFail(p.results);
  }

  /** A mock agent configured to grant only `"other"`. */
  const OtherOnlyAgent: AgentClientConfig :=
    NewConfig("mock://agent").(enabled := true, mockCapabilities := Some(["other"]))

  const GapCampaign: CampaignSpec := NewCampaignSpec("demo", [LocalHost], [NoopSpec])

  /** The mock agent's answer lacks `"noop"`, so the handshake is refused. */
  lemma GapHandshakeRefused(transport: Transport)
    ensures OpeningHandshake(GapCampaign, OtherOnlyAgent, transport).0 == Refused(MissingRequested)
  {
    var cfg := OtherOnlyAgent;
    OtherOnlyIsMock();
    GapAnswerLacksNoop();
    assert Handshake(NewClient(cfg), cfg.agentId, RequestedCapabilities(GapCampaign), GapCampaign.version,
                     cfg.expectedPolicyHash, transport)
        == Accept(NewClient(cfg), MockHandshake(cfg, cfg.agentId, RequestedCapabilities(GapCampaign)),
                  RequestedCapabilities(GapCampaign), cfg.expectedPolicyHash);
  }

  lemma OtherOnlyIsMock()
    ensures HandshakeGuard(OtherOnlyAgent).None? && IsMock(OtherOnlyAgent)
  {
    assert OtherOnlyAgent.baseUrl[..7] == "mock://";
    assert OtherOnlyAgent.baseUrl[..7] != "http://";
  }

  /** The mock answer grants only `"other"`, which misses the requested `"noop"`. */
  lemma GapAnswerLacksNoop()
    ensures var requested := RequestedCapabilities(GapCampaign);
            ValidateHandshake(MockHandshake(OtherOnlyAgent, OtherOnlyAgent.agentId, requested), requested)
              == Some(MissingRequested)
  {
    var requested := RequestedCapabilities(GapCampaign);
    assert "noop" in requested by { assert GapCampaign.modules[0].moduleName == "noop"; }
    var h := MockHandshake(OtherOnlyAgent, OtherOnlyAgent.agentId, requested);
    assert h.capabilities == [JString("other")];
    var i :| 0 <= i < |requested| && requested[i] == "noop";
    assert !Granted(h, requested[i]);
  }

  /** A handshake that does not grant `"noop"` fails the whole run: its one
      module is reported as errored and nothing is dispatched. */
  lemma CapabilityGapScenario(digest: CampaignSpec -> string, transport: Transport,
                              local: (Module, ModuleContext, Instant, Instant) -> LocalRun, repr: string -> string,
                              clock: nat -> Instant, freshRunId: string)
    ensures var out := RunCampaign(GapCampaign, RunOptions(false, Some(OtherOnlyAgent), None),
                                   Oracles(digest, transport, local, repr), clock, freshRunId);
            && out.Completed?
            && out.pack.summary.total == 1 && out.pack.summary.errored == 1
            && out.pack.results[0].evidence == FailureEvidence("agent handshake failed", MissingRequested.Message())
  {
    var opts := RunOptions(false, Some(OtherOnlyAgent), None);
    var oracles := Oracles(digest, transport, local, repr);
    GapHandshakeRefused(transport);
    HandshakeFailureErrorsAll(GapCampaign, opts, oracles, clock, freshRunId);
  }

  const Unscoped: ModuleSpec := NewModuleSpec("noop-1", "noop", "local-host")

  const UnscopedCampaign: CampaignSpec := NewCampaignSpec("demo", [LocalHost], [Unscoped])

  const GlobalLocal: PolicySpec := NewPolicySpec().(allowlist := ["local"])

  /** A no-op module spec without its own allowlist errors on its own, and
      passes once a policy supplies a global allowlist. */
  lemma GlobalAllowlistScenario(digest: CampaignSpec -> string, transport: Transport, repr: string -> string,
                                clock: nat -> Instant, freshRunId: string)
    ensures var oracles := Oracles(digest, transport, RegistryLocal, repr);
            var bare := RunCampaign(UnscopedCampaign, Deterministic, oracles, clock, freshRunId);
            var governed := RunCampaign(UnscopedCampaign, Deterministic.(policy := Some(GlobalLocal)),
                                        oracles, clock, freshRunId);
            && bare.Completed? && bare.pack.results[0].status == Error
            && governed.Completed? && governed.pack.results[0].status == Pass
  {
    var governedOpts := Deterministic.(policy := Some(GlobalLocal));
    RegistryRun(UnscopedCampaign, Deterministic, digest, transport, repr, clock, freshRunId);
    RegistryRun(UnscopedCampaign, governedOpts, digest, transport, repr, clock, freshRunId);
    var oracles := Oracles(digest, transport, RegistryLocal, repr);
    var bare := RunCampaign(UnscopedCampaign, Deterministic, oracles, clock, freshRunId).pack;
    var governed := RunCampaign(UnscopedCampaign, governedOpts, oracles, clock, freshRunId).pack;
    UnscopedEntries(bare.results[0], governed.results[0], bare.runId, governed.runId, oracles);
  }

  lemma UnscopedEntries(bare: ModuleResult, governed: ModuleResult, bareId: string, governedId: string, oracles: Oracles)
    requires IsRegistry(oracles.local)
    requires Accounts(Unscoped, bare, TargetIds(UnscopedCampaign), None, bareId, None, false, oracles)
    requires Accounts(Unscoped, governed, TargetIds(UnscopedCampaign), Some(GlobalLocal), governedId, None, false, oracles)
    ensures bare.status == Error && governed.status == Pass
  {
    OnlyLocalHost(UnscopedCampaign);
    RegistryEntry(Unscoped, bare, TargetIds(UnscopedCampaign), None, bareId, oracles);
    assert GetModule("noop") == Some(NoopModule);
    GlobalAllowlistNext(Unscoped, GlobalLocal);
    NoopEntry(Unscoped, governed, TargetIds(UnscopedCampaign), Some(GlobalLocal), governedId, oracles);
  }
}

=== FILE: glob.dfy ===
/** The path globs of the summary differ (`ignore_paths`): normalization of
    a pattern to a `$`-rooted path, its translation into a regular expression
    (`*` any run of characters, `?` one character, `[*]` any array index),
    and full-match semantics. The regular expression is kept as the token
    sequence it is built from; `Matches` is what `re.fullmatch` decides for
    it, and `InLanguage` is an independent declarative reading of the same
    expression. */
module Glob {
  import opened Strings

  /** One piece of the translated expression: `.*`, `.`, an escaped
      character, or `\[\d+\]`. */
  datatype Token = Star | AnyChar | Lit(c: char) | Index

  /** The text `[*]` is swapped for before translation. */
  const Placeholder: string := "__IDX__"

  /** `pat` occurs in `s` starting at position `i`. */
  predicate OccursAt<T(==)>(pat: seq<T>, s: seq<T>, i: int) {
    0 <= i && i + |pat| <= |s| && s[i..i + |pat|] == pat
  }

  ghost predicate Occurs<T>(pat: seq<T>, s: seq<T>) {
    exists i :: OccursAt(pat, s, i)
  }

  /** Python's `str.replace`: every occurrence of `pat`, scanning left to
      right without overlap, is replaced by `rep`. */
  function Replace<T(==)>(s: seq<T>, pat: seq<T>, rep: seq<T>): seq<T>
    requires pat != []
    decreases |s|
  {
    if |s| < |pat| then s
    else if s[..|pat|] == pat then rep + Replace(s[|pat|..], pat, rep)
    else [s[0]] + Replace(s[1..], pat, rep)
  }

  /** The translation of one pattern character. */
  function CharToken(c: char): Token {
    if c == '*' then Star else if c == '?' then AnyChar else Lit(c)
  }

  function CharTokens(s: string): (ts: seq<Token>)
    ensures |ts| == |s| && forall i :: 0 <= i < |s| ==> ts[i] == CharToken(s[i])
  {
    seq(|s|, i requires 0 <= i < |s| => CharToken(s[i]))
  }

  /** The tokens of a text matched literally. */
  function Lits(s: string): (ts: seq<Token>)
    ensures |ts| == |s| && forall i :: 0 <= i < |s| ==> ts[i] == Lit(s[i])
  {
    seq(|s|, i requires 0 <= i < |s| => Lit(s[i]))
  }

  /** `_pattern_to_regex`. The placeholder is swapped back after escaping;
      `re.escape` leaves `_` and letters as they are and every text it emits
      for another character carries none of them, so an occurrence of the
      placeholder in the escaped text is exactly seven consecutive literal
      tokens, and the replacement is done on tokens. */
  function Compile(pattern: string): seq<Token> {
    Replace(CharTokens(Replace(pattern, "[*]", Placeholder)), Lits(Placeholder), [Index])
  }

  /** Whether the expression `ts` matches all of `s` (`re.fullmatch`). `.`
      does not match a newline. */
  predicate Matches(ts: seq<Token>, s: string)
    decreases |s|, |ts|
  {
    if ts == [] then s == []
    else match ts[0]
      case Star => Matches(ts[1..], s) || (s != [] && s[0] != '\n' && Matches(ts, s[1..]))
      case AnyChar => s != [] && s[0] != '\n' && Matches(ts[1..], s[1..])
      case Lit(c) => s != [] && s[0] == c && Matches(ts[1..], s[1..])
      case Index => s != [] && s[0] == '[' && MatchIndex(ts[1..], s[1..], false)
  }

  /** The rest of `\[\d+\]` followed by `rest`, after the opening bracket;
      `seen` records that a digit has been read. */
  predicate MatchIndex(rest: seq<Token>, s: string, seen: bool)
    decreases |s|, |rest|
  {
    s != [] &&
    ((IsDigit(s[0]) && MatchIndex(rest, s[1..], true)) || (seen && s[0] == ']' && Matches(rest, s[1..])))
  }

  /** The strings one token stands for. */
  predicate Denotes(t: Token, w: string) {
    match t
    case Star => forall i :: 0 <= i < |w| ==> w[i] != '\n'
    case AnyChar => |w| == 1 && w[0] != '\n'
    case Lit(c) => w == [c]
    case Index => |w| >= 3 && w[0] == '[' && w[|w| - 1] == ']' && AllDigits(w[1..|w| - 1])
  }

  /** `s` splits into consecutive pieces, one per token, each of which the
      token stands for. */
  ghost predicate InLanguage(ts: seq<Token>, s: string)
    decreases |ts|
  {
    if ts == [] then s == []
    else exists k :: 0 <= k <= |s| && Denotes(ts[0], s[..k]) && InLanguage(ts[1..], s[k..])
  }

  /** After the opening bracket, `j` digits (at least one unless a digit was
      already read), the closing bracket at `j`, then text `rest` matches. */
  predicate IndexSplit(rest: seq<Token>, s: string, seen: bool, j: int) {
    0 <= j < |s| && (seen || j > 0) && AllDigits(s[..j]) && s[j] == ']' && Matches(rest, s[j + 1..])
  }

  /** The bracketed-digits matcher decides exactly the splits above. */
  lemma {:induction false} MatchIndexIff(rest: seq<Token>, s: string, seen: bool)
    ensures MatchIndex(rest, s, seen) <==> exists j :: IndexSplit(rest, s, seen, j)
    decreases |s|
  {
    if s != [] {
      MatchIndexIff(rest, s[1..], true);
      if MatchIndex(rest, s, seen) {
        MatchIndexWitness(rest, s, seen);
      }
      if exists j :: IndexSplit(rest, s, seen, j) {
        var j :| IndexSplit(rest, s, seen, j);
        MatchIndexFrom(rest, s, seen, j);
      }
    }
  }

  /** One step of `MatchIndexIff`, matcher to split, given the claim for the tail. */
  lemma MatchIndexWitness(rest: seq<Token>, s: string, seen: bool)
    requires s != [] && MatchIndex(rest, s, seen)
    requires MatchIndex(rest, s[1..], true) ==> exists j :: IndexSplit(rest, s[1..], true, j)
    ensures exists j :: IndexSplit(rest, s, seen, j)
  {
    if IsDigit(s[0]) && MatchIndex(rest, s[1..], true) {
      var j :| IndexSplit(rest, s[1..], true, j);
      SplitAfterDigit(rest, s, seen, j);
    } else {
      assert seen && s[0] == ']' && Matches(rest, s[1..]);
      assert s[..0] == [];
      assert IndexSplit(rest, s, seen, 0);
    }
  }

  /** A digit in front of a split moves its closing bracket one place on. */
  lemma SplitAfterDigit(rest: seq<Token>, s: string, seen: bool, j: int)
    requires s != [] && IsDigit(s[0]) && IndexSplit(rest, s[1..], true, j)
    ensures IndexSplit(rest, s, seen, j + 1)
  {
    assert AllDigits(s[..j + 1]) by {
      assert s[..j + 1] == [s[0]] + s[1..][..j];
      DigitsCons(s[0], s[1..][..j]);
    }
    assert s[j + 1 + 1..] == s[1..][j + 1..];
  }

  lemma DigitsCons(c: char, d: string)
    requires IsDigit(c) && AllDigits(d)
    ensures AllDigits([c] + d)
  {
    assert forall i :: 0 < i <= |d| ==> ([c] + d)[i] == d[i - 1];
  }

  /** One step of `MatchIndexIff`, split to matcher, given the claim for the tail. */
  lemma MatchIndexFrom(rest: seq<Token>, s: string, seen: bool, j: int)
    requires IndexSplit(rest, s, seen, j)
    requires (exists k :: IndexSplit(rest, s[1..], true, k)) ==> MatchIndex(rest, s[1..], true)
    ensures MatchIndex(rest, s, seen)
  {
    if j > 0 {
      assert IsDigit(s[..j][0]);
      assert s[1..][..j - 1] == s[1..j];
      assert s[1..][j - 1 + 1..] == s[j + 1..];
      assert IndexSplit(rest, s[1..], true, j - 1);
    }
  }

  /** The matcher decides exactly the declarative language. */
  lemma {:induction false} MatchesIffInLanguage(ts: seq<Token>, s: string)
    ensures Matches(ts, s) <==> InLanguage(ts, s)
    decreases |s|, |ts|, 2
  {
    if ts != [] {
      match ts[0]
      case Star => StarIff(ts, s);
      case AnyChar =>
        LengthOnePiece(ts, s);
        if s != [] {
          MatchesIffInLanguage(ts[1..], s[1..]);
        }
      case Lit(c) =>
        LengthOnePiece(ts, s);
        if s != [] {
          MatchesIffInLanguage(ts[1..], s[1..]);
        }
      case Index => IndexIff(ts, s);
    }
  }

  lemma {:induction false} StarIff(ts: seq<Token>, s: string)
    requires ts != [] && ts[0] == Star
    ensures Matches(ts, s) <==> InLanguage(ts, s)
    decreases |s|, |ts|, 1
  {
    if Matches(ts, s) {
      StarSound(ts, s);
    }
    if InLanguage(ts, s) {
      StarComplete(ts, s);
    }
  }

  lemma {:induction false} StarSound(ts: seq<Token>, s: string)
    requires ts != [] && ts[0] == Star && Matches(ts, s)
    ensures InLanguage(ts, s)
    decreases |s|, |ts|, 0
  {
    var rest := ts[1..];
    if Matches(rest, s) {
      MatchesIffInLanguage(rest, s);
      StarEmptyPiece(ts, s);
    } else {
      assert s != [] && s[0] != '\n' && Matches(ts, s[1..]);
      MatchesIffInLanguage(ts, s[1..]);
      var k :| 0 <= k <= |s[1..]| && Denotes(Star, s[1..][..k]) && InLanguage(rest, s[1..][k..]);
      StarLongerPiece(ts, s, k);
    }
  }

  /** `*` may stand for nothing. */
  lemma StarEmptyPiece(ts: seq<Token>, s: string)
    requires ts != [] && ts[0] == Star && InLanguage(ts[1..], s)
    ensures InLanguage(ts, s)
  {
    assert Denotes(Star, s[..0]) && s[0..] == s;
  }

  /** A piece of `*` grows by a leading character other than a newline. */
  lemma StarLongerPiece(ts: seq<Token>, s: string, k: int)
    requires ts != [] && ts[0] == Star && s != [] && s[0] != '\n'
    requires 0 <= k <= |s| - 1 && Denotes(Star, s[1..][..k]) && InLanguage(ts[1..], s[1..][k..])
    ensures InLanguage(ts, s)
  {
    var w := s[..k + 1];
    forall i | 0 <= i < |w|
      ensures w[i] != '\n'
    {
      if i > 0 {
        assert w[i] == s[1..][..k][i - 1];
      }
    }
    assert s[k + 1..] == s[1..][k..];
    assert Denotes(ts[0], w) && InLanguage(ts[1..], s[k + 1..]);
  }

  lemma {:induction false} StarComplete(ts: seq<Token>, s: string)
    requires ts != [] && ts[0] == Star && InLanguage(ts, s)
    ensures Matches(ts, s)
    decreases |s|, |ts|, 0
  {
    var rest := ts[1..];
    var k :| 0 <= k <= |s| && Denotes(Star, s[..k]) && InLanguage(rest, s[k..]);
    if k > 0 {
      StarShorterPiece(ts, s, k);
      MatchesIffInLanguage(ts, s[1..]);
    } else {
      assert s[k..] == s;
      MatchesIffInLanguage(rest, s);
    }
  }

  /** A non-empty piece of `*` loses its first character. */
  lemma StarShorterPiece(ts: seq<Token>, s: string, k: int)
    requires ts != [] && ts[0] == Star
    requires 0 < k <= |s| && Denotes(Star, s[..k]) && InLanguage(ts[1..], s[k..])
    ensures s[0] != '\n' && InLanguage(ts, s[1..])
  {
    assert s[0] == s[..k][0];
    assert s[1..][..k - 1] == s[1..k];
    assert s[1..][k - 1..] == s[k..];
    assert Denotes(Star, s[1..][..k - 1]);
  }

  lemma {:induction false} IndexIff(ts: seq<Token>, s: string)
    requires ts != [] && ts[0] == Index
    ensures Matches(ts, s) <==> InLanguage(ts, s)
    decreases |s|, |ts|, 1
  {
    if Matches(ts, s) {
      IndexSound(ts, s);
    }
    if InLanguage(ts, s) {
      IndexComplete(ts, s);
    }
  }

  lemma {:induction false} IndexSound(ts: seq<Token>, s: string)
    requires ts != [] && ts[0] == Index && Matches(ts, s)
    ensures InLanguage(ts, s)
    decreases |s|, |ts|, 0
  {
    var rest := ts[1..];
    assert s != [] && s[0] == '[' && MatchIndex(rest, s[1..], false);
    var t := s[1..];
    MatchIndexIff(rest, t, false);
    var j :| IndexSplit(rest, t, false, j);
    MatchesIffInLanguage(rest, t[j + 1..]);
    IndexPiece(s, j);
    assert Denotes(ts[0], s[..j + 2]) && InLanguage(rest, s[j + 2..]);
  }

  lemma {:induction false} IndexComplete(ts: seq<Token>, s: string)
    requires ts != [] && ts[0] == Index && InLanguage(ts, s)
    ensures Matches(ts, s)
    decreases |s|, |ts|, 0
  {
    var rest := ts[1..];
    var k :| 0 <= k <= |s| && Denotes(Index, s[..k]) && InLanguage(rest, s[k..]);
    MatchesIffInLanguage(rest, s[k..]);
    IndexPieceMatches(ts, s, k);
  }

  /** An index piece of length `k` at the front of `s`, then a match of the
      rest of the expression. */
  lemma IndexPieceMatches(ts: seq<Token>, s: string, k: nat)
    requires ts != [] && ts[0] == Index && k <= |s| && Denotes(Index, s[..k]) && Matches(ts[1..], s[k..])
    ensures Matches(ts, s)
  {
    IndexPieceParts(s, k);
    assert IndexSplit(ts[1..], s[1..], false, k - 2);
    MatchIndexIff(ts[1..], s[1..], false);
  }

  /** A bracket, digits and a bracket at the front of `s` are one index piece. */
  lemma IndexPiece(s: string, j: nat)
    requires j + 1 < |s| && j > 0 && s[0] == '[' && AllDigits(s[1..][..j]) && s[1..][j] == ']'
    ensures Denotes(Index, s[..j + 2]) && s[j + 2..] == s[1..][j + 1..]
  {
    var w := s[..j + 2];
    assert w[1..|w| - 1] == s[1..][..j];
  }

  /** The parts of an index piece at the front of `s`. */
  lemma IndexPieceParts(s: string, k: nat)
    requires k <= |s| && Denotes(Index, s[..k])
    ensures k >= 3 && s[0] == '[' && AllDigits(s[1..][..k - 2]) && s[1..][k - 2] == ']' && s[1..][k - 1..] == s[k..]
  {
    var w := s[..k];
    assert |w| == k && k >= 3;
    assert s[0] == w[0];
    var digits := s[1..][..k - 2];
    assert |digits| == |w[1..|w| - 1]| == k - 2;
    forall i | 0 <= i < k - 2
      ensures digits[i] == w[1..|w| - 1][i]
    {
      assert digits[i] == s[i + 1] == w[i + 1];
    }
    assert digits == w[1..|w| - 1];
    assert s[1..][k - 2] == s[k - 1] == w[k - 1];
    assert s[1..][k - 1..] == s[k..];
  }

  /** A one-character token takes exactly the first character. */
  lemma LengthOnePiece(ts: seq<Token>, s: string)
    requires ts != [] && (ts[0].AnyChar? || ts[0].Lit?)
    ensures InLanguage(ts, s) <==> s != [] && Denotes(ts[0], s[..1]) && InLanguage(ts[1..], s[1..])
  {
    if InLanguage(ts, s) {
      var k :| 0 <= k <= |s| && Denotes(ts[0], s[..k]) && InLanguage(ts[1..], s[k..]);
      assert k == 1;
    }
  }

  /** With no occurrence of `pat`, replacing changes nothing. */
  lemma {:induction false} ReplaceAbsent<T>(s: seq<T>, pat: seq<T>, rep: seq<T>)
    requires pat != [] && !Occurs(pat, s)
    ensures Replace(s, pat, rep) == s
    decreases |s|
  {
    if |s| >= |pat| {
      assert !OccursAt(pat, s, 0);
      var t := s[1..];
      forall i | 0 <= i && i + |pat| <= |t|
        ensures !OccursAt(pat, t, i)
      {
        assert t[i..i + |pat|] == s[i + 1..i + 1 + |pat|];
        assert !OccursAt(pat, s, i + 1);
      }
      ReplaceAbsent(s[1..], pat, rep);
      assert [s[0]] + s[1..] == s;
    }
  }

  /** The first occurrence of `pat` is the one right after `a`, when none
      starts earlier. */
  lemma {:induction false} ReplaceAfter<T>(a: seq<T>, pat: seq<T>, rep: seq<T>, b: seq<T>)
    requires pat != [] && !Occurs(pat, a + pat[..|pat| - 1])
    ensures Replace(a + pat + b, pat, rep) == a + rep + Replace(b, pat, rep)
    decreases |a|
  {
    var s := a + pat + b;
    if a == [] {
      assert s[..|pat|] == pat && s[|pat|..] == b;
    } else {
      var a' := a[1..];
      NoEarlyStart(a, pat, b);
      AbsentAfterFirst(a, pat);
      ReplaceAfter(a', pat, rep, b);
      ConsReplaced(a, pat, rep, b, Replace(b, pat, rep));
    }
  }

  /** Without an occurrence inside `a + pat[..|pat| - 1]`, `a + pat + b` does
      not start with `pat`. */
  lemma NoEarlyStart<T>(a: seq<T>, pat: seq<T>, b: seq<T>)
    requires pat != [] && a != [] && !Occurs(pat, a + pat[..|pat| - 1])
    ensures |a + pat + b| >= |pat| && (a + pat + b)[..|pat|] != pat
  {
    var w := a + pat[..|pat| - 1];
    assert (a + pat + b)[..|pat|] == w[..|pat|];
    assert !OccursAt(pat, w, 0);
  }

  /** Dropping the first element of `a` keeps `pat` absent. */
  lemma AbsentAfterFirst<T>(a: seq<T>, pat: seq<T>)
    requires pat != [] && a != [] && !Occurs(pat, a + pat[..|pat| - 1])
    ensures !Occurs(pat, a[1..] + pat[..|pat| - 1])
  {
    var w := a + pat[..|pat| - 1];
    var w' := a[1..] + pat[..|pat| - 1];
    forall i | 0 <= i && i + |pat| <= |w'|
      ensures !OccursAt(pat, w', i)
    {
      assert w'[i..i + |pat|] == w[i + 1..i + 1 + |pat|];
      assert !OccursAt(pat, w, i + 1);
    }
  }

  /** The step of `Replace` past a non-matching first element. */
  lemma ConsReplaced<T>(a: seq<T>, pat: seq<T>, rep: seq<T>, b: seq<T>, tail: seq<T>)
    requires pat != [] && a != []
    requires |a + pat + b| >= |pat| && (a + pat + b)[..|pat|] != pat
    requires Replace(a[1..] + pat + b, pat, rep) == a[1..] + rep + tail
    ensures Replace(a + pat + b, pat, rep) == a + rep + tail
  {
    var s := a + pat + b;
    assert s[1..] == a[1..] + pat + b;
    assert a == [a[0]] + a[1..];
    assert [s[0]] + (a[1..] + rep + tail) == a + rep + tail;
  }

  /** A sequence lacking one element of `pat` has no occurrence of it. */
  lemma MissingMarker<T>(s: seq<T>, pat: seq<T>, j: nat)
    requires j < |pat| && pat[j] !in s
    ensures !Occurs(pat, s)
  {
    forall i | 0 <= i && i + |pat| <= |s|
      ensures !OccursAt(pat, s, i)
    {
      assert s[i..i + |pat|][j] == s[i + j];
    }
  }

  /** When the marker `pat[j]` appears once in `pat` and never in `a`, no
      occurrence of `pat` starts inside `a` or overlaps its end. */
  lemma UniqueMarker<T>(a: seq<T>, pat: seq<T>, j: nat)
    requires j < |pat| && pat[j] !in a
    requires forall m :: 0 <= m < |pat| && m != j ==> pat[m] != pat[j]
    ensures !Occurs(pat, a + pat[..|pat| - 1])
  {
    var w := a + pat[..|pat| - 1];
    forall i | 0 <= i && i + |pat| <= |w|
      ensures !OccursAt(pat, w, i)
    {
      assert w[i..i + |pat|][j] == w[i + j];
      if i + j >= |a| {
        assert w[i + j] == pat[i + j - |a|];
      }
    }
  }

  /** A pattern without `*` and `?`. */
  predicate Plain(p: string) {
    forall i :: 0 <= i < |p| ==> p[i] != '*' && p[i] != '?'
  }

  lemma PlainTokens(p: string)
    requires Plain(p)
    ensures CharTokens(p) == Lits(p)
  {
  }

  /** Literal tokens match exactly their own text at the front. */
  lemma {:induction false} MatchesLits(a: string, rest: seq<Token>, s: string)
    ensures Matches(Lits(a) + rest, s) <==> StartsWith(s, a) && Matches(rest, s[|a|..])
    decreases |a|
  {
    if a == [] {
      assert Lits(a) + rest == rest;
    } else {
      var ts := Lits(a) + rest;
      assert ts[0] == Lit(a[0]);
      assert ts[1..] == Lits(a[1..]) + rest;
      if s != [] {
        MatchesLits(a[1..], rest, s[1..]);
        StartsWithStep(s, a);
      }
    }
  }

  /** A prefix test, one character at a time. */
  lemma StartsWithStep(s: string, a: string)
    requires s != [] && a != []
    ensures StartsWith(s, a) <==> s[0] == a[0] && StartsWith(s[1..], a[1..])
    ensures |a| <= |s| ==> s[1..][|a| - 1..] == s[|a|..]
  {
    if StartsWith(s[1..], a[1..]) && s[0] == a[0] {
      assert s[..|a|] == [s[0]] + s[1..][..|a| - 1];
    }
    if StartsWith(s, a) {
      assert s[1..][..|a| - 1] == s[..|a|][1..];
    }
  }

  /** A pattern with no wildcard, no `X` (so no placeholder text) matches
      exactly the path it spells: the match is anchored at both ends. */
  lemma LiteralPattern(p: string, path: string)
    requires Plain(p) && 'X' !in p
    ensures Compile(p) == Lits(p)
    ensures Matches(Compile(p), path) <==> path == p
  {
    MissingMarker(p, "[*]", 1);
    ReplaceAbsent(p, "[*]", Placeholder);
    PlainTokens(p);
    MissingMarker(Lits(p), Lits(Placeholder), 4);
    ReplaceAbsent(Lits(p), Lits(Placeholder), [Index]);
    MatchesLits(p, [], path);
    assert Lits(p) + [] == Lits(p);
  }

  /** `[*]` between two wildcard-free parts becomes the index token. */
  lemma IndexPatternTokens(a: string, b: string)
    requires Plain(a) && Plain(b) && 'X' !in a && 'X' !in b
    ensures Compile(a + "[*]" + b) == Lits(a) + [Index] + Lits(b)
  {
    PlaceholderText(a, b);
    PlaceholderChars(a, b);
    PlaceholderTokens(a, b);
  }

  /** The text stage: the one `[*]` becomes the placeholder. */
  lemma PlaceholderText(a: string, b: string)
    requires Plain(a) && Plain(b)
    ensures Replace(a + "[*]" + b, "[*]", Placeholder) == a + Placeholder + b
  {
    UniqueMarker(a, "[*]", 1);
    ReplaceAfter(a, "[*]", Placeholder, b);
    MissingMarker(b, "[*]", 1);
    ReplaceAbsent(b, "[*]", Placeholder);
  }

  /** Wildcard-free text around the placeholder is taken literally. */
  lemma PlaceholderChars(a: string, b: string)
    requires Plain(a) && Plain(b)
    ensures CharTokens(a + Placeholder + b) == Lits(a) + Lits(Placeholder) + Lits(b)
  {
  }

  /** The token stage: the placeholder's literals become the index token. */
  lemma PlaceholderTokens(a: string, b: string)
    requires 'X' !in a && 'X' !in b
    ensures Replace(Lits(a) + Lits(Placeholder) + Lits(b), Lits(Placeholder), [Index]) == Lits(a) + [Index] + Lits(b)
  {
    UniqueMarker(Lits(a), Lits(Placeholder), 4);
    ReplaceAfter(Lits(a), Lits(Placeholder), [Index], Lits(b));
    MissingMarker(Lits(b), Lits(Placeholder), 4);
    ReplaceAbsent(Lits(b), Lits(Placeholder), [Index]);
  }

  /** `a[*]b` matches a path exactly when it is `a`, a bracketed non-empty
      run of digits, and `b`. */
  lemma IndexPattern(a: string, b: string, path: string)
    requires Plain(a) && Plain(b) && 'X' !in a && 'X' !in b
    ensures Matches(Compile(a + "[*]" + b), path) <==>
      exists d :: d != [] && AllDigits(d) && path == a + "[" + d + "]" + b
  {
    IndexPatternTokens(a, b);
    if Matches(Lits(a) + [Index] + Lits(b), path) {
      IndexTokensSound(a, b, path);
    }
    if exists d :: d != [] && AllDigits(d) && path == a + "[" + d + "]" + b {
      var d :| d != [] && AllDigits(d) && path == a + "[" + d + "]" + b;
      IndexTokensComplete(a, b, d);
    }
  }

  lemma IndexTokensSound(a: string, b: string, path: string)
    requires Matches(Lits(a) + [Index] + Lits(b), path)
    ensures exists d :: d != [] && AllDigits(d) && path == a + "[" + d + "]" + b
  {
    assert StartsWith(path, a) && Matches([Index] + Lits(b), path[|a|..]) by {
      MatchesLits(a, [Index] + Lits(b), path);
      assert Lits(a) + [Index] + Lits(b) == Lits(a) + ([Index] + Lits(b));
    }
    var s := path[|a|..];
    var d := IndexThenLits(b, s);
    assert path == a + s by {
      assert path == path[..|a|] + s;
    }
    assert a + s == a + "[" + d + "]" + b;
  }

  /** The digits an index token followed by literal `b` consumed. */
  lemma IndexThenLits(b: string, s: string) returns (d: string)
    requires Matches([Index] + Lits(b), s)
    ensures d != [] && AllDigits(d) && s == "[" + d + "]" + b
  {
    var rest := Lits(b);
    var t := s[1..];
    assert s != [] && s[0] == '[' && MatchIndex(rest, t, false) by {
      assert ([Index] + rest)[1..] == rest;
    }
    MatchIndexIff(rest, t, false);
    var j :| IndexSplit(rest, t, false, j);
    assert t[j + 1..] == b by {
      MatchesLits(b, [], t[j + 1..]);
      assert rest + [] == rest;
    }
    d := t[..j];
    Bracketed(s, j, b);
  }

  /** Reassembling a bracketed index from its parts. */
  lemma Bracketed(s: string, j: nat, b: string)
    requires 0 < |s| && s[0] == '[' && j + 1 < |s| && s[j + 1] == ']' && s[j + 2..] == b
    ensures s == "[" + s[1..][..j] + "]" + b
  {
    assert s == s[..1] + s[1..j + 1] + s[j + 1..j + 2] + s[j + 2..];
  }

  lemma IndexTokensComplete(a: string, b: string, d: string)
    requires d != [] && AllDigits(d)
    ensures Matches(Lits(a) + [Index] + Lits(b), a + "[" + d + "]" + b)
  {
    var path := a + "[" + d + "]" + b;
    MatchesLits(a, [Index] + Lits(b), path);
    assert Lits(a) + [Index] + Lits(b) == Lits(a) + ([Index] + Lits(b));
    assert StartsWith(path, a) && path[|a|..] == "[" + d + "]" + b;
    IndexThenLitsMatch(b, d);
  }

  /** The index token followed by literal `b` matches a bracketed run of digits then `b`. */
  lemma IndexThenLitsMatch(b: string, d: string)
    requires d != [] && AllDigits(d)
    ensures Matches([Index] + Lits(b), "[" + d + "]" + b)
  {
    var s := "[" + d + "]" + b;
    assert ([Index] + Lits(b))[1..] == Lits(b);
    var t := s[1..];
    assert t == d + "]" + b;
    assert t[..|d|] == d && t[|d|] == ']' && t[|d| + 1..] == b;
    MatchesLits(b, [], b);
    assert Lits(b) + [] == Lits(b);
    assert IndexSplit(Lits(b), t, false, |d|);
    MatchIndexIff(Lits(b), t, false);
  }

  /** Every array position is matched by `[*]`. */
  lemma EveryIndexMatches(a: string, b: string, n: nat)
    requires Plain(a) && Plain(b) && 'X' !in a && 'X' !in b
    ensures Matches(Compile(a + "[*]" + b), a + "[" + NatToDecimal(n) + "]" + b)
  {
    IndexPattern(a, b, a + "[" + NatToDecimal(n) + "]" + b);
  }

  /** A lone `.*` matches exactly the texts without a newline. */
  lemma {:induction false} StarAlone(w: string)
    ensures Matches([Star], w) <==> forall i :: 0 <= i < |w| ==> w[i] != '\n'
    decreases |w|
  {
    assert [Star][1..] == [];
    if w != [] {
      StarAlone(w[1..]);
      assert forall i :: 1 <= i < |w| ==> w[i] == w[1..][i - 1];
    }
  }

  lemma TrailingStarCompiles(a: string)
    requires Plain(a) && 'X' !in a
    ensures Compile(a + "*") == Lits(a) + [Star]
  {
    var p := a + "*";
    forall i | 0 <= i && i + 3 <= |p|
      ensures !OccursAt("[*]", p, i)
    {
      assert p[i..i + 3][1] == p[i + 1];
    }
    ReplaceAbsent(p, "[*]", Placeholder);
    assert CharTokens(p) == Lits(a) + [Star];
    MissingMarker(Lits(a) + [Star], Lits(Placeholder), 4);
    ReplaceAbsent(Lits(a) + [Star], Lits(Placeholder), [Index]);
  }

  /** `pattern*` after a wildcard-free part: the part, then any text
      without a newline. */
  lemma TrailingStar(a: string, path: string)
    requires Plain(a) && 'X' !in a
    ensures Compile(a + "*") == Lits(a) + [Star]
    ensures Matches(Compile(a + "*"), path) <==>
      StartsWith(path, a) && forall i :: |a| <= i < |path| ==> path[i] != '\n'
  {
    TrailingStarCompiles(a);
    MatchesLits(a, [Star], path);
    if StartsWith(path, a) {
      var w := path[|a|..];
      StarAlone(w);
      assert forall i :: |a| <= i < |path| ==> path[i] == w[i - |a|];
    }
  }

  /** `_normalize_path_pattern`: a pattern is rooted at `$`; one that is not
      yet rooted is read relative to the top object. */
  function NormalizePattern(p: string): (q: string)
    ensures StartsWith(q, "$") && |p| <= |q| && q[|q| - |p|..] == p
    ensures q == p <==> StartsWith(p, "$")
    ensures !StartsWith(p, "$") ==> StartsWith(q, "$.")
    ensures !StartsWith(p, "$") && StartsWith(p, ".") ==> q == "$" + p
    ensures !StartsWith(p, "$") && !StartsWith(p, ".") ==> q == "$." + p
  {
    if StartsWith(p, "$") then p
    else if StartsWith(p, ".") then "$" + p
    else "$." + p
  }

  /** Normalizing a normalized pattern changes nothing. */
  lemma NormalizeIdempotent(p: string)
    ensures NormalizePattern(NormalizePattern(p)) == NormalizePattern(p)
  {
  }

  /** `_should_ignore_path`: some pattern matches the whole path. */
  function ShouldIgnore(path: string, patterns: seq<string>): (b: bool)
    ensures b <==> exists i :: 0 <= i < |patterns| && Matches(Compile(patterns[i]), path)
    decreases |patterns|
  {
    if patterns == [] then false
    else Matches(Compile(patterns[0]), path) || ShouldIgnore(path, patterns[1..])
  }
}

=== FILE: json.dfy ===
/** JSON values as the Python code sees them after `json.loads`, together
    with the Python predicates the code applies to them (`isinstance` checks
    and `==`). Finite floats are modelled as exact reals; `json.loads` also
    accepts `NaN`, `Infinity` and `-Infinity`, which are kept apart. */
module Json {

  /** The float values `json.loads` produces that are not real numbers. */
  datatype NonFinite = NaN | PosInf | NegInf

  datatype Json =
    | JNull
    | JBool(b: bool)
    | JInt(i: int)
    | JFloat(f: real)
    | JNonFinite(kind: NonFinite)
    | JString(s: string)
    | JArray(items: seq<Json>)
    | JObject(fields: map<string, Json>)

  /** `isinstance(v, int)`: `bool` is a subclass of `int` in Python, so
      booleans pass as well. */
  predicate IsPyInt(v: Json) {
    v.JInt? || v.JBool?
  }

  /** `isinstance(v, (int, float))`, booleans included. */
  predicate IsPyNumber(v: Json) {
    IsFiniteNumber(v) || v.JNonFinite?
  }

  /** A number with a real value: everything but `nan` and the infinities. */
  predicate IsFiniteNumber(v: Json) {
    v.JInt? || v.JBool? || v.JFloat?
  }

  /** The numeric value Python compares: `True == 1`, `False == 0`. */
  function NumValue(v: Json): real
    requires IsFiniteNumber(v)
  {
    match v
    case JBool(b) => if b then 1.0 else 0.0
    case JInt(i) => i as real
    case JFloat(f) => f
  }

  /** The negation of `not isinstance(v, int) or v < 0`. A boolean passes
      because `True < 0` and `False < 0` are both false. */
  predicate IsNonNegativeInt(v: Json) {
    IsPyInt(v) && NumValue(v) >= 0.0
  }

  /** Python `a == b` on decoded JSON: numbers compare by value across
      `bool`/`int`/`float`, dicts by key set and values, lists pairwise;
      values of different kinds are unequal. Lists and dicts compare their
      items with an identity shortcut, and every `nan` a document decodes to
      is one shared float object (`yaml.safe_load` and `json.loads` both
      return a single constant), so a `nan` item equals a `nan` item while a
      bare `nan` operand equals nothing. */
  predicate PyEq(a: Json, b: Json)
    decreases a, 0
  {
    match (a, b)
    case (JObject(fa), JObject(fb)) =>
      fa.Keys == fb.Keys && forall k :: k in fa ==> ItemEq(fa[k], fb[k])
    case (JArray(xa), JArray(xb)) =>
      |xa| == |xb| && forall i :: 0 <= i < |xa| ==> ItemEq(xa[i], xb[i])
    case _ => ScalarEq(a, b)
  }

  /** How a list or dict compares two of its items: `x is y or x == y`. */
  predicate ItemEq(a: Json, b: Json)
    decreases a, 1
  {
    (IsNaN(a) && IsNaN(b)) || PyEq(a, b)
  }

  predicate IsNaN(v: Json) {
    v == JNonFinite(NaN)
  }

  /** Equality leaf by leaf: values of the same shape whose leaves are
      pairwise `==`. Unlike `PyEq` it never takes the identity shortcut, so
      a `nan` anywhere makes it fail; this is what a walk that compares the
      leaves with `!=` one at a time decides. */
  predicate LeafEq(a: Json, b: Json) {
    match (a, b)
    case (JObject(fa), JObject(fb)) =>
      fa.Keys == fb.Keys && forall k :: k in fa ==> LeafEq(fa[k], fb[k])
    case (JArray(xa), JArray(xb)) =>
      |xa| == |xb| && forall i :: 0 <= i < |xa| ==> LeafEq(xa[i], xb[i])
    case _ => ScalarEq(a, b)
  }

  /** `==` between two values that are not both dicts and not both lists.
      `nan` equals nothing, itself included; an infinity equals only the
      infinity of the same sign. */
  predicate ScalarEq(a: Json, b: Json) {
    if IsFiniteNumber(a) && IsFiniteNumber(b) then NumValue(a) == NumValue(b)
    else if a.JNonFinite? && b.JNonFinite? then a.kind == b.kind && a.kind != NaN
    else if a.JString? && b.JString? then a.s == b.s
    else a.JNull? && b.JNull?
  }

  /** No `nan` anywhere inside the value. */
  predicate NaNFree(v: Json) {
    match v
    case JNonFinite(k) => k != NaN
    case JArray(xs) => forall i :: 0 <= i < |xs| ==> NaNFree(xs[i])
    case JObject(fs) => forall k :: k in fs ==> NaNFree(fs[k])
    case _ => true
  }

  /** A value equals itself under `==` unless it is a bare `nan`: inside a
      list or dict the shared `nan` is the same object as itself. */
  lemma {:induction false} PyEqReflexive(a: Json)
    ensures PyEq(a, a) <==> !IsNaN(a)
  {
    if !IsNaN(a) {
      PyEqSelf(a);
    }
  }

  lemma {:induction false} PyEqSelf(a: Json)
    requires !IsNaN(a)
    ensures PyEq(a, a)
  {
    match a
    case JObject(fa) =>
      forall k | k in fa
        ensures ItemEq(fa[k], fa[k])
      {
        if !IsNaN(fa[k]) {
          PyEqSelf(fa[k]);
        }
      }
    case JArray(xa) =>
      forall i | 0 <= i < |xa|
        ensures ItemEq(xa[i], xa[i])
      {
        if !IsNaN(xa[i]) {
          PyEqSelf(xa[i]);
        }
      }
    case _ =>
  }

  /** Leaf-by-leaf, a value equals itself exactly when it holds no `nan`. */
  lemma {:induction false} LeafEqReflexive(a: Json)
    ensures LeafEq(a, a) <==> NaNFree(a)
  {
    match a
    case JObject(fa) =>
      forall k | k in fa
        ensures LeafEq(fa[k], fa[k]) <==> NaNFree(fa[k])
      {
        LeafEqReflexive(fa[k]);
      }
    case JArray(xa) =>
      forall i | 0 <= i < |xa|
        ensures LeafEq(xa[i], xa[i]) <==> NaNFree(xa[i])
      {
        LeafEqReflexive(xa[i]);
      }
    case _ =>
  }

  /** Leaf-by-leaf equality implies `==`; the converse holds as soon as one
      side holds no `nan`, so the two differ only on shared nested `nan`s. */
  lemma {:induction false} LeafEqIsPyEq(a: Json, b: Json)
    ensures LeafEq(a, b) ==> PyEq(a, b)
    ensures NaNFree(a) ==> (LeafEq(a, b) <==> PyEq(a, b))
  {
    match (a, b)
    case (JObject(fa), JObject(fb)) =>
      forall k | k in fa && k in fb
        ensures LeafEq(fa[k], fb[k]) ==> ItemEq(fa[k], fb[k])
        ensures NaNFree(a) ==> (LeafEq(fa[k], fb[k]) <==> ItemEq(fa[k], fb[k]))
      {
        LeafEqIsPyEq(fa[k], fb[k]);
        if NaNFree(a) {
          assert NaNFree(fa[k]) && !IsNaN(fa[k]);
        }
      }
    case (JArray(xa), JArray(xb)) =>
      forall i | 0 <= i < |xa| && i < |xb|
        ensures LeafEq(xa[i], xb[i]) ==> ItemEq(xa[i], xb[i])
        ensures NaNFree(a) ==> (LeafEq(xa[i], xb[i]) <==> ItemEq(xa[i], xb[i]))
      {
        LeafEqIsPyEq(xa[i], xb[i]);
        if NaNFree(a) {
          assert NaNFree(xa[i]) && !IsNaN(xa[i]);
        }
      }
    case _ =>
  }

  lemma {:induction false} PyEqSymmetric(a: Json, b: Json)
    requires PyEq(a, b)
    ensures PyEq(b, a)
  {
    match (a, b)
    case (JObject(fa), JObject(fb)) =>
      forall k | k in fb
        ensures ItemEq(fb[k], fa[k])
      {
        if !(IsNaN(fa[k]) && IsNaN(fb[k])) {
          PyEqSymmetric(fa[k], fb[k]);
        }
      }
    case (JArray(xa), JArray(xb)) =>
      forall i | 0 <= i < |xb|
        ensures ItemEq(xb[i], xa[i])
      {
        if !(IsNaN(xa[i]) && IsNaN(xb[i])) {
          PyEqSymmetric(xa[i], xb[i]);
        }
      }
    case _ =>
  }

  /** `d.get(k)`: a missing key reads as `None`. */
  function Get(d: map<string, Json>, k: string): (v: Json)
    ensures k !in d ==> v == JNull
    ensures k in d ==> v == d[k]
  {
    if k in d then d[k] else JNull
  }
}

=== FILE: models.dfy ===
/** The records shared by every component: campaign and policy input,
    per-module results and the evidence pack a run produces. Each record is
    an immutable value; "updating" one builds a copy. */
module Models {
  import opened Wrappers
  import opened Json

  /** A timezone-aware UTC instant, in microseconds since the Unix epoch. */
  datatype Instant = Instant(micros: int)

  /** `datetime(1970, 1, 1, tzinfo=UTC)`, the fixed time of deterministic mode. */
  const Epoch: Instant := Instant(0)

  /** The closed set of module outcomes. */
  datatype Status = Pass | Fail | Skipped | Error {
    /** The literal that appears in the serialized evidence. */
    function Name(): string {
      match this
      case Pass => "pass"
      case Fail => "fail"
      case Skipped => "skipped"
      case Error => "error"
    }
  }

  const StatusNames: set<string> := {"pass", "fail", "skipped", "error"}

  /** Validation of a status literal, as the `Literal[...]` field type does it:
      exactly the four names are accepted. */
  function ParseStatus(s: string): (r: Option<Status>)
    ensures r.Some? <==> s in StatusNames
    ensures r.Some? ==> r.value.Name() == s
  {
    if s == "pass" then Some(Pass)
    else if s == "fail" then Some(Fail)
    else if s == "skipped" then Some(Skipped)
    else if s == "error" then Some(Error)
    else None
  }

  /** Every status serializes to a literal that parses back to it. */
  lemma StatusRoundTrip(st: Status)
    ensures st.Name() in StatusNames
    ensures ParseStatus(st.Name()) == Some(st)
  {
  }

  datatype Target = Target(id: string, name: string, tags: seq<string>)

  function NewTarget(id: string, name: string): (t: Target)
    ensures t.tags == []
  {
    Target(id, name, [])
  }

  datatype ModuleSpec = ModuleSpec(
    id: string,
    moduleName: string,
    targetId: string,
    expectations: map<string, Json>,
    params: map<string, Json>,
    scopeAllowlist: seq<string>)

  /** A module spec with the optional fields left at their defaults. */
  function NewModuleSpec(id: string, moduleName: string, targetId: string): (m: ModuleSpec)
    ensures m.expectations == map[] && m.params == map[] && m.scopeAllowlist == []
  {
    ModuleSpec(id, moduleName, targetId, map[], map[], [])
  }

  datatype CampaignSpec = CampaignSpec(
    version: string,
    name: string,
    targets: seq<Target>,
    modules: seq<ModuleSpec>)

  /** `name`, `targets` and `modules` are required; `version` defaults. */
  function NewCampaignSpec(name: string, targets: seq<Target>, modules: seq<ModuleSpec>): (c: CampaignSpec)
    ensures c.version == "v1"
  {
    CampaignSpec("v1", name, targets, modules)
  }

  datatype ModuleResult = ModuleResult(
    moduleId: string,
    status: Status,
    startedAt: Instant,
    finishedAt: Instant,
    evidence: map<string, Json>,
    notes: Option<string>)

  /** The entry with both timestamps set to the epoch: everything about it
      that does not depend on when it was recorded. */
  function Unstamped(r: ModuleResult): ModuleResult {
    r.(startedAt := Epoch, finishedAt := Epoch)
  }

  /** The aggregate counts stored under `summary` in an evidence pack. */
  datatype Summary = Summary(total: nat, passed: nat, failed: nat, errored: nat, skipped: nat)

  datatype EvidencePack = EvidencePack(
    schemaVersion: string,
    campaignName: string,
    runId: string,
    startedAt: Instant,
    finishedAt: Instant,
    results: seq<ModuleResult>,
    score: real,
    summary: Summary,
    signatureAlg: Option<string>,
    signature: Option<string>)

  /** A pack as a run assembles it: schema `v1`, not yet signed. */
  function NewEvidencePack(
    campaignName: string, runId: string, startedAt: Instant, finishedAt: Instant,
    results: seq<ModuleResult>, score: real, summary: Summary): (e: EvidencePack)
    ensures e.schemaVersion == "v1"
    ensures e.signatureAlg.None? && e.signature.None?
  {
    EvidencePack("v1", campaignName, runId, startedAt, finishedAt, results, score, summary, None, None)
  }

  datatype PolicyRule = PolicyRule(allowlist: seq<string>)

  datatype PolicySpec = PolicySpec(
    version: string,
    allowlist: seq<string>,
    targets: map<string, PolicyRule>,
    modules: map<string, PolicyRule>)

  /** A policy document that sets nothing. */
  function NewPolicySpec(): (p: PolicySpec)
    ensures p.version == "v1" && p.allowlist == [] && p.targets == map[] && p.modules == map[]
  {
    PolicySpec("v1", [], map[], map[])
  }

  const SupportedCampaignVersions: set<string> := {"v1"}
  const SupportedPolicyVersions: set<string> := {"v1"}

  /** The version gate applied after a campaign document has been parsed. */
  function CheckCampaignVersion(spec: CampaignSpec): (r: Result<CampaignSpec, string>)
    ensures r.Success? <==> spec.version == "v1"
    ensures r.Success? ==> r.value == spec
    ensures r.Failure? ==> r.error == "Unsupported campaign version: " + spec.version
  {
    if spec.version in SupportedCampaignVersions then Success(spec)
    else Failure("Unsupported campaign version: " + spec.version)
  }

  /** The version gate applied after a policy document has been parsed. */
  function CheckPolicyVersion(policy: PolicySpec): (r: Result<PolicySpec, string>)
    ensures r.Success? <==> policy.version == "v1"
    ensures r.Success? ==> r.value == policy
    ensures r.Failure? ==> r.error == "Unsupported policy version: " + policy.version
  {
    if policy.version in SupportedPolicyVersions then Success(policy)
    else Failure("Unsupported policy version: " + policy.version)
  }

  /** Campaigns built with the default version always pass the gate. */
  lemma DefaultCampaignVersionSupported(name: string, targets: seq<Target>, modules: seq<ModuleSpec>)
    ensures CheckCampaignVersion(NewCampaignSpec(name, targets, modules)).Success?
  {
  }
}

=== FILE: policy.dfy ===
/** The policy resolver: which scope allowlist a module instance runs with. */
module Policy {
  import opened Wrappers
  import opened Models

  /** The allowlist of the rule filed under `key`, or `[]` when there is none. */
  function RuleAllowlist(rules: map<string, PolicyRule>, key: string): seq<string> {
    if key in rules then rules[key].allowlist else []
  }

  /** The policy's candidate lists, most specific first: the module rule,
      the target rule, the global allowlist. */
  function Candidates(ms: ModuleSpec, p: PolicySpec): seq<seq<string>> {
    [RuleAllowlist(p.modules, ms.id), RuleAllowlist(p.targets, ms.targetId), p.allowlist]
  }

  /** The first non-empty list of `lists`, or `fallback` when all are empty. */
  function FirstNonEmpty(lists: seq<seq<string>>, fallback: seq<string>): seq<string> {
    if lists == [] then fallback
    else if lists[0] != [] then lists[0]
    else FirstNonEmpty(lists[1..], fallback)
  }

  lemma FirstNonEmptyOfCandidates(ms: ModuleSpec, p: PolicySpec)
    ensures var cs := Candidates(ms, p);
            FirstNonEmpty(cs, ms.scopeAllowlist)
            == if cs[0] != [] then cs[0] else if cs[1] != [] then cs[1] else if cs[2] != [] then cs[2] else ms.scopeAllowlist
  {
    var cs := Candidates(ms, p);
    var f := ms.scopeAllowlist;
    assert FirstNonEmpty(cs[1..][1..][1..], f) == f;
    assert FirstNonEmpty(cs[1..][1..], f) == if cs[2] != [] then cs[2] else f;
    assert FirstNonEmpty(cs[1..], f) == if cs[1] != [] then cs[1] else FirstNonEmpty(cs[1..][1..], f);
  }

  /** The effective allowlist of a module instance under an optional policy. */
  function EffectiveAllowlist(ms: ModuleSpec, policy: Option<PolicySpec>): (r: seq<string>)
    ensures policy.None? ==> r == ms.scopeAllowlist
    ensures policy.Some? ==> r == FirstNonEmpty(Candidates(ms, policy.value), ms.scopeAllowlist)
  {
    match policy
    case None => ms.scopeAllowlist
    case Some(p) =>
      FirstNonEmptyOfCandidates(ms, p);
      if ms.id in p.modules && p.modules[ms.id].allowlist != [] then p.modules[ms.id].allowlist
      else if ms.targetId in p.targets && p.targets[ms.targetId].allowlist != [] then p.targets[ms.targetId].allowlist
      else if p.allowlist != [] then p.allowlist
      else ms.scopeAllowlist
  }

  /** The result is either the campaign baseline or one of the policy's
      non-empty candidates, and it is empty only when every source is empty. */
  lemma EffectiveAllowlistSources(ms: ModuleSpec, p: PolicySpec)
    ensures var r := EffectiveAllowlist(ms, Some(p));
            && (r == ms.scopeAllowlist || (r != [] && r in Candidates(ms, p)))
            && (r == [] <==> ms.scopeAllowlist == [] && forall c :: c in Candidates(ms, p) ==> c == [])
  {
  }

  /** A non-empty module rule wins over everything else. */
  lemma ModuleRuleWins(ms: ModuleSpec, p: PolicySpec)
    requires ms.id in p.modules && p.modules[ms.id].allowlist != []
    ensures EffectiveAllowlist(ms, Some(p)) == p.modules[ms.id].allowlist
  {
  }

  /** Without a usable module rule, a non-empty target rule wins. */
  lemma TargetRuleNext(ms: ModuleSpec, p: PolicySpec)
    requires RuleAllowlist(p.modules, ms.id) == []
    requires ms.targetId in p.targets && p.targets[ms.targetId].allowlist != []
    ensures EffectiveAllowlist(ms, Some(p)) == p.targets[ms.targetId].allowlist
  {
  }

  /** Without usable rules, a non-empty global allowlist wins over the baseline. */
  lemma GlobalAllowlistNext(ms: ModuleSpec, p: PolicySpec)
    requires RuleAllowlist(p.modules, ms.id) == [] && RuleAllowlist(p.targets, ms.targetId) == []
    requires p.allowlist != []
    ensures EffectiveAllowlist(ms, Some(p)) == p.allowlist
  {
  }

  /** A policy that sets nothing leaves the baseline in force. */
  lemma EmptyPolicyKeepsBaseline(ms: ModuleSpec)
    ensures EffectiveAllowlist(ms, Some(NewPolicySpec())) == ms.scopeAllowlist
  {
  }
}

=== FILE: registry.dfy ===
/** The closed set of executable modules: the base behaviour every module
    inherits, the two reference modules, and the name-keyed registry the
    engine looks them up in. Clock readings a module takes are passed in. */
module Registry {
  import opened Wrappers
  import opened Json
  import opened Strings
  import opened Models

  /** What a module run may see: the spec's ids and maps plus the effective
      allowlist the policy resolver chose. */
  datatype ModuleContext = ModuleContext(
    moduleId: string,
    targetId: string,
    params: map<string, Json>,
    expectations: map<string, Json>,
    scopeAllowlist: seq<string>)

  /** The module classes: the base class and the two registered modules. */
  datatype Module = BaseModule | NoopModule | EchoExpectationModule {
    /** The class attribute `name`. */
    function Name(): string {
      match this
      case BaseModule => "base"
      case NoopModule => "noop"
      case EchoExpectationModule => "echo_expectation"
    }
  }

  /** The static registration table, built once at import time. */
  const Modules: map<string, Module> :=
    map[NoopModule.Name() := NoopModule, EchoExpectationModule.Name() := EchoExpectationModule]

  /** Lookup by name; `None` stands for the `KeyError` raised for an unknown name. */
  function GetModule(name: string): (r: Option<Module>)
    ensures r.Some? <==> name == "noop" || name == "echo_expectation"
    ensures r.Some? ==> r.value.Name() == name && r.value != BaseModule
  {
    if name in Modules then Some(Modules[name]) else None
  }

  /** The text of the `KeyError` raised by `GetModule`. */
  function UnknownModuleMessage(name: string): string {
    "Unknown module: " + name
  }

  /** The registered names in sorted order. */
  function ListModules(): (r: seq<string>)
    ensures Sorted(r)
    ensures forall x :: x in r <==> GetModule(x).Some?
  {
    SortedSet(Modules.Keys)
  }

  lemma ListModulesValue()
    ensures ListModules() == ["echo_expectation", "noop"]
  {
    var r := ListModules();
    var expected := ["echo_expectation", "noop"];
    assert Less("echo_expectation", "noop");
    assert Sorted(expected);
    SortedUnique(r, expected);
  }

  /** The evidence map with one string entry. */
  function Note(key: string, text: string): map<string, Json> {
    map[key := JString(text)]
  }

  const EmptyAllowlistEvidence: map<string, Json> := Note("error", "empty allowlist")

  /** `Module.run` dispatched on the module's class. `startedAt` and
      `finishedAt` are the two clock readings the module takes. */
  function Run(m: Module, ctx: ModuleContext, startedAt: Instant, finishedAt: Instant): (r: ModuleResult)
    ensures r.moduleId == ctx.moduleId
    ensures r.startedAt == startedAt && r.finishedAt == finishedAt
    ensures m == BaseModule ==> r.status == Skipped && r.evidence == Note("reason", "base module")
    ensures m != BaseModule ==> (r.status == Error <==> ctx.scopeAllowlist == [])
    ensures m != BaseModule && r.status == Error ==>
      r.evidence == EmptyAllowlistEvidence && r.notes == Some("scope_allowlist must not be empty")
    ensures m != BaseModule ==> r.status != Skipped
    ensures m == NoopModule && ctx.scopeAllowlist != [] ==>
      r.status == Pass && r.evidence == Note("message", "noop completed") && r.notes == None
    ensures m == EchoExpectationModule && ctx.scopeAllowlist != [] ==>
      && (r.status == Pass <==> PyEq(Get(ctx.expectations, "expected_value"), Get(ctx.params, "value")))
      && r.evidence == map["expected" := Get(ctx.expectations, "expected_value"), "observed" := Get(ctx.params, "value")]
      && r.notes == None
  {
    match m
    case BaseModule =>
      ModuleResult(ctx.moduleId, Skipped, startedAt, finishedAt, Note("reason", "base module"), None)
    case _ =>
      if ctx.scopeAllowlist == [] then
        ModuleResult(ctx.moduleId, Error, startedAt, finishedAt, EmptyAllowlistEvidence,
                     Some("scope_allowlist must not be empty"))
      else if m == NoopModule then
        ModuleResult(ctx.moduleId, Pass, startedAt, finishedAt, Note("message", "noop completed"), None)
      else
        var expected := Get(ctx.expectations, "expected_value");
        var observed := Get(ctx.params, "value");
        var status := if PyEq(expected, observed) then Pass else Fail;
        ModuleResult(ctx.moduleId, status, startedAt, finishedAt,
                     map["expected" := expected, "observed" := observed], None)
  }

  /** The echo module passes when the two values agree, whichever side holds which. */
  lemma EchoSymmetric(ctx: ModuleContext, s: Instant, f: Instant)
    requires ctx.scopeAllowlist != []
    ensures var swapped := ctx.(expectations := map["expected_value" := Get(ctx.params, "value")],
                                params := map["value" := Get(ctx.expectations, "expected_value")]);
            Run(EchoExpectationModule, ctx, s, f).status == Run(EchoExpectationModule, swapped, s, f).status
  {
    var e := Get(ctx.expectations, "expected_value");
    var o := Get(ctx.params, "value");
    if PyEq(e, o) {
      PyEqSymmetric(e, o);
    }
    if PyEq(o, e) {
      PyEqSymmetric(o, e);
    }
  }

  /** A `nan` inside the two values is the same decoded object on both
      sides, so `[nan] == [nan]` holds and the echo module passes. */
  lemma EchoNestedNaNPasses(ctx: ModuleContext, s: Instant, f: Instant)
    requires ctx.scopeAllowlist != []
    requires Get(ctx.expectations, "expected_value") == JArray([JNonFinite(NaN)])
    requires Get(ctx.params, "value") == JArray([JNonFinite(NaN)])
    ensures Run(EchoExpectationModule, ctx, s, f).status == Pass
  {
  }

  /** A bare `nan` is compared by `==` itself, and `nan == nan` is false. */
  lemma EchoBareNaNFails(ctx: ModuleContext, s: Instant, f: Instant)
    requires ctx.scopeAllowlist != []
    requires Get(ctx.expectations, "expected_value") == JNonFinite(NaN)
    requires Get(ctx.params, "value") == JNonFinite(NaN)
    ensures Run(EchoExpectationModule, ctx, s, f).status == Fail
  {
  }

  /** With neither value supplied both sides read as `None`, so the echo module passes. */
  lemma EchoMissingValuesPass(ctx: ModuleContext, s: Instant, f: Instant)
    requires ctx.scopeAllowlist != []
    requires "expected_value" !in ctx.expectations && "value" !in ctx.params
    ensures Run(EchoExpectationModule, ctx, s, f).status == Pass
  {
  }
}

=== FILE: scoring.dfy ===
/** Aggregation of module results into the pack's summary counts and score. */
module Scoring {
  import opened Models

  /** How many results carry status `st` (Python's `sum(1 for r in results if r.status == st)`). */
  function Count(results: seq<ModuleResult>, st: Status): (n: nat)
    ensures n <= |results|
    decreases |results|
  {
    if results == [] then 0
    else (if results[0].status == st then 1 else 0) + Count(results[1..], st)
  }

  /** The statuses of `results`, in order. */
  function Statuses(results: seq<ModuleResult>): (s: seq<Status>)
    decreases |results|
  {
    if results == [] then [] else [results[0].status] + Statuses(results[1..])
  }

  /** `Count` is the multiplicity of `st` among the statuses. */
  lemma {:induction false} CountIsMultiplicity(results: seq<ModuleResult>, st: Status)
    ensures Count(results, st) == multiset(Statuses(results))[st]
    decreases |results|
  {
    if results != [] {
      CountIsMultiplicity(results[1..], st);
    }
  }

  /** Every result is counted under exactly one status. */
  lemma {:induction false} CountsPartition(results: seq<ModuleResult>)
    ensures Count(results, Pass) + Count(results, Fail) + Count(results, Error) + Count(results, Skipped) == |results|
    decreases |results|
  {
    if results != [] {
      CountsPartition(results[1..]);
    }
  }

  lemma {:induction false} CountAppend(a: seq<ModuleResult>, b: seq<ModuleResult>, st: Status)
    ensures Count(a + b, st) == Count(a, st) + Count(b, st)
    decreases |a|
  {
    if a != [] {
      CountAppend(a[1..], b, st);
      var ab := a + b;
      assert ab != [] && ab[0] == a[0] && ab[1..] == a[1..] + b;
      assert Count(ab, st) == (if a[0].status == st then 1 else 0) + Count(a[1..] + b, st);
      assert Count(a, st) == (if a[0].status == st then 1 else 0) + Count(a[1..], st);
    } else {
      assert a + b == b;
    }
  }

  /** When every result has status `st`, all of them are counted. */
  lemma {:induction false} CountUniform(results: seq<ModuleResult>, st: Status)
    requires forall i :: 0 <= i < |results| ==> results[i].status == st
    ensures Count(results, st) == |results|
    decreases |results|
  {
    if results != [] {
      CountUniform(results[1..], st);
    }
  }

  lemma CountsAreMultiplicities(results: seq<ModuleResult>)
    ensures var m := multiset(Statuses(results));
            && Count(results, Pass) == m[Pass] && Count(results, Fail) == m[Fail]
            && Count(results, Error) == m[Error] && Count(results, Skipped) == m[Skipped]
  {
    CountIsMultiplicity(results, Pass);
    CountIsMultiplicity(results, Fail);
    CountIsMultiplicity(results, Error);
    CountIsMultiplicity(results, Skipped);
  }

  lemma QuotientAtMostOne(p: real, t: real)
    requires 0.0 <= p <= t && t > 0.0
    ensures 0.0 <= p / t <= 1.0
  {
    var q := p / t;
    assert q * t == p;
    assert (1.0 - q) * t == t - p;
  }

  /** `passed / total` as an exact ratio, `0.0` when `total == 0`. */
  function Ratio(passed: nat, total: nat): (q: real)
    requires passed <= total
    ensures 0.0 <= q <= 1.0
    ensures total == 0 ==> q == 0.0
    ensures total > 0 ==> q == (passed as real) / (total as real)
  {
    if total == 0 then 0.0
    else
      var q := (passed as real) / (total as real);
      QuotientAtMostOne(passed as real, total as real);
      q
  }

  /** `score_results`: the four counts, their total, and the pass ratio
      (0 when there are no results). */
  function ScoreResults(results: seq<ModuleResult>): (r: (real, Summary))
    ensures r.1.total == |results|
    ensures r.1.passed == multiset(Statuses(results))[Pass]
    ensures r.1.failed == multiset(Statuses(results))[Fail]
    ensures r.1.errored == multiset(Statuses(results))[Error]
    ensures r.1.skipped == multiset(Statuses(results))[Skipped]
    ensures r.1.passed + r.1.failed + r.1.errored + r.1.skipped == r.1.total
    ensures 0.0 <= r.0 <= 1.0
    ensures r.1.total == 0 ==> r.0 == 0.0
    ensures r.1.total > 0 ==> r.0 == (r.1.passed as real) / (r.1.total as real)
  {
    CountsPartition(results);
    CountsAreMultiplicities(results);
    var total := |results|;
    var summary := Summary(total, Count(results, Pass), Count(results, Fail), Count(results, Error), Count(results, Skipped));
    var score := Ratio(summary.passed, total);
    (score, summary)
  }

  lemma RatioExtremes(passed: nat, total: nat)
    requires passed <= total && total > 0
    ensures Ratio(passed, total) == 1.0 <==> passed == total
    ensures Ratio(passed, total) == 0.0 <==> passed == 0
  {
    var q := Ratio(passed, total);
    var t := total as real;
    assert q * t == passed as real;
    if passed == total {
      assert q == t / t;
    }
  }

  /** The score is 1 exactly when every result passed, and 0 exactly when none did. */
  lemma ScoreExtremes(results: seq<ModuleResult>)
    requires |results| > 0
    ensures ScoreResults(results).0 == 1.0 <==> multiset(Statuses(results))[Pass] == |results|
    ensures ScoreResults(results).0 == 0.0 <==> multiset(Statuses(results))[Pass] == 0
  {
    var r := ScoreResults(results);
    RatioExtremes(r.1.passed, r.1.total);
  }
}

=== FILE: signing.dfy ===
/** Evidence signing: a keyed digest over the pack with the signature fields
    left out. The digest `mac(key, pack)` stands for HMAC-SHA256, in hex,
    over the canonical JSON (sorted keys, compact separators, UTF-8) of
    `pack`; it is a parameter because the model does not interpret it. */
module Signing {
  import opened Wrappers
  import opened Models

  const Algorithm: string := "hmac-sha256"

  /** The pack the digest covers: the same pack without `signature_alg`
      and `signature`. */
  function Unsigned(e: EvidencePack): (u: EvidencePack)
    ensures u.signatureAlg.None? && u.signature.None?
  {
    e.(signatureAlg := None, signature := None)
  }

  /** `_sign_payload`. */
  function SignPayload(e: EvidencePack, key: string, mac: (string, EvidencePack) -> string): string {
    mac(key, Unsigned(e))
  }

  /** `sign_evidence`: a copy of the pack carrying algorithm and digest. */
  function Sign(e: EvidencePack, key: string, mac: (string, EvidencePack) -> string): (r: EvidencePack)
    ensures r.signatureAlg == Some(Algorithm)
    ensures r.signature == Some(mac(key, Unsigned(e)))
    ensures Unsigned(r) == Unsigned(e)
  {
    e.(signatureAlg := Some(Algorithm), signature := Some(SignPayload(e, key, mac)))
  }

  /** Text `hmac.compare_digest` accepts as a `str`: ASCII only. */
  predicate IsAscii(s: string) {
    forall i :: 0 <= i < |s| ==> s[i] as int < 128
  }

  /** The `TypeError` `hmac.compare_digest` raises on non-ASCII text. */
  const NonAsciiCompare: string := "comparing strings with non-ASCII characters is not supported"

  /** `hmac.compare_digest` on two strings; its constant timing is not
      modelled. */
  function CompareDigest(a: string, b: string): (r: Result<bool, string>)
    ensures r.Failure? <==> !IsAscii(a) || !IsAscii(b)
    ensures r.Failure? ==> r.error == NonAsciiCompare
    ensures r.Success? ==> (r.value <==> a == b)
  {
    if !IsAscii(a) || !IsAscii(b) then Failure(NonAsciiCompare) else Success(a == b)
  }

  /** `verify_evidence`: `Success(ok)` for the boolean it returns, and
      `Failure` for the `TypeError` that escapes it when the stored signature
      (or the digest) holds a non-ASCII character. */
  function Verify(e: EvidencePack, key: string, mac: (string, EvidencePack) -> string): (r: Result<bool, string>)
    ensures e.signatureAlg != Some(Algorithm) ==> r == Success(false)
    ensures e.signature.None? || e.signature == Some("") ==> r == Success(false)
    ensures r == Success(true) ==> e.signature == Some(SignPayload(e, key, mac))
    ensures r.Failure? <==>
      && e.signatureAlg == Some(Algorithm) && e.signature.Some? && e.signature.value != ""
      && (!IsAscii(e.signature.value) || !IsAscii(SignPayload(e, key, mac)))
    ensures r.Failure? ==> r.error == NonAsciiCompare
  {
    if e.signatureAlg != Some(Algorithm) || e.signature.None? || e.signature.value == "" then Success(false)
    else CompareDigest(SignPayload(e, key, mac), e.signature.value)
  }

  /** Signing a signed pack again with the same key changes nothing. */
  lemma SignIdempotent(e: EvidencePack, key: string, mac: (string, EvidencePack) -> string)
    ensures Sign(Sign(e, key, mac), key, mac) == Sign(e, key, mac)
  {
  }

  /** The signature ignores whatever signature fields the input carried. */
  lemma SignIgnoresOldSignature(e: EvidencePack, alg: Option<string>, sig: Option<string>, key: string,
                                mac: (string, EvidencePack) -> string)
    ensures Sign(e.(signatureAlg := alg, signature := sig), key, mac) == Sign(e, key, mac)
  {
  }

  /** A freshly signed pack verifies under the same key, provided the digest
      is non-empty ASCII (a hex HMAC-SHA256 digest is 64 hex characters). */
  lemma VerifySigned(e: EvidencePack, key: string, mac: (string, EvidencePack) -> string)
    requires mac(key, Unsigned(e)) != "" && IsAscii(mac(key, Unsigned(e)))
    ensures Verify(Sign(e, key, mac), key, mac) == Success(true)
  {
  }

  /** A pack verifies exactly when signing it again would reproduce it and
      its signature is non-empty ASCII. */
  lemma VerifyIsSignFixpoint(e: EvidencePack, key: string, mac: (string, EvidencePack) -> string)
    ensures Verify(e, key, mac) == Success(true) <==>
      Sign(e, key, mac) == e && e.signature != Some("") && IsAscii(e.signature.GetOr(""))
  {
  }

  /** A pack claiming `hmac-sha256` whose stored signature was edited to hold
      a non-ASCII character makes verification raise instead of returning
      false, whatever the key. */
  lemma NonAsciiSignatureRaises(e: EvidencePack, key: string, mac: (string, EvidencePack) -> string)
    requires e.signatureAlg == Some(Algorithm) && e.signature == Some("\U{e9}")
    ensures Verify(e, key, mac) == Failure(NonAsciiCompare)
  {
    assert !IsAscii(e.signature.value) by {
      assert e.signature.value[0] as int == 0xe9;
    }
  }

  /** A pack as a run returns it is not signed, so it does not verify. */
  lemma UnsignedPackRejected(
    campaignName: string, runId: string, startedAt: Instant, finishedAt: Instant,
    results: seq<ModuleResult>, score: real, summary: Summary, key: string,
    mac: (string, EvidencePack) -> string)
    ensures Verify(NewEvidencePack(campaignName, runId, startedAt, finishedAt, results, score, summary), key, mac) == Success(false)
  {
  }
}

=== FILE: strings.dfy ===
/** Strings as Python treats them: code-point ordering (the order `sorted`
    uses), sorting a finite set of strings, decimal rendering of naturals and
    prefix tests. */
module Strings {

  /** Python's `a < b` on `str`: lexicographic by code point, where a proper
      prefix sorts first. */
  predicate Less(a: string, b: string)
    decreases |a|
  {
    if |a| == 0 then |b| > 0
    else if |b| == 0 then false
    else if a[0] != b[0] then a[0] < b[0]
    else Less(a[1..], b[1..])
  }

  lemma {:induction false} LessIrreflexive(a: string)
    ensures !Less(a, a)
    decreases |a|
  {
    if |a| > 0 {
      LessIrreflexive(a[1..]);
    }
  }

  lemma {:induction false} LessAsymmetric(a: string, b: string)
    ensures Less(a, b) ==> !Less(b, a)
    decreases |a|
  {
    if |a| > 0 && |b| > 0 && a[0] == b[0] {
      LessAsymmetric(a[1..], b[1..]);
    }
  }

  lemma {:induction false} LessTransitive(a: string, b: string, c: string)
    requires Less(a, b) && Less(b, c)
    ensures Less(a, c)
    decreases |a|
  {
    if |a| > 0 && a[0] == b[0] && b[0] == c[0] {
      LessTransitive(a[1..], b[1..], c[1..]);
    }
  }

  lemma {:induction false} LessTotal(a: string, b: string)
    ensures a == b || Less(a, b) || Less(b, a)
    decreases |a|
  {
    if |a| > 0 && |b| > 0 && a[0] == b[0] {
      LessTotal(a[1..], b[1..]);
      if a[1..] == b[1..] {
        assert a == [a[0]] + a[1..] && b == [b[0]] + b[1..];
      }
    }
  }

  /** A common prefix does not change how two strings compare. */
  lemma {:induction false} LessUnderPrefix(p: string, a: string, b: string)
    ensures Less(p + a, p + b) <==> Less(a, b)
    decreases |p|
  {
    if p != [] {
      assert (p + a)[0] == p[0] == (p + b)[0];
      assert (p + a)[1..] == p[1..] + a && (p + b)[1..] == p[1..] + b;
      LessUnderPrefix(p[1..], a, b);
    } else {
      assert p + a == a && p + b == b;
    }
  }

  /** Strictly increasing under `Less`, hence also free of duplicates: the
      shape of `sorted(some_set)`. */
  predicate Sorted(s: seq<string>) {
    forall i, j :: 0 <= i < j < |s| ==> Less(s[i], s[j])
  }

  predicate IsMinimum(m: string, s: set<string>) {
    m in s && forall y :: y in s ==> m == y || Less(m, y)
  }

  lemma {:induction false} MinimumExists(s: set<string>)
    requires s != {}
    ensures exists m :: IsMinimum(m, s)
    decreases |s|
  {
    var x :| x in s;
    if s == {x} {
      assert IsMinimum(x, s);
    } else {
      MinimumExists(s - {x});
      var m :| IsMinimum(m, s - {x});
      LessTotal(x, m);
      if Less(x, m) {
        forall y | y in s
          ensures x == y || Less(x, y)
        {
          if y != x && y != m {
            LessTransitive(x, m, y);
          }
        }
        assert IsMinimum(x, s);
      } else {
        assert IsMinimum(m, s);
      }
    }
  }

  lemma MinimumUnique()
    ensures forall m, m', s :: IsMinimum(m, s) && IsMinimum(m', s) ==> m == m'
  {
    forall m, m', s | IsMinimum(m, s) && IsMinimum(m', s)
      ensures m == m'
    {
      LessAsymmetric(m, m');
    }
  }

  /** The least element of a non-empty finite set of strings. */
  function Minimum(s: set<string>): (m: string)
    requires s != {}
    ensures IsMinimum(m, s)
  {
    MinimumExists(s);
    MinimumUnique();
    var m :| IsMinimum(m, s);
    m
  }

  /** Python's `sorted(s)` for a set of strings. */
  function SortedSet(s: set<string>): (r: seq<string>)
    ensures Sorted(r)
    ensures forall x :: x in r <==> x in s
    ensures |r| == |s|
    decreases |s|
  {
    if s == {} then []
    else
      var m := Minimum(s);
      var rest := SortedSet(s - {m});
      SortedCons(m, s, rest);
      [m] + rest
  }

  /** The minimum followed by the sorted remainder is sorted. */
  lemma SortedCons(m: string, s: set<string>, rest: seq<string>)
    requires IsMinimum(m, s) && Sorted(rest)
    requires forall x :: x in rest ==> x in s - {m}
    ensures Sorted([m] + rest)
  {
    var r := [m] + rest;
    forall i, j | 0 <= i < j < |r|
      ensures Less(r[i], r[j])
    {
      assert r[j] == rest[j - 1];
      if i > 0 {
        assert r[i] == rest[i - 1];
      } else {
        assert rest[j - 1] in s - {m};
      }
    }
  }

  /** A sorted sequence is determined by its elements: this is why
      `sorted(set(...))` is a canonical enumeration. */
  lemma {:induction false} SortedUnique(a: seq<string>, b: seq<string>)
    requires Sorted(a) && Sorted(b)
    requires forall x :: x in a <==> x in b
    ensures a == b
    decreases |a|
  {
    if a != [] {
      assert a[0] in b;
    }
    if b != [] {
      assert b[0] in a;
    }
    if a != [] && b != [] {
      if a[0] != b[0] {
        assert b[0] in a;
        assert a[0] in b;
        var i :| 0 <= i < |a| && a[i] == b[0];
        var j :| 0 <= j < |b| && b[j] == a[0];
        assert Less(a[0], b[0]);
        assert Less(b[0], a[0]);
        LessAsymmetric(a[0], b[0]);
      }
      forall x
        ensures x in a[1..] <==> x in b[1..]
      {
        if x in a[1..] {
          var i :| 1 <= i < |a| && a[i] == x;
          assert Less(a[0], x);
          LessIrreflexive(x);
          assert x in b;
          var j :| 0 <= j < |b| && b[j] == x;
          assert j != 0;
        }
        if x in b[1..] {
          var j :| 1 <= j < |b| && b[j] == x;
          assert Less(b[0], x);
          LessIrreflexive(x);
          assert x in a;
          var i :| 0 <= i < |a| && a[i] == x;
          assert i != 0;
        }
      }
      SortedUnique(a[1..], b[1..]);
      assert a == [a[0]] + a[1..];
      assert b == [b[0]] + b[1..];
    }
  }

  /** An ASCII decimal digit: the class Python's `\d` matches in the paths
      this model builds. */
  predicate IsDigit(c: char) {
    '0' <= c <= '9'
  }

  predicate AllDigits(s: string) {
    forall i :: 0 <= i < |s| ==> IsDigit(s[i])
  }

  function DigitChar(d: nat): (c: char)
    requires d < 10
    ensures IsDigit(c)
  {
    ('0' as int + d) as char
  }

  /** Python's `str(n)` for a non-negative integer. */
  function NatToDecimal(n: nat): (r: string)
    ensures |r| > 0 && AllDigits(r)
    decreases n
  {
    if n < 10 then [DigitChar(n)] else NatToDecimal(n / 10) + [DigitChar(n % 10)]
  }

  /** The number a string of decimal digits denotes (Python's `int(s)`). */
  function DecimalValue(s: string): nat
    requires AllDigits(s)
    decreases |s|
  {
    if s == [] then 0 else 10 * DecimalValue(s[..|s| - 1]) + (s[|s| - 1] as int - '0' as int)
  }

  /** `int(str(n)) == n`: the decimal rendering loses nothing. */
  lemma {:induction false} DecimalRoundTrip(n: nat)
    ensures DecimalValue(NatToDecimal(n)) == n
    decreases n
  {
    var r := NatToDecimal(n);
    if n >= 10 {
      DecimalRoundTrip(n / 10);
      assert r[..|r| - 1] == NatToDecimal(n / 10);
    }
  }

  /** Python's `s.startswith(p)`. */
  predicate StartsWith(s: string, p: string) {
    |p| <= |s| && s[..|p|] == p
  }

  /** Python's slice `s[:n]`, which tolerates `n > len(s)`. */
  function Prefix(s: string, n: nat): (r: string)
    ensures |r| == if n <= |s| then n else |s|
    ensures StartsWith(s, r)
  {
    if n <= |s| then s[..n] else s
  }
}

=== FILE: summary_diff.dfy ===
/** `diff_summary`: a structural comparison of a golden summary artifact
    with a candidate. Top-level `ignore_fields` are dropped from both sides
    first; then objects are compared key by key, arrays position by
    position and other values with Python `==`, and a subtree whose path
    matches one of the `ignore_paths` globs is skipped. */
module SummaryDiff {
  import opened Json
  import opened Strings
  import opened Glob

  /** One reported difference. A key present on one side only is reported
      under the key's path; the key's own path is not checked against the
      ignore globs, only the object's. */
  datatype Difference =
    | Missing(path: string)
    | Extra(path: string)
    | LengthDiffers(path: string, goldenLength: nat, candidateLength: nat)
    | ValueDiffers(path: string, golden: Json, candidate: Json)

  /** The line reported for a difference; `repr` is Python's `repr`. */
  function Render(d: Difference, repr: Json -> string): string {
    match d
    case Missing(p) => p + " missing in candidate"
    case Extra(p) => p + " extra in candidate"
    case LengthDiffers(p, g, c) =>
      p + " length differs (golden " + NatToDecimal(g) + " vs candidate " + NatToDecimal(c) + ")"
    case ValueDiffers(p, g, c) => p + " differs (golden " + repr(g) + " vs candidate " + repr(c) + ")"
  }

  function KeyPath(path: string, key: string): string {
    path + "." + key
  }

  function ItemPath(path: string, index: nat): string {
    path + "[" + NatToDecimal(index) + "]"
  }

  /** The key-only reports for `keys`, in order. */
  function KeyReports(keys: seq<string>, path: string, missing: bool): (ds: seq<Difference>)
    ensures |ds| == |keys|
    ensures forall i :: 0 <= i < |keys| ==>
      ds[i] == if missing then Missing(KeyPath(path, keys[i])) else Extra(KeyPath(path, keys[i]))
  {
    seq(|keys|, i requires 0 <= i < |keys| =>
      if missing then Missing(KeyPath(path, keys[i])) else Extra(KeyPath(path, keys[i])))
  }

  /** `_diff_values`. */
  function DiffValues(g: Json, c: Json, path: string, patterns: seq<string>): seq<Difference>
    decreases g, 1, 0
  {
    if ShouldIgnore(path, patterns) then []
    else if g.JObject? && c.JObject? then
      var gk := g.fields.Keys;
      var ck := c.fields.Keys;
      KeyReports(SortedSet(gk - ck), path, true)
      + KeyReports(SortedSet(ck - gk), path, false)
      + DiffKeys(g.fields, c.fields, SortedSet(gk * ck), path, patterns)
    else if g.JArray? && c.JArray? then
      (if |g.items| != |c.items| then [LengthDiffers(path, |g.items|, |c.items|)] else [])
      + DiffItems(g.items, c.items, 0, path, patterns)
    else if PyEq(g, c) then []
    else [ValueDiffers(path, g, c)]
  }

  /** The shared keys, compared in the order given. */
  function DiffKeys(gf: map<string, Json>, cf: map<string, Json>, keys: seq<string>,
                    path: string, patterns: seq<string>): seq<Difference>
    requires forall k :: k in keys ==> k in gf && k in cf
    decreases JObject(gf), 0, |keys|
  {
    if keys == [] then []
    else DiffValues(gf[keys[0]], cf[keys[0]], KeyPath(path, keys[0]), patterns)
         + DiffKeys(gf, cf, keys[1..], path, patterns)
  }

  /** Positions `index` onwards of the shorter of the two arrays (`zip`). */
  function DiffItems(gs: seq<Json>, cs: seq<Json>, index: nat, path: string, patterns: seq<string>): seq<Difference>
    decreases JArray(gs), 0, |gs| - index
  {
    if index >= |gs| || index >= |cs| then []
    else DiffValues(gs[index], cs[index], ItemPath(path, index), patterns)
         + DiffItems(gs, cs, index + 1, path, patterns)
  }

  /** The object with the ignored top-level fields dropped. */
  function Strip(d: map<string, Json>, ignore: set<string>): (r: map<string, Json>)
    ensures r.Keys == d.Keys - ignore
    ensures forall k :: k in r ==> r[k] == d[k]
  {
    map k | k in d && k !in ignore :: d[k]
  }

  /** The normalized globs of `ignore_paths`. */
  function Patterns(ignorePaths: seq<string>): (ps: seq<string>)
    ensures |ps| == |ignorePaths|
    ensures forall i :: 0 <= i < |ps| ==> StartsWith(ps[i], "$")
  {
    seq(|ignorePaths|, i requires 0 <= i < |ignorePaths| => NormalizePattern(ignorePaths[i]))
  }

  /** The differences `diff_summary` reports, before rendering. */
  function SummaryDifferences(golden: map<string, Json>, candidate: map<string, Json>,
                              ignoreFields: seq<string>, ignorePaths: seq<string>): seq<Difference>
  {
    var ignore := set f | f in ignoreFields;
    DiffValues(JObject(Strip(golden, ignore)), JObject(Strip(candidate, ignore)), "$", Patterns(ignorePaths))
  }

  /** `diff_summary`. */
  function DiffSummary(golden: Json, candidate: Json, ignoreFields: seq<string>, ignorePaths: seq<string>,
                       repr: Json -> string): (lines: seq<string>)
    ensures !golden.JObject? ==> lines == ["golden summary must be a JSON object"]
    ensures golden.JObject? && !candidate.JObject? ==> lines == ["candidate summary must be a JSON object"]
    ensures golden.JObject? && candidate.JObject? ==>
      var ds := SummaryDifferences(golden.fields, candidate.fields, ignoreFields, ignorePaths);
      |lines| == |ds| && forall i :: 0 <= i < |ds| ==> lines[i] == Render(ds[i], repr)
  {
    if !golden.JObject? then ["golden summary must be a JSON object"]
    else if !candidate.JObject? then ["candidate summary must be a JSON object"]
    else
      var ds := SummaryDifferences(golden.fields, candidate.fields, ignoreFields, ignorePaths);
      seq(|ds|, i requires 0 <= i < |ds| => Render(ds[i], repr))
  }

  /** A set with no members outside another is contained in it. */
  lemma EmptyDifference(a: set<string>, b: set<string>)
    ensures |a - b| == 0 <==> a <= b
  {
    if a - b != {} {
      var x :| x in a - b;
      assert x in a && x !in b;
    } else {
      forall x | x in a
        ensures x in b
      {
        assert x !in a - b;
      }
    }
  }

  /** Values equal leaf by leaf produce no difference, whatever is ignored. */
  lemma {:induction false} EqualNoDiff(g: Json, c: Json, path: string, patterns: seq<string>)
    requires LeafEq(g, c)
    ensures DiffValues(g, c, path, patterns) == []
    decreases g, 1, 0
  {
    if !ShouldIgnore(path, patterns) {
      if g.JObject? && c.JObject? {
        var gk := g.fields.Keys;
        var ck := c.fields.Keys;
        assert gk - ck == {} && ck - gk == {};
        EqualNoDiffKeys(g.fields, c.fields, SortedSet(gk * ck), path, patterns);
      } else if g.JArray? && c.JArray? {
        EqualNoDiffItems(g.items, c.items, 0, path, patterns);
      }
    }
  }

  lemma {:induction false} EqualNoDiffKeys(gf: map<string, Json>, cf: map<string, Json>, keys: seq<string>,
                                           path: string, patterns: seq<string>)
    requires forall k :: k in keys ==> k in gf && k in cf && LeafEq(gf[k], cf[k])
    ensures DiffKeys(gf, cf, keys, path, patterns) == []
    decreases JObject(gf), 0, |keys|
  {
    if keys != [] {
      EqualNoDiff(gf[keys[0]], cf[keys[0]], KeyPath(path, keys[0]), patterns);
      EqualNoDiffKeys(gf, cf, keys[1..], path, patterns);
    }
  }

  lemma {:induction false} EqualNoDiffItems(gs: seq<Json>, cs: seq<Json>, index: nat, path: string, patterns: seq<string>)
    requires |gs| == |cs| && forall i :: index <= i < |gs| ==> LeafEq(gs[i], cs[i])
    ensures DiffItems(gs, cs, index, path, patterns) == []
    decreases JArray(gs), 0, |gs| - index
  {
    if index < |gs| {
      EqualNoDiff(gs[index], cs[index], ItemPath(path, index), patterns);
      EqualNoDiffItems(gs, cs, index + 1, path, patterns);
    }
  }

  /** With nothing ignored, an empty report means the values are equal
      leaf by leaf, and so equal under Python's `==`. */
  lemma {:induction false} NoDiffEqual(g: Json, c: Json, path: string)
    requires DiffValues(g, c, path, []) == []
    ensures LeafEq(g, c)
    ensures PyEq(g, c)
    decreases g, 1, 0
  {
    LeafEqIsPyEq(g, c);
    if g.JObject? && c.JObject? {
      ObjectNoDiffParts(g.fields, c.fields, path);
      NoDiffEqualKeys(g.fields, c.fields, SortedSet(g.fields.Keys * c.fields.Keys), path);
    } else if g.JArray? && c.JArray? {
      ArrayNoDiffParts(g.items, c.items, path);
      NoDiffEqualItems(g.items, c.items, 0, path);
    }
  }

  /** An empty report on two objects: no key missing or extra, and nothing
      reported below a shared key. */
  lemma ObjectNoDiffParts(gf: map<string, Json>, cf: map<string, Json>, path: string)
    requires DiffValues(JObject(gf), JObject(cf), path, []) == []
    ensures gf.Keys == cf.Keys
    ensures forall k :: k in gf.Keys ==> k in SortedSet(gf.Keys * cf.Keys)
    ensures DiffKeys(gf, cf, SortedSet(gf.Keys * cf.Keys), path, []) == []
  {
    var gk := gf.Keys;
    var ck := cf.Keys;
    var shared := SortedSet(gk * ck);
    var missing := KeyReports(SortedSet(gk - ck), path, true);
    var extra := KeyReports(SortedSet(ck - gk), path, false);
    assert missing == [] && extra == [] && DiffKeys(gf, cf, shared, path, []) == [] by {
      assert DiffValues(JObject(gf), JObject(cf), path, []) == missing + extra + DiffKeys(gf, cf, shared, path, []);
    }
    SameKeys(gk, ck, path);
  }

  /** An empty report on two arrays: equal lengths, nothing reported at any position. */
  lemma ArrayNoDiffParts(gs: seq<Json>, cs: seq<Json>, path: string)
    requires DiffValues(JArray(gs), JArray(cs), path, []) == []
    ensures |gs| == |cs| && DiffItems(gs, cs, 0, path, []) == []
  {
  }

  /** No key reported missing or extra: both sides have the same keys, and
      they are all shared. */
  lemma SameKeys(gk: set<string>, ck: set<string>, path: string)
    requires KeyReports(SortedSet(gk - ck), path, true) == []
    requires KeyReports(SortedSet(ck - gk), path, false) == []
    ensures gk == ck
    ensures forall k :: k in gk ==> k in SortedSet(gk * ck)
  {
    EmptyDifference(gk, ck);
    EmptyDifference(ck, gk);
  }

  lemma {:induction false} NoDiffEqualKeys(gf: map<string, Json>, cf: map<string, Json>, keys: seq<string>, path: string)
    requires forall k :: k in keys ==> k in gf && k in cf
    requires DiffKeys(gf, cf, keys, path, []) == []
    ensures forall k :: k in keys ==> LeafEq(gf[k], cf[k])
    decreases JObject(gf), 0, |keys|
  {
    if keys != [] {
      NoDiffEqual(gf[keys[0]], cf[keys[0]], KeyPath(path, keys[0]));
      NoDiffEqualKeys(gf, cf, keys[1..], path);
      assert forall k :: k in keys ==> k == keys[0] || k in keys[1..];
    }
  }

  lemma {:induction false} NoDiffEqualItems(gs: seq<Json>, cs: seq<Json>, index: nat, path: string)
    requires DiffItems(gs, cs, index, path, []) == []
    ensures forall i :: index <= i < |gs| && i < |cs| ==> LeafEq(gs[i], cs[i])
    decreases JArray(gs), 0, |gs| - index
  {
    if index < |gs| && index < |cs| {
      NoDiffEqual(gs[index], cs[index], ItemPath(path, index));
      NoDiffEqualItems(gs, cs, index + 1, path);
    }
  }

  /** With nothing ignored, the report is empty exactly when the two values
      are equal leaf by leaf. That is Python's `==` whenever the golden side
      holds no `nan`; a shared nested `nan` is `==` to itself in a list or
      dict but is reported by the leaf comparison. */
  lemma DiffEmptyIffEqual(g: Json, c: Json, path: string)
    ensures DiffValues(g, c, path, []) == [] <==> LeafEq(g, c)
    ensures NaNFree(g) ==> (DiffValues(g, c, path, []) == [] <==> PyEq(g, c))
  {
    LeafEqIsPyEq(g, c);
    if LeafEq(g, c) {
      EqualNoDiff(g, c, path, []);
    }
    if DiffValues(g, c, path, []) == [] {
      NoDiffEqual(g, c, path);
    }
  }

  /** A summary holding no `nan`, compared with itself, reports nothing,
      whatever is ignored. */
  lemma SelfDiffEmpty(golden: Json, ignoreFields: seq<string>, ignorePaths: seq<string>, repr: Json -> string)
    requires golden.JObject? && NaNFree(golden)
    ensures DiffSummary(golden, golden, ignoreFields, ignorePaths, repr) == []
  {
    var ignore := set f | f in ignoreFields;
    var stripped := JObject(Strip(golden.fields, ignore));
    assert NaNFree(stripped);
    LeafEqReflexive(stripped);
    EqualNoDiff(stripped, stripped, "$", Patterns(ignorePaths));
  }

  /** With nothing ignored, a summary compared with itself reports nothing
      exactly when it holds no `nan`: `nan != nan` in Python, so a `nan`
      anywhere is reported as a changed value. */
  lemma SelfDiffIffNaNFree(golden: Json, repr: Json -> string)
    requires golden.JObject?
    ensures DiffSummary(golden, golden, [], [], repr) == [] <==> NaNFree(golden)
  {
    NoIgnoredFields(golden.fields, golden.fields, []);
    DiffEmptyIffEqual(golden, golden, "$");
    LeafEqReflexive(golden);
  }

  /** Two summaries that agree on every field not listed in `ignore_fields`
      (present on both sides or on neither, and equal where present) report
      nothing. */
  lemma IgnoredFieldsOnlyDiffer(golden: Json, candidate: Json, ignoreFields: seq<string>, ignorePaths: seq<string>,
                                repr: Json -> string)
    requires golden.JObject? && candidate.JObject?
    requires forall k :: k !in ignoreFields ==> (k in golden.fields <==> k in candidate.fields)
    requires forall k :: k !in ignoreFields && k in golden.fields && k in candidate.fields ==>
      LeafEq(golden.fields[k], candidate.fields[k])
    ensures DiffSummary(golden, candidate, ignoreFields, ignorePaths, repr) == []
  {
    var ignore := set f | f in ignoreFields;
    var g := Strip(golden.fields, ignore);
    var c := Strip(candidate.fields, ignore);
    assert g.Keys == c.Keys;
    assert LeafEq(JObject(g), JObject(c));
    EqualNoDiff(JObject(g), JObject(c), "$", Patterns(ignorePaths));
  }

  /** What a report entry promises: it lies under the path compared, a
      value or length difference sits at a path no glob ignores, and a value
      difference is between values Python considers unequal. */
  predicate Sound(d: Difference, path: string, patterns: seq<string>) {
    && StartsWith(d.path, path)
    && (d.LengthDiffers? || d.ValueDiffers? ==> !ShouldIgnore(d.path, patterns))
    && (d.LengthDiffers? ==> d.goldenLength != d.candidateLength)
    && (d.ValueDiffers? ==> !PyEq(d.golden, d.candidate))
  }

  lemma StartsWithTrans(s: string, p: string, q: string)
    requires StartsWith(s, p) && StartsWith(p, q)
    ensures StartsWith(s, q)
  {
    assert s[..|q|] == s[..|p|][..|q|];
  }

  /** Every entry of a report is sound, and an ignored path reports nothing. */
  lemma {:induction false} ReportSound(g: Json, c: Json, path: string, patterns: seq<string>)
    ensures ShouldIgnore(path, patterns) ==> DiffValues(g, c, path, patterns) == []
    ensures forall d :: d in DiffValues(g, c, path, patterns) ==> Sound(d, path, patterns)
    decreases g, 2, 0
  {
    if !ShouldIgnore(path, patterns) {
      if g.JObject? && c.JObject? {
        ObjectSound(g.fields, c.fields, path, patterns);
      } else if g.JArray? && c.JArray? {
        ItemsSound(g.items, c.items, 0, path, patterns);
        var ds := DiffValues(g, c, path, patterns);
        var head := if |g.items| != |c.items| then [LengthDiffers(path, |g.items|, |c.items|)] else [];
        assert ds == head + DiffItems(g.items, c.items, 0, path, patterns);
        assert forall d :: d in head ==> Sound(d, path, patterns);
      }
    }
  }

  lemma {:induction false} ObjectSound(gf: map<string, Json>, cf: map<string, Json>, path: string, patterns: seq<string>)
    requires !ShouldIgnore(path, patterns)
    ensures forall d :: d in DiffValues(JObject(gf), JObject(cf), path, patterns) ==> Sound(d, path, patterns)
    decreases JObject(gf), 1, 0
  {
    var gk := gf.Keys;
    var ck := cf.Keys;
    var missing := KeyReports(SortedSet(gk - ck), path, true);
    var extra := KeyReports(SortedSet(ck - gk), path, false);
    var shared := DiffKeys(gf, cf, SortedSet(gk * ck), path, patterns);
    assert DiffValues(JObject(gf), JObject(cf), path, patterns) == missing + extra + shared;
    KeyReportsSound(SortedSet(gk - ck), path, true, patterns);
    KeyReportsSound(SortedSet(ck - gk), path, false, patterns);
    KeysSound(gf, cf, SortedSet(gk * ck), path, patterns);
  }

  lemma KeyReportsSound(keys: seq<string>, path: string, missing: bool, patterns: seq<string>)
    ensures forall d :: d in KeyReports(keys, path, missing) ==> Sound(d, path, patterns)
  {
    var ds := KeyReports(keys, path, missing);
    forall d | d in ds
      ensures Sound(d, path, patterns)
    {
      var i :| 0 <= i < |ds| && ds[i] == d;
      assert d.path == path + "." + keys[i];
      assert (path + "." + keys[i])[..|path|] == path;
    }
  }

  lemma {:induction false} KeysSound(gf: map<string, Json>, cf: map<string, Json>, keys: seq<string>,
                                     path: string, patterns: seq<string>)
    requires forall k :: k in keys ==> k in gf && k in cf
    ensures forall d :: d in DiffKeys(gf, cf, keys, path, patterns) ==> Sound(d, path, patterns)
    decreases JObject(gf), 0, |keys|
  {
    if keys != [] {
      var sub := KeyPath(path, keys[0]);
      ReportSound(gf[keys[0]], cf[keys[0]], sub, patterns);
      KeysSound(gf, cf, keys[1..], path, patterns);
      forall d | d in DiffValues(gf[keys[0]], cf[keys[0]], sub, patterns)
        ensures Sound(d, path, patterns)
      {
        StartsWithTrans(d.path, sub, path);
      }
    }
  }

  lemma {:induction false} ItemsSound(gs: seq<Json>, cs: seq<Json>, index: nat, path: string, patterns: seq<string>)
    ensures forall d :: d in DiffItems(gs, cs, index, path, patterns) ==> Sound(d, path, patterns)
    decreases JArray(gs), 0, |gs| - index
  {
    if index < |gs| && index < |cs| {
      var sub := ItemPath(path, index);
      ReportSound(gs[index], cs[index], sub, patterns);
      ItemsSound(gs, cs, index + 1, path, patterns);
      forall d | d in DiffValues(gs[index], cs[index], sub, patterns)
        ensures Sound(d, path, patterns)
      {
        StartsWithTrans(d.path, sub, path);
      }
    }
  }

  /** Two objects at a path no glob ignores: the reports open with one
      `missing` per golden-only key, then one `extra` per candidate-only key,
      each group in ascending key order. */
  lemma ObjectReportOrder(gf: map<string, Json>, cf: map<string, Json>, path: string, patterns: seq<string>)
    requires !ShouldIgnore(path, patterns)
    ensures var ds := DiffValues(JObject(gf), JObject(cf), path, patterns);
            var missing := SortedSet(gf.Keys - cf.Keys);
            var extra := SortedSet(cf.Keys - gf.Keys);
            && |missing| + |extra| <= |ds|
            && ds[..|missing|] == KeyReports(missing, path, true)
            && ds[|missing|..|missing| + |extra|] == KeyReports(extra, path, false)
  {
    var missing := SortedSet(gf.Keys - cf.Keys);
    var extra := SortedSet(cf.Keys - gf.Keys);
    ObjectUnfolds(gf, cf, path, patterns);
    ConcatIndex(KeyReports(missing, path, true), KeyReports(extra, path, false),
                DiffKeys(gf, cf, SortedSet(gf.Keys * cf.Keys), path, patterns));
  }

  lemma ObjectUnfolds(gf: map<string, Json>, cf: map<string, Json>, path: string, patterns: seq<string>)
    requires !ShouldIgnore(path, patterns)
    ensures DiffValues(JObject(gf), JObject(cf), path, patterns)
         == KeyReports(SortedSet(gf.Keys - cf.Keys), path, true)
            + KeyReports(SortedSet(cf.Keys - gf.Keys), path, false)
            + DiffKeys(gf, cf, SortedSet(gf.Keys * cf.Keys), path, patterns)
  {
  }

  lemma ConcatIndex<T>(a: seq<T>, b: seq<T>, c: seq<T>)
    ensures |a| + |b| <= |a + b + c|
    ensures (a + b + c)[..|a|] == a && (a + b + c)[|a|..|a| + |b|] == b
  {
    assert (a + b + c)[..|a|] == a;
    assert (a + b + c)[|a|..|a| + |b|] == b;
  }

  /** Two arrays of different lengths at a path no glob ignores: the length
      report comes first. */
  lemma ArrayLengthFirst(gs: seq<Json>, cs: seq<Json>, path: string, patterns: seq<string>)
    requires !ShouldIgnore(path, patterns) && |gs| != |cs|
    ensures var ds := DiffValues(JArray(gs), JArray(cs), path, patterns);
            ds != [] && ds[0] == LengthDiffers(path, |gs|, |cs|)
  {
  }

  /** The one-element listing of a singleton set. */
  lemma SortedSingleton(k: string)
    ensures SortedSet({k}) == [k]
  {
    var r := SortedSet({k});
    assert r[0] in {k};
  }

  /** An `ignore_paths` entry without wildcards is read as a `$`-rooted
      path, which matches that path and no other. */
  lemma FieldGlob(k: string, path: string)
    requires Plain(k) && 'X' !in k
    ensures Patterns([k]) == [NormalizePattern(k)]
    ensures ShouldIgnore(path, Patterns([k])) <==> path == NormalizePattern(k)
  {
    var q := NormalizePattern(k);
    assert Patterns([k]) == [q];
    assert Plain(q) && 'X' !in q by {
      if !StartsWith(k, "$") {
        var n := |q| - |k|;
        assert n == 1 || n == 2;
        assert forall i :: n <= i < |q| ==> q[i] == k[i - n];
        assert q[0] == '$' && (n == 2 ==> q[1] == '.');
      }
    }
    LiteralPattern(q, path);
  }

  /** Stripping no field leaves the object as it is. */
  lemma StripNothing(d: map<string, Json>, ignoreFields: seq<string>)
    requires ignoreFields == []
    ensures Strip(d, set f | f in ignoreFields) == d
  {
    var none := set f | f in ignoreFields;
    assert none == {} by {
      forall f | f in none ensures false { }
    }
    var r := Strip(d, none);
    assert r.Keys == d.Keys;
  }

  /** Nothing listed in `ignore_fields`: both sides are compared whole. */
  lemma NoIgnoredFields(g: map<string, Json>, c: map<string, Json>, ignorePaths: seq<string>)
    ensures SummaryDifferences(g, c, [], ignorePaths) == DiffValues(JObject(g), JObject(c), "$", Patterns(ignorePaths))
  {
    StripNothing(g, []);
    StripNothing(c, []);
  }

  /** Comparing two one-key objects with the same key. */
  lemma SameKeyDiff(k: string, a: Json, b: Json, patterns: seq<string>)
    requires !ShouldIgnore("$", patterns)
    ensures DiffValues(JObject(map[k := a]), JObject(map[k := b]), "$", patterns)
         == DiffValues(a, b, KeyPath("$", k), patterns)
  {
    var g := map[k := a];
    var c := map[k := b];
    assert g.Keys - c.Keys == {} && c.Keys - g.Keys == {} && g.Keys * c.Keys == {k};
    SortedSingleton(k);
    assert SortedSet(g.Keys - c.Keys) == [] && SortedSet(c.Keys - g.Keys) == [];
    assert DiffKeys(g, c, [k], "$", patterns) == DiffValues(a, b, KeyPath("$", k), patterns) + [];
  }

  /** Two different strings at a path nothing ignores are one value difference. */
  lemma ChangedString(path: string, a: string, b: string)
    requires a != b
    ensures DiffValues(JString(a), JString(b), path, []) == [ValueDiffers(path, JString(a), JString(b))]
  {
    assert !ShouldIgnore(path, []);
    assert !PyEq(JString(a), JString(b));
  }

  /** A changed top-level field is reported with both values. */
  lemma ChangedFieldReported(k: string, a: string, b: string)
    requires a != b
    ensures SummaryDifferences(map[k := JString(a)], map[k := JString(b)], [], [])
         == [ValueDiffers(KeyPath("$", k), JString(a), JString(b))]
  {
    NoIgnoredFields(map[k := JString(a)], map[k := JString(b)], []);
    assert Patterns([]) == [];
    assert !ShouldIgnore("$", []);
    SameKeyDiff(k, JString(a), JString(b), []);
    ChangedString(KeyPath("$", k), a, b);
  }

  /** Once its path is ignored, a field present on both sides is not
      compared at all, whatever the two values are. */
  lemma IgnoredFieldSilent(k: string, a: Json, b: Json)
    requires Plain(k) && 'X' !in k && !StartsWith(k, "$") && !StartsWith(k, ".")
    ensures SummaryDifferences(map[k := a], map[k := b], [], [k]) == []
  {
    var patterns := Patterns([k]);
    FieldIsRooted(k);
    assert !ShouldIgnore("$", patterns) by {
      FieldGlob(k, "$");
    }
    assert ShouldIgnore(KeyPath("$", k), patterns) by {
      FieldGlob(k, KeyPath("$", k));
    }
    NoIgnoredFields(map[k := a], map[k := b], [k]);
    SameKeyDiff(k, a, b, patterns);
    IgnoredPathEmpty(a, b, KeyPath("$", k), patterns);
  }

  /** A top-level field name, normalized, is the path of that field. */
  lemma FieldIsRooted(k: string)
    requires !StartsWith(k, "$") && !StartsWith(k, ".")
    ensures NormalizePattern(k) == KeyPath("$", k) != "$"
  {
    assert "$." + k == "$" + "." + k;
  }

  /** Nothing is reported under an ignored path. */
  lemma IgnoredPathEmpty(g: Json, c: Json, path: string, patterns: seq<string>)
    requires ShouldIgnore(path, patterns)
    ensures DiffValues(g, c, path, patterns) == []
  {
  }

  /** Ignoring a path does not hide that the key is absent from the
      candidate: the absent key is reported under the compared object,
      whose own path is not ignored, although the reported path itself is. */
  lemma MissingKeyStillReported(k: string, a: Json)
    requires Plain(k) && 'X' !in k && !StartsWith(k, "$") && !StartsWith(k, ".")
    ensures SummaryDifferences(map[k := a], map[], [], [k]) == [Missing(KeyPath("$", k))]
    ensures ShouldIgnore(KeyPath("$", k), Patterns([k]))
  {
    var g := map[k := a];
    var c: map<string, Json> := map[];
    var patterns := Patterns([k]);
    FieldIsRooted(k);
    assert ShouldIgnore(KeyPath("$", k), patterns) by {
      FieldGlob(k, KeyPath("$", k));
    }
    assert !ShouldIgnore("$", patterns) by {
      FieldGlob(k, "$");
    }
    NoIgnoredFields(g, c, [k]);
    MissingKeyDiff(g, c, k, patterns);
  }

  /** One object with a single key against an empty one. */
  lemma MissingKeyDiff(g: map<string, Json>, c: map<string, Json>, k: string, patterns: seq<string>)
    requires g.Keys == {k} && c == map[]
    requires !ShouldIgnore("$", patterns)
    ensures DiffValues(JObject(g), JObject(c), "$", patterns) == [Missing(KeyPath("$", k))]
  {
    assert g.Keys - c.Keys == {k} && c.Keys - g.Keys == {} && g.Keys * c.Keys == {};
    SortedSingleton(k);
    assert SortedSet(c.Keys - g.Keys) == [] && SortedSet(g.Keys * c.Keys) == [];
  }
}

=== FILE: summary_validate.dfy ===
/** `validate_summary`: the checks on the flattened summary artifact. Every
    violation is reported, not only the first, in a fixed order: missing
    top-level fields (sorted), top-level types, the `summary` counts, then
    each entry of `results`. */
module SummaryValidate {
  import opened Json
  import opened Strings
  import opened Models

  const RequiredFields: set<string> :=
    {"ok", "campaign_name", "run_id", "started_at", "finished_at", "score", "summary", "results"}

  const TextFields: set<string> := {"campaign_name", "run_id", "started_at", "finished_at"}

  /** The count fields of `summary`, in the order they are checked. */
  const CountFields: seq<string> := ["total", "passed", "failed", "errored", "skipped"]

  const ResultFields: set<string> := {"module_id", "status", "duration_ms", "evidence_ref"}

  /** Reference definition: an entry of `results` that passes every check. */
  predicate ValidResultEntry(v: Json) {
    && v.JObject?
    && ResultFields <= v.fields.Keys
    && v.fields["module_id"].JString?
    && v.fields["status"].JString? && v.fields["status"].s in StatusNames
    && IsNonNegativeInt(v.fields["duration_ms"])
    && v.fields["evidence_ref"].JString?
    && ("notes" in v.fields ==> v.fields["notes"].JNull? || v.fields["notes"].JString?)
  }

  /** Reference definition: a `summary` object with all five counts. */
  predicate ValidCounts(v: Json) {
    v.JObject? && forall k :: k in CountFields ==> k in v.fields && IsNonNegativeInt(v.fields[k])
  }

  /** The top-level fields that are present have their types. */
  predicate TypedFields(d: map<string, Json>) {
    && ("ok" in d ==> d["ok"].JBool?)
    && (forall f :: f in TextFields && f in d ==> d[f].JString?)
    && ("score" in d ==> IsPyNumber(d["score"]))
  }

  /** Reference definition: a `results` array of valid entries. */
  predicate ValidResults(v: Json) {
    v.JArray? && forall r :: r in v.items ==> ValidResultEntry(r)
  }

  /** Reference definition: a summary artifact that passes every check. */
  predicate IsValidSummary(v: Json) {
    && v.JObject?
    && RequiredFields <= v.fields.Keys
    && TypedFields(v.fields)
    && ValidCounts(v.fields["summary"])
    && ValidResults(v.fields["results"])
  }

  /** A message when a check fails, nothing when it holds. */
  function Check(holds: bool, message: string): (errors: seq<string>)
    ensures errors == [] <==> holds
    ensures !holds ==> errors == [message]
    ensures |errors| <= 1
  {
    if holds then [] else [message]
  }

  /** One message per required field absent from `present`, in sorted order. */
  function MissingMessages(prefix: string, present: set<string>, required: set<string>): (ms: seq<string>)
    ensures |ms| == |required - present|
    ensures ms == [] <==> required <= present
    ensures forall f :: f in required - present <==> prefix + f in ms
    ensures Sorted(ms)
  {
    var fields := SortedSet(required - present);
    var ms := seq(|fields|, i requires 0 <= i < |fields| => prefix + fields[i]);
    PrefixedMembers(prefix, fields, ms);
    forall i, j | 0 <= i < j < |ms|
      ensures Less(ms[i], ms[j])
    {
      LessUnderPrefix(prefix, fields[i], fields[j]);
    }
    EmptyDifference(required, present);
    ms
  }

  lemma PrefixedMembers(prefix: string, fields: seq<string>, ms: seq<string>)
    requires |ms| == |fields| && forall i :: 0 <= i < |fields| ==> ms[i] == prefix + fields[i]
    ensures forall f :: f in fields <==> prefix + f in ms
  {
    forall f | prefix + f in ms
      ensures f in fields
    {
      var i :| 0 <= i < |ms| && ms[i] == prefix + f;
      assert (prefix + f)[|prefix|..] == f;
      assert (prefix + fields[i])[|prefix|..] == fields[i];
    }
    forall f | f in fields
      ensures prefix + f in ms
    {
      var i :| 0 <= i < |fields| && fields[i] == f;
      assert ms[i] == prefix + f;
    }
  }

  lemma EmptyDifference(required: set<string>, present: set<string>)
    ensures |required - present| == 0 <==> required <= present
  {
    if required - present != {} {
      var f :| f in required - present;
      assert f in required && f !in present;
    } else {
      forall x | x in required
        ensures x in present
      {
        assert x !in required - present;
      }
    }
  }

  /** `"results[<index>]"`. */
  function EntryName(index: nat): string {
    "results[" + NatToDecimal(index) + "]"
  }

  /** The top-level type checks, each applied only when the field is present. */
  function FieldErrors(d: map<string, Json>): (errors: seq<string>)
    ensures errors == [] <==> TypedFields(d)
    ensures FieldMessagesIn(d, errors)
  {
    Check(!("ok" in d) || d["ok"].JBool?, "field ok must be boolean")
    + TextFieldErrors(d)
    + Check(!("score" in d) || IsPyNumber(d["score"]), "field score must be number")
  }

  /** The four text fields, in the order they are checked. */
  function TextFieldErrors(d: map<string, Json>): (errors: seq<string>)
    ensures errors == [] <==> forall f :: f in TextFields && f in d ==> d[f].JString?
    ensures forall f :: f in TextFields && f in d && !d[f].JString? ==> "field " + f + " must be string" in errors
  {
    var errors := TextCheck(d, "campaign_name") + TextCheck(d, "run_id") + TextCheck(d, "started_at")
                  + TextCheck(d, "finished_at");
    assert forall f :: f in TextFields && f in d && !d[f].JString? ==> "field " + f + " must be string" in errors by {
      forall f | f in TextFields && f in d && !d[f].JString?
        ensures "field " + f + " must be string" in errors
      {
        assert f == "campaign_name" || f == "run_id" || f == "started_at" || f == "finished_at";
      }
    }
    errors
  }

  /** The check of one text field. */
  function TextCheck(d: map<string, Json>, f: string): (errors: seq<string>)
    ensures errors == [] <==> (f in d ==> d[f].JString?)
    ensures f in d && !d[f].JString? ==> errors == ["field " + f + " must be string"]
  {
    Check(!(f in d) || d[f].JString?, "field " + f + " must be string")
  }

  /** The count checks of `summary`, key by key. */
  function CountErrors(summary: map<string, Json>, keys: seq<string>): (errors: seq<string>)
    ensures errors == [] <==> forall k :: k in keys ==> k in summary && IsNonNegativeInt(summary[k])
    ensures |errors| <= |keys|
    ensures forall k :: k in keys && k !in summary ==> "summary missing field: " + k in errors
    ensures forall k :: k in keys && k in summary && !IsNonNegativeInt(summary[k]) ==>
      "summary field " + k + " must be non-negative integer" in errors
    decreases |keys|
  {
    if keys == [] then []
    else
      var k := keys[0];
      var here := if k !in summary then ["summary missing field: " + k]
                  else Check(IsNonNegativeInt(summary[k]), "summary field " + k + " must be non-negative integer");
      here + CountErrors(summary, keys[1..])
  }

  function SummaryErrors(d: map<string, Json>): (errors: seq<string>)
    ensures errors == [] <==> ("summary" in d ==> ValidCounts(d["summary"]))
    ensures "summary" in d && !d["summary"].JObject? ==> errors == ["field summary must be object"]
    ensures "summary" in d ==> CountMessagesIn(d["summary"], errors)
  {
    if "summary" !in d then []
    else match d["summary"]
      case JObject(s) => CountErrors(s, CountFields)
      case _ => ["field summary must be object"]
  }

  /** `_validate_result` for the entry at `index`. */
  function ResultErrors(item: map<string, Json>, index: nat): (errors: seq<string>)
    ensures errors == [] <==> ValidResultEntry(JObject(item))
    ensures EntryMessagesIn(JObject(item), EntryName(index), errors)
  {
    var name := EntryName(index);
    var missing := MissingMessages(name + " missing field: ", item.Keys, ResultFields);
    var typed := EntryTypeErrors(item, name);
    assert forall f :: f in ResultFields && f !in item ==> name + " missing field: " + f in missing;
    missing + typed
  }

  /** The type checks of an entry, each applied only when its field is present. */
  function EntryTypeErrors(item: map<string, Json>, name: string): (errors: seq<string>)
    ensures errors == [] <==>
      && ("module_id" in item ==> item["module_id"].JString?)
      && ("status" in item ==> item["status"].JString? && item["status"].s in StatusNames)
      && ("duration_ms" in item ==> IsNonNegativeInt(item["duration_ms"]))
      && ("evidence_ref" in item ==> item["evidence_ref"].JString?)
      && ("notes" in item ==> item["notes"].JNull? || item["notes"].JString?)
    ensures TypeMessagesIn(item, name, errors)
  {
    Check(!("module_id" in item) || item["module_id"].JString?, name + ".module_id must be string")
    + StatusErrors(item, name)
    + DetailErrors(item, name)
  }

  /** Every type check an entry fails has its message in `errors`. */
  predicate TypeMessagesIn(item: map<string, Json>, name: string, errors: seq<string>) {
    && ("module_id" in item && !item["module_id"].JString? ==> name + ".module_id must be string" in errors)
    && ("status" in item && !item["status"].JString? ==> name + ".status must be string" in errors)
    && ("status" in item && item["status"].JString? && item["status"].s !in StatusNames ==>
          name + ".status must be pass/fail/skipped/error" in errors)
    && DetailMessagesIn(item, name, errors)
  }

  /** Every check after the status that an entry fails has its message in `errors`. */
  predicate DetailMessagesIn(item: map<string, Json>, name: string, errors: seq<string>) {
    && ("duration_ms" in item && !IsNonNegativeInt(item["duration_ms"]) ==>
          name + ".duration_ms must be non-negative integer" in errors)
    && ("evidence_ref" in item && !item["evidence_ref"].JString? ==> name + ".evidence_ref must be string" in errors)
    && ("notes" in item && !(item["notes"].JNull? || item["notes"].JString?) ==>
          name + ".notes must be string or null" in errors)
  }

  /** Every check the entry `v` fails has its message in `errors`: the
      non-object message, each missing field, and each type check. */
  predicate EntryMessagesIn(v: Json, name: string, errors: seq<string>) {
    if !v.JObject? then name + " must be object" in errors
    else
      && (forall f :: f in ResultFields && f !in v.fields ==> name + " missing field: " + f in errors)
      && TypeMessagesIn(v.fields, name, errors)
  }

  /** Messages stay present when more are added on either side. */
  lemma EntryMessagesGrow(v: Json, name: string, before: seq<string>, errors: seq<string>, after: seq<string>)
    requires EntryMessagesIn(v, name, errors)
    ensures EntryMessagesIn(v, name, before + errors + after)
  {
  }

  /** The checks after the status: duration, evidence reference, notes. */
  function DetailErrors(item: map<string, Json>, name: string): (errors: seq<string>)
    ensures errors == [] <==>
      && ("duration_ms" in item ==> IsNonNegativeInt(item["duration_ms"]))
      && ("evidence_ref" in item ==> item["evidence_ref"].JString?)
      && ("notes" in item ==> item["notes"].JNull? || item["notes"].JString?)
    ensures DetailMessagesIn(item, name, errors)
  {
    Check(!("duration_ms" in item) || IsNonNegativeInt(item["duration_ms"]), name + ".duration_ms must be non-negative integer")
    + Check(!("evidence_ref" in item) || item["evidence_ref"].JString?, name + ".evidence_ref must be string")
    + Check(!("notes" in item) || item["notes"].JNull? || item["notes"].JString?, name + ".notes must be string or null")
  }

  /** The status must be a string, and one of the four status names. */
  function StatusErrors(item: map<string, Json>, name: string): (errors: seq<string>)
    ensures errors == [] <==> ("status" in item ==> item["status"].JString? && item["status"].s in StatusNames)
    ensures "status" in item && !item["status"].JString? ==> errors == [name + ".status must be string"]
    ensures "status" in item && item["status"].JString? && item["status"].s !in StatusNames ==>
      errors == [name + ".status must be pass/fail/skipped/error"]
  {
    if "status" !in item then []
    else if !item["status"].JString? then [name + ".status must be string"]
    else Check(item["status"].s in StatusNames, name + ".status must be pass/fail/skipped/error")
  }

  /** The checks on one entry of `results`. */
  function EntryErrors(v: Json, index: nat): (errors: seq<string>)
    ensures errors == [] <==> ValidResultEntry(v)
    ensures !v.JObject? ==> errors == [EntryName(index) + " must be object"]
    ensures EntryMessagesIn(v, EntryName(index), errors)
  {
    match v
    case JObject(item) => ResultErrors(item, index)
    case _ => [EntryName(index) + " must be object"]
  }

  /** The entries of `results` from position `start` on. */
  function EntriesErrors(items: seq<Json>, start: nat): (errors: seq<string>)
    ensures errors == [] <==> forall r :: r in items ==> ValidResultEntry(r)
    ensures forall i :: 0 <= i < |items| ==> EntryMessagesIn(items[i], EntryName(start + i), errors)
    decreases |items|
  {
    if items == [] then []
    else
      var here := EntryErrors(items[0], start);
      var rest := EntriesErrors(items[1..], start + 1);
      EntriesCons(items, start, here, rest);
      here + rest
  }

  /** One step of `EntriesErrors`: the first entry's messages, then the rest. */
  lemma EntriesCons(items: seq<Json>, start: nat, here: seq<string>, rest: seq<string>)
    requires items != []
    requires here == [] <==> ValidResultEntry(items[0])
    requires EntryMessagesIn(items[0], EntryName(start), here)
    requires rest == [] <==> forall r :: r in items[1..] ==> ValidResultEntry(r)
    requires forall i :: 0 <= i < |items[1..]| ==> EntryMessagesIn(items[1..][i], EntryName(start + 1 + i), rest)
    ensures here + rest == [] <==> forall r :: r in items ==> ValidResultEntry(r)
    ensures forall i :: 0 <= i < |items| ==> EntryMessagesIn(items[i], EntryName(start + i), here + rest)
  {
    assert items == [items[0]] + items[1..];
    if here + rest == [] {
      assert |here + rest| == |here| + |rest|;
    }
    forall i | 0 <= i < |items|
      ensures EntryMessagesIn(items[i], EntryName(start + i), here + rest)
    {
      if i == 0 {
        EntryMessagesGrow(items[0], EntryName(start), [], here, rest);
        assert [] + here + rest == here + rest;
      } else {
        assert items[1..][i - 1] == items[i];
        EntryMessagesGrow(items[i], EntryName(start + i), here, rest, []);
        assert here + rest + [] == here + rest;
      }
    }
  }

  function ResultsErrors(d: map<string, Json>): (errors: seq<string>)
    ensures errors == [] <==> ("results" in d ==> ValidResults(d["results"]))
    ensures "results" in d && !d["results"].JArray? ==> errors == ["field results must be array"]
    ensures "results" in d ==> ResultsMessagesIn(d["results"], errors)
  {
    if "results" !in d then []
    else match d["results"]
      case JArray(items) => EntriesErrors(items, 0)
      case _ => ["field results must be array"]
  }

  /** Every check on the top-level field types that `d` fails has its message in `errors`. */
  predicate FieldMessagesIn(d: map<string, Json>, errors: seq<string>) {
    && ("ok" in d && !d["ok"].JBool? ==> "field ok must be boolean" in errors)
    && (forall f :: f in TextFields && f in d && !d[f].JString? ==> "field " + f + " must be string" in errors)
    && ("score" in d && !IsPyNumber(d["score"]) ==> "field score must be number" in errors)
  }

  /** Every check on the `summary` value `v` that fails has its message in `errors`. */
  predicate CountMessagesIn(v: Json, errors: seq<string>) {
    if !v.JObject? then "field summary must be object" in errors
    else
      && (forall k :: k in CountFields && k !in v.fields ==> "summary missing field: " + k in errors)
      && (forall k :: k in CountFields && k in v.fields && !IsNonNegativeInt(v.fields[k]) ==>
            "summary field " + k + " must be non-negative integer" in errors)
  }

  /** Every check on the `results` value `v` that fails has its message in `errors`. */
  predicate ResultsMessagesIn(v: Json, errors: seq<string>) {
    if !v.JArray? then "field results must be array" in errors
    else forall i :: 0 <= i < |v.items| ==> EntryMessagesIn(v.items[i], EntryName(i), errors)
  }

  /** Collect-all: every check the artifact `d` fails is reported. */
  predicate ReportsEveryViolation(d: map<string, Json>, errors: seq<string>) {
    && (forall f :: f in RequiredFields && f !in d ==> "missing field: " + f in errors)
    && FieldMessagesIn(d, errors)
    && ("summary" in d ==> CountMessagesIn(d["summary"], errors))
    && ("results" in d ==> ResultsMessagesIn(d["results"], errors))
  }

  lemma FieldMessagesGrow(d: map<string, Json>, before: seq<string>, errors: seq<string>, after: seq<string>)
    requires FieldMessagesIn(d, errors)
    ensures FieldMessagesIn(d, before + errors + after)
  {
  }

  lemma CountMessagesGrow(v: Json, before: seq<string>, errors: seq<string>, after: seq<string>)
    requires CountMessagesIn(v, errors)
    ensures CountMessagesIn(v, before + errors + after)
  {
  }

  lemma ResultsMessagesGrow(v: Json, before: seq<string>, errors: seq<string>, after: seq<string>)
    requires ResultsMessagesIn(v, errors)
    ensures ResultsMessagesIn(v, before + errors + after)
  {
    if v.JArray? {
      forall i | 0 <= i < |v.items|
        ensures EntryMessagesIn(v.items[i], EntryName(i), before + errors + after)
      {
        EntryMessagesGrow(v.items[i], EntryName(i), before, errors, after);
      }
    }
  }

  /** The messages of each group survive the concatenation `validate_summary` returns. */
  lemma CollectAll(d: map<string, Json>, missing: seq<string>, fields: seq<string>, counts: seq<string>,
                   results: seq<string>)
    requires forall f :: f in RequiredFields && f !in d ==> "missing field: " + f in missing
    requires FieldMessagesIn(d, fields)
    requires "summary" in d ==> CountMessagesIn(d["summary"], counts)
    requires "results" in d ==> ResultsMessagesIn(d["results"], results)
    ensures ReportsEveryViolation(d, missing + (fields + counts + results))
  {
    var all := missing + (fields + counts + results);
    assert all == missing + fields + (counts + results);
    FieldMessagesGrow(d, missing, fields, counts + results);
    if "summary" in d {
      assert all == missing + fields + counts + results;
      CountMessagesGrow(d["summary"], missing + fields, counts, results);
    }
    if "results" in d {
      assert all == missing + fields + counts + results + [];
      ResultsMessagesGrow(d["results"], missing + fields + counts, results, []);
    }
  }

  /** `validate_summary`. */
  function ValidateSummary(payload: Json): (errors: seq<string>)
    ensures !payload.JObject? ==> errors == ["summary must be a JSON object"]
    ensures payload.JObject? ==>
      var missing := MissingMessages("missing field: ", payload.fields.Keys, RequiredFields);
      |missing| <= |errors| && errors[..|missing|] == missing
    ensures payload.JObject? ==> ReportsEveryViolation(payload.fields, errors)
  {
    match payload
    case JObject(d) =>
      var missing := MissingMessages("missing field: ", d.Keys, RequiredFields);
      var fields := FieldErrors(d);
      var counts := SummaryErrors(d);
      var results := ResultsErrors(d);
      var rest := fields + counts + results;
      assert (missing + rest)[..|missing|] == missing;
      CollectAll(d, missing, fields, counts, results);
      missing + rest
    case _ => ["summary must be a JSON object"]
  }

  /** The validator reports nothing exactly for the artifacts the reference
      definition accepts. */
  lemma ValidateSummaryIff(payload: Json)
    ensures ValidateSummary(payload) == [] <==> IsValidSummary(payload)
  {
    if payload.JObject? {
      if RequiredFields <= payload.fields.Keys {
        AllPresent(payload.fields);
      } else {
        SomeMissing(payload);
      }
    }
  }

  /** With a required field absent the artifact is invalid, and reported. */
  lemma SomeMissing(payload: Json)
    requires payload.JObject? && !(RequiredFields <= payload.fields.Keys)
    ensures ValidateSummary(payload) != [] && !IsValidSummary(payload)
  {
    var missing := MissingMessages("missing field: ", payload.fields.Keys, RequiredFields);
    assert missing != [];
    assert |ValidateSummary(payload)| >= |missing|;
  }

  /** With every required field present only the three groups of checks speak. */
  lemma AllPresent(d: map<string, Json>)
    requires RequiredFields <= d.Keys
    ensures ValidateSummary(JObject(d)) == [] <==> IsValidSummary(JObject(d))
  {
    var missing := MissingMessages("missing field: ", d.Keys, RequiredFields);
    assert missing == [];
    assert ValidateSummary(JObject(d)) == missing + (FieldErrors(d) + SummaryErrors(d) + ResultsErrors(d));
    PresentFieldsIff(d);
  }

  /** With every required field present, validity is the conjunction of the
      three groups of checks. */
  lemma PresentFieldsIff(d: map<string, Json>)
    requires RequiredFields <= d.Keys
    ensures IsValidSummary(JObject(d)) <==> FieldErrors(d) + SummaryErrors(d) + ResultsErrors(d) == []
  {
    assert "summary" in d && "results" in d;
    ConcatEmpty(FieldErrors(d), SummaryErrors(d), ResultsErrors(d));
  }

  lemma ConcatEmpty<T>(a: seq<T>, b: seq<T>, c: seq<T>)
    ensures a + b + c == [] <==> a == [] && b == [] && c == []
  {
    assert |a + b + c| == |a| + |b| + |c|;
  }

  /** Every missing top-level field is reported, whatever else is wrong. */
  lemma ReportsEveryMissingField(payload: Json, f: string)
    requires payload.JObject? && f in RequiredFields && f !in payload.fields
    ensures "missing field: " + f in ValidateSummary(payload)
  {
    var missing := MissingMessages("missing field: ", payload.fields.Keys, RequiredFields);
    assert "missing field: " + f in missing;
    PrefixMember(ValidateSummary(payload), missing, "missing field: " + f);
  }

  lemma PrefixMember<T>(xs: seq<T>, prefix: seq<T>, x: T)
    requires |prefix| <= |xs| && xs[..|prefix|] == prefix && x in prefix
    ensures x in xs
  {
    var i :| 0 <= i < |prefix| && prefix[i] == x;
    assert xs[..|prefix|][i] == xs[i];
  }

  /** `isinstance(True, int)` holds in Python, so booleans pass as counts
      and durations: a summary whose counts are all `true` is accepted. */
  lemma BooleanCountsAccepted(summary: map<string, Json>)
    requires forall k :: k in CountFields ==> k in summary && summary[k] == JBool(true)
    ensures ValidCounts(JObject(summary))
    ensures CountErrors(summary, CountFields) == []
  {
  }
}

=== FILE: wrappers.dfy ===
/** Optional values and results, the shapes Python expresses with `None`
    and with raised exceptions. */
module Wrappers {

  /** A value that may be absent, Python's `X | None`. */
  datatype Option<+T> = None | Some(value: T) {

    /** The value, or `default` when absent (Python's `x if x is not None else default`). */
    function GetOr(default: T): T {
      match this
      case Some(v) => v
      case None => default
    }
  }

  /** Either a value or the error that was raised instead. */
  datatype Result<+R, +E> = Success(value: R) | Failure(error: E)
}
